=== FILE: README.md ===
# offline-ollama-rag, modelled in Dafny

This project models the deterministic core of an offline retrieval-augmented chat
assistant. The assistant has two ingestion pipelines:

- a local pipeline that reads PDFs from `docs/`;
- a Google Drive pipeline that exports Docs and Sheets and downloads PDFs.

Both pipelines cut text into overlapping word windows, embed each chunk through a
local Ollama model, and store it in ChromaDB under a deterministic id. A chat loop
embeds a question, retrieves and reranks candidate chunks, and builds the prompt
for the language model.

Everything the core hands to the outside world is a parameter of the model:

- the embedder;
- the vector store's `add` and `query`;
- Drive exports and downloads;
- PDF page extraction;
- cosine similarity;
- the age of a timestamp;
- the current time.

Each module follows one source file.

| module | source file | what it holds |
|---|---|---|
| `Wrappers` | – | `Option` and `Result` |
| `Strings` | – | Python's `split()`, `strip()`, `lower()`, `join`, `str(int)` on `seq<char>` |
| `Metadata` | – | chunk metadata as a record of optional fields; the store's reply shapes |
| `Chunker` | the window loop of `_chunk_text` and `load_pdf_chunks` | `range(0, n, size - overlap)` windows over a word sequence |
| `PdfLoader` | `pdf_loader.py` | per-page chunking of a PDF |
| `DriveSheet` | `_process_csv_content` | the CSV linearizer |
| `DriveLoader` | `google_drive/gdrive_loader.py` | MIME dispatch, `_chunk_text`, the Drive PDF rewrite |
| `Ranking` | the `sorted(..., reverse=True)` calls | a stable descending insertion sort |
| `Retriever` | `retriever.py` | local ids, result normalisation, plain rerank |
| `DriveRetriever` | `google_drive/gdrive_retriever.py` | Drive ids, where clause, boosted rerank, statistics |
| `DriveManager` | `google_drive/gdrive_manager.py` | the Drive ingestion tracker |
| `PdfManager` | `pdf_manager.py` | the local PDF ingestion tracker |
| `DriveEmbedder` | `google_drive/gdrive_embedder.py` | context prefixes, batch embedding, bounded retry |
| `DriveChat` | `google_drive/gdrive_chat.py` | source formatter, command classifier, answer selection |

The code and its comments disagree in a few places. The model follows the code:

- `rerank_gdrive_results` calls its threshold a "minimum similarity threshold", but it filters nothing; the threshold only sets the warning flag.
- A comment in `add_chunks_gdrive` calls its ids unique, but they collide for Drive PDFs.

The two trackers also differ: the Drive tracker loads a corrupt track file as the empty
index, while the PDF tracker's `load_ingestion_index` lets the JSON error propagate.

## Model

| member | source | states |
|---|---|---|
| Chunker.Windows | pdf_loader.py:23-24 | the step `size - overlap` is not validated: a zero step is an error (Python's `range` raises) and a negative step gives no windows |
| Chunker.WindowsShape | google_drive/gdrive_loader.py:187-193 | with `0 <= overlap < size` there are ceil(N/step) windows; window k starts at k·step and holds `words[k·step : k·step + size]`, clamped at the end |
| Chunker.DefaultExample | google_drive/gdrive_loader.py:169-193 | with the defaults 200/50, 450 words give windows at 0, 150 and 300 of 200, 200 and 150 words |
| Chunker.Coverage | google_drive/gdrive_loader.py:190-195 | every word position lies in window ⌊p/step⌋, which holds that word |
| Chunker.AdjacentOverlap | google_drive/gdrive_loader.py:190-195 | a full window and its successor share exactly `overlap` words |
| Chunker.Reconstruction | google_drive/gdrive_loader.py:190-195 | the first `step` words of every window, plus all of the last, give back the word sequence |
| PdfLoader.PagesChunks | pdf_loader.py:21-26 | chunking fails only when a page exists and the step is zero |
| PdfLoader.LoadPdfChunks | pdf_loader.py:6-37 | no contract of its own; `PagesChunks` and `LoadPdfChunksShape` state when it fails and what it yields |
| PdfLoader.LoadPdfChunksShape | pdf_loader.py:18-37 | each page with n words gives ceil(n/step) chunks; chunks are in page order and by offset within a page; each comes from exactly one page |
| PdfLoader.FromPageWords | pdf_loader.py:22-27 | a chunk's words are a contiguous slice of one page starting at its `chunk_index`, between 1 and `chunk_size` words |
| PdfLoader.PdfPositionsDistinct | pdf_loader.py:28-35 | no two chunks of one file share a (page, chunk_index) pair |
| PdfLoader.UnvalidatedStep | pdf_loader.py:6-23 | `chunk_size == overlap` on a non-empty PDF fails; `chunk_size < overlap` yields no chunks |
| PdfLoader.NegativeStepEmpty | pdf_loader.py:23 | a negative step yields no chunks on any page |
| DriveSheet.ProcessCsvLines | google_drive/gdrive_loader.py:141-163 | the output lines are the header line followed by one rendered line per listed row, in order |
| DriveSheet.ProcessCsvContent | google_drive/gdrive_loader.py:137-167 | no contract of its own; `ProcessCsvLines`, `RowsListed` and `RowFields` state its output |
| DriveSheet.ProcessCsvStartsWithHeader | google_drive/gdrive_loader.py:150-151 | the text opens with "Spreadsheet with columns: " and the header fields joined by ", " |
| DriveSheet.RowsListed | google_drive/gdrive_loader.py:154-161 | the listed rows are exactly the non-blank lines after the header, in order, numbered by their position |
| DriveSheet.RowFields | google_drive/gdrive_loader.py:156-160 | a row shows exactly the non-blank cells, in column order, each stripped and labelled by its header or `Col{j}` |
| DriveSheet.GapExample | google_drive/gdrive_loader.py:154-160 | a blank line leaves a gap in the row numbers, and an extra cell is labelled `Col2` |
| DriveSheet.SplitJoin | google_drive/gdrive_loader.py:141-163 | splitting a newline-joined list of newline-free lines gives the lines back |
| DriveLoader.GetFileType | google_drive/gdrive_loader.py:209-226 | a MIME type is unknown exactly when it is not one of the four in the table |
| DriveLoader.FileTypeRoundTrip | google_drive/gdrive_loader.py:219-226 | `get_file_type` and the table are inverse on the four known types |
| DriveLoader.FileTypeNames | google_drive/gdrive_loader.py:219-226 | the four types are named docs, sheets, pdf and text; anything else is unknown |
| DriveLoader.ChunkText | google_drive/gdrive_loader.py:169-193 | chunking fails only for non-blank text with a zero step |
| DriveLoader.ChunkTextShape | google_drive/gdrive_loader.py:187-205 | ceil(N/step) chunks; chunk k is window k joined by spaces, with chunk_index, word_count, file, drive_id and source_type as passed in |
| DriveLoader.BlankGuardRedundant | google_drive/gdrive_loader.py:184-193 | the blank-text guard changes the result only when the step is zero |
| DriveLoader.ChunkIndicesDistinct | google_drive/gdrive_loader.py:195-205 | chunks of one text have distinct chunk indices |
| DriveLoader.ChunkWordCount | google_drive/gdrive_loader.py:195-205 | the stored word count equals the number of words in the chunk text |
| DriveLoader.RewriteForDrive | google_drive/gdrive_loader.py:124-126 | the rewrite keeps one chunk per chunk |
| DriveLoader.RewriteKeepsPosition | google_drive/gdrive_loader.py:124-126 | the rewrite sets drive_id and 'Google Drive PDF' and keeps text, file, page and chunk_index |
| DriveLoader.LoadOnlySupported | google_drive/gdrive_loader.py:17-45 | only docs, sheets and pdf produce chunks, and only when their download succeeded |
| DriveLoader.LoadDriveDocument | google_drive/gdrive_loader.py:17-45 | no contract of its own; `LoadOnlySupported`, `LoadedChunksTagged` and `DrivePdfShape` state what it yields |
| DriveLoader.LoadedChunksTagged | google_drive/gdrive_loader.py:60-126 | every loaded chunk carries the file's drive id and the source type of its loader |
| DriveLoader.DrivePdfShape | google_drive/gdrive_loader.py:102-135 | a Drive PDF is chunked with step 150 from its temp path, pages numbered from 1 |
| Ranking.Insert | retriever.py:90-92 | insertion into a descending list keeps it sorted and adds exactly the new hit |
| Ranking.SortDesc | retriever.py:90-92 | the result is sorted by descending score and is a permutation of the input |
| Ranking.SortStable | retriever.py:90-92 | hits with equal scores keep their input order |
| Ranking.SortSorted | retriever.py:90-92 | sorting a sorted list changes nothing |
| Retriever.AddChunks | retriever.py:46-57 | the add call has one id, document and metadata per chunk in order, id `file_page_index`, or fails when a key is missing |
| Retriever.LocalIdInjective | retriever.py:49 | equal local ids mean equal file, page and chunk_index |
| Retriever.LocalId | retriever.py:49 | no contract of its own; `LocalIdInjective` states that the id determines file, page and chunk index |
| Retriever.PdfIdsDistinct | retriever.py:49 | ids of one PDF's chunks are pairwise distinct |
| Retriever.AddPdfChunks | retriever.py:46-57 | storing a PDF's chunks never fails and gives every chunk its own id |
| Retriever.SearchSimilarChunks | retriever.py:60-85 | the first query's lists, or None when embeddings or documents are absent or anything raised |
| Retriever.Candidates | retriever.py:88-97 | one candidate per (doc, metadata, score) triple |
| Retriever.RerankResults | retriever.py:88-97 | a descending permutation of the candidates with warn = score below threshold |
| Retriever.RerankStable | retriever.py:90-92 | tied candidates keep their retrieval order |
| DriveRetriever.AddChunksGdrive | google_drive/gdrive_retriever.py:23-63 | one id, document and stamped metadata per chunk, with the embeddings passed through |
| DriveRetriever.DriveIdIffKey | google_drive/gdrive_retriever.py:40-42 | two Drive ids are equal exactly when their (drive id, chunk index) keys are |
| DriveRetriever.DriveChunkId | google_drive/gdrive_retriever.py:38-42 | no contract of its own; `DriveIdIffKey` states when two ids are equal |
| DriveRetriever.Stamp | google_drive/gdrive_retriever.py:48-52 | no contract of its own; `StoredChunkAdmitted` states what the stamped metadata keeps and adds |
| DriveRetriever.WhereClause | google_drive/gdrive_retriever.py:79-86 | the where clause always requires collection_type google_drive |
| DriveRetriever.DriveIdsDistinctIff | google_drive/gdrive_retriever.py:40-42 | the ids are distinct exactly when the keys are |
| DriveRetriever.StoredChunkAdmitted | google_drive/gdrive_retriever.py:45-86 | a stored chunk keeps its metadata and gains `ingested_at` and collection_type google_drive; under the assumed where semantics a filter admits it exactly when its type and file name match |
| DriveRetriever.DocIdsDistinct | google_drive/gdrive_retriever.py:40-42 | ids of a Doc's or Sheet's chunks are distinct |
| DriveRetriever.NormalisationsAgree | google_drive/gdrive_retriever.py:96-111 | the Drive result normalisation agrees with the local one |
| DriveRetriever.SearchDriveChunks | google_drive/gdrive_retriever.py:65-111 | no contract of its own; `NormalisationsAgree` and `SearchResultHasDocs` state its result |
| DriveRetriever.DrivePdfIdsCollide | google_drive/gdrive_retriever.py:40-42 | two pages of one Drive PDF produce the same id for their first chunks |
| DriveRetriever.PagedIdInjective | google_drive/gdrive_retriever.py:40-42 | the corrected id scheme with the page determines key and page |
| DriveRetriever.PagedIdsDistinct | google_drive/gdrive_retriever.py:40-42 | under the corrected scheme the ids of any loaded Drive file are distinct |
| DriveRetriever.DocChunkHasNoPage | google_drive/gdrive_loader.py:195-205 | Doc and Sheet chunks carry no page |
| DriveRetriever.RerankGdrive | google_drive/gdrive_retriever.py:113-164 | a permutation of all candidates sorted by boosted score; nothing is filtered |
| DriveRetriever.RerankGdriveStable | google_drive/gdrive_retriever.py:161-163 | ties keep retrieval order |
| DriveRetriever.RerankGdriveResults | google_drive/gdrive_retriever.py:128-157 | each result's score is base plus recency plus type boost, and its warning compares only the base score |
| DriveRetriever.BoostKeepsWarning | google_drive/gdrive_retriever.py:150-157 | a boosted score above the threshold still warns when the base score is below it |
| DriveRetriever.RecencyBounds | google_drive/gdrive_retriever.py:137-147 | recency is 0.1·(7−d)/7 within seven days, otherwise zero, and never negative |
| DriveRetriever.DriveIdsMembers | google_drive/gdrive_retriever.py:182-191 | the drive ids are exactly those present in some metadata |
| DriveRetriever.TallyCounts | google_drive/gdrive_retriever.py:182-191 | the type tally counts each metadata once under its source type, 'Unknown' by default |
| DriveRetriever.StatsOfCollection | google_drive/gdrive_retriever.py:193-197 | non-empty stats: chunk count, distinct documents, type counts summing to the chunk count |
| DriveRetriever.GetDocumentStats | google_drive/gdrive_retriever.py:166-202 | no contract of its own; `StatsOfCollection`, `EmptyStatsKeys` and `WelcomeIsSafe` state its branches |
| DriveRetriever.EmptyStatsKeys | google_drive/gdrive_retriever.py:177-178 | the empty branch uses the keys `documents` and `types` instead |
| DriveRetriever.GetDocumentStatsFixed | google_drive/gdrive_retriever.py:166-202 | the corrected stats always have the three expected keys |
| DriveRetriever.FixedStatsAgree | google_drive/gdrive_retriever.py:166-202 | the corrected stats agree with the original everywhere but the empty branch |
| DriveManager.LoadIndex | google_drive/gdrive_manager.py:23-35 | a missing or corrupt track file loads as the empty index |
| DriveManager.ScanQuery | google_drive/gdrive_manager.py:57-63 | the query extends the base query, and equals it exactly when no folder is given |
| DriveManager.BaseQueryText | google_drive/gdrive_manager.py:59-60 | the base query ORs the three supported MIME clauses in parentheses, then " and trashed=false" |
| DriveManager.ScanQueryInFolder | google_drive/gdrive_manager.py:62-63 | a folder id appends " and '<folder>' in parents" |
| DriveManager.NewDocsMembers | google_drive/gdrive_manager.py:82-103 | a document is selected exactly when it is new or its modified time changed |
| DriveManager.NewDocs | google_drive/gdrive_manager.py:82-103 | never selects more documents than were listed; `NewDocsMembers` states which |
| DriveManager.NewDocsConcat | google_drive/gdrive_manager.py:92-103 | selection distributes over concatenation |
| DriveManager.NewDocsFresh | google_drive/gdrive_manager.py:92-103 | with an empty index every document is selected |
| DriveManager.UnreadableTrackSelectsAll | google_drive/gdrive_manager.py:22-35 | a missing or corrupt track file makes every document new |
| DriveManager.Embeddings | google_drive/gdrive_manager.py:156-164 | only truthy vectors are kept, and any raising call fails the document |
| DriveManager.EmbeddingsExact | google_drive/gdrive_manager.py:156-168 | the count matches the chunks exactly when every chunk got a truthy vector |
| DriveManager.Outcome | google_drive/gdrive_manager.py:142-188 | a document is stored exactly when its type is known, it has chunks, every embedding is truthy and the add succeeded; the ids are the add's result |
| DriveManager.ProcessDoc | google_drive/gdrive_manager.py:171-188 | a skipped document leaves the index unchanged; a stored one sets only its own entry |
| DriveManager.StoredIsSettled | google_drive/gdrive_manager.py:171-182 | a stored document is not selected again |
| DriveManager.ProcessAll | google_drive/gdrive_manager.py:133-188 | the loop never removes an entry and changes only entries of processed documents |
| DriveManager.ProcessAllAt | google_drive/gdrive_manager.py:133-188 | each processed document's entry is what its own outcome decides |
| DriveManager.ProcessNewGdriveDocs | google_drive/gdrive_manager.py:105-192 | the index is written exactly when authenticated with something new; the write keeps old keys and adds only listed ids |
| DriveManager.Rerun | google_drive/gdrive_manager.py:92-182 | after a run a document is selected again exactly when it needed processing and was skipped |
| PdfManager.LoadIndex | pdf_manager.py:13-21 | a missing file loads as empty; a corrupt file is an error |
| PdfManager.GetAllPdfPaths | pdf_manager.py:30-41 | the paths are exactly "docs/" + every listed name ending in ".pdf", case-insensitively |
| PdfManager.UpperCaseExtension | pdf_manager.py:37-41 | "REPORT.PDF" and "notes.Pdf" are PDFs; "notes.pdf.txt" is not |
| PdfManager.NewPdfsMembers | pdf_manager.py:43-50 | a path is new exactly when it is listed and not indexed |
| PdfManager.NewPdfs | pdf_manager.py:43-50 | never selects more paths than were listed; `NewPdfsMembers` states which |
| PdfManager.IndexedNeverReselected | pdf_manager.py:47-50 | an indexed path is never selected, even if the file changed |
| PdfManager.NewPdfsConcat | pdf_manager.py:47-50 | selection distributes over concatenation |
| PdfManager.EmbedAll | pdf_manager.py:74 | one vector per chunk in order, or failure if any call raised |
| PdfManager.EmptyVectorsStored | pdf_manager.py:74-76 | empty vectors from a failed embedding are stored unchecked |
| PdfManager.Outcome | pdf_manager.py:68-76 | a PDF without chunks is not recorded; otherwise its ids are what the add returned |
| PdfManager.PdfLoop | pdf_manager.py:68-77 | the loop only adds new entries, and any exception aborts the run |
| PdfManager.PdfLoopAt | pdf_manager.py:68-77 | each new path's entry is its own add result |
| PdfManager.ProcessNewPdfs | pdf_manager.py:52-79 | up to date exactly when nothing is new; a write keeps existing entries and adds only discovered paths |
| PdfManager.Rerun | pdf_manager.py:47-76 | after a run a path is selected again exactly when it was new and had no text |
| DriveEmbedder.EnhancedText | google_drive/gdrive_embedder.py:24-43 | the text is kept exactly when neither key is present; otherwise it is prefixed by "Document type: " or "From document: " |
| DriveEmbedder.EmbedTextGdrive | google_drive/gdrive_embedder.py:12-43 | with neither key present the plain text is embedded |
| DriveEmbedder.EnhancedTextBoth | google_drive/gdrive_embedder.py:30-43 | with both keys the prefix is "Document type: X \| From document: Y \| Content: " |
| DriveEmbedder.EnhancedTextOneKey | google_drive/gdrive_embedder.py:30-43 | with exactly one key present only that key's part precedes " \| Content: " |
| DriveEmbedder.EmptySourceTypeDiffers | google_drive/gdrive_embedder.py:30-96 | an empty source type is prefixed by one builder and dropped by the other |
| DriveEmbedder.EmbedBatchSpec | google_drive/gdrive_embedder.py:45-61 | the batch succeeds exactly when every pair embeds, and then holds one result per pair, in order, each the embedding of that pair |
| DriveEmbedder.EmbedBatch | google_drive/gdrive_embedder.py:45-61 | a successful batch has one result per pair; `EmbedBatchSpec` states which |
| DriveEmbedder.EmbedBatchConcat | google_drive/gdrive_embedder.py:55-61 | batching distributes over concatenation |
| DriveEmbedder.ContextualPrompt | google_drive/gdrive_embedder.py:74-96 | the text is kept exactly when no element is shown; otherwise it is wrapped as "[…]\n\n" + text |
| DriveEmbedder.PromptAllElements | google_drive/gdrive_embedder.py:74-96 | with a truthy source type and file and a chunk index the header is "[Source: X \| Document: Y \| Section: i]" |
| DriveEmbedder.PromptDropsFalsySource | google_drive/gdrive_embedder.py:80-86 | a falsy source type is left out, giving "[Document: Y]" when only the file is shown |
| DriveEmbedder.SectionZeroShown | google_drive/gdrive_embedder.py:86-88 | chunk index 0 is shown as "[Section: 0]" |
| DriveEmbedder.GetEmbeddingWithRetry | google_drive/gdrive_embedder.py:98-119 | at most max_retries calls; the first non-empty vector, or [] after all attempts failed |
| DriveEmbedder.RetryNone | google_drive/gdrive_embedder.py:109-119 | zero or negative retries make no call and return [] |
| DriveEmbedder.RetryFirstSuccess | google_drive/gdrive_embedder.py:109-119 | the result is the vector of the first successful attempt, with all earlier attempts failed |
| DriveEmbedder.EmbedGdriveChunk | google_drive/gdrive_embedder.py:122-141 | the contextual prompt is tried one to three times; [] exactly when all three failed |
| DriveChat.FormatDriveSource | google_drive/gdrive_chat.py:23-48 | empty exactly when no key is present; starts with the file part and ends with the link part |
| DriveChat.FormatAllParts | google_drive/gdrive_chat.py:33-48 | with all keys: file, "(type)" and link joined by " \| " |
| DriveChat.FormatFileAndType | google_drive/gdrive_chat.py:36-48 | with file and type but no Drive id the link part is left out |
| DriveChat.FormatTypeOnly | google_drive/gdrive_chat.py:36-48 | with a type only the source is "(type)" |
| DriveChat.FormatLinkOnly | google_drive/gdrive_chat.py:36-48 | with a Drive id only the source is the link part |
| DriveChat.FormatFileAndLink | google_drive/gdrive_chat.py:36-48 | with file and Drive id but no type the type part is left out |
| DriveChat.SpecialCommand | google_drive/gdrive_chat.py:68-102 | stats/status/info and help/? after lowercase and strip, nothing else |
| DriveChat.Classify | google_drive/gdrive_chat.py:113-126 | exit, quit or bye in any case ends the loop; otherwise blank input is skipped; otherwise a stats or help command is handled as that command; anything else is a question, each case an if-and-only-if |
| DriveChat.StatsWordIsCommand | google_drive/gdrive_chat.py:113-126 | "Stats" is the stats command |
| DriveChat.ExitWordEndsLoop | google_drive/gdrive_chat.py:113-118 | "EXIT" ends the loop |
| DriveChat.ClassifyStripped | google_drive/gdrive_chat.py:113 | classification ignores surrounding whitespace |
| DriveChat.Others | google_drive/gdrive_chat.py:193-197 | at most two further results, positions 2 and 3 |
| DriveChat.AnswerQuestion | google_drive/gdrive_chat.py:132-197 | an answer uses the first reranked result, a highest-scoring candidate, as context and lists the second and third reranked results, which score no higher |
| DriveChat.Prompt | google_drive/gdrive_chat.py:178-183 | no contract of its own; `AnswerQuestion` states that the answer is built from this prompt |
| DriveChat.SortedHead | google_drive/gdrive_chat.py:152-159 | the head of a sorted permutation is a maximum |
| DriveChat.AnsweredIff | google_drive/gdrive_chat.py:132-159 | the LLM is called exactly when the embedding is truthy and the search returned candidates |
| DriveChat.SearchResultHasDocs | google_drive/gdrive_chat.py:138-149 | a successful search always has documents |
| DriveChat.StatsCommand | google_drive/gdrive_chat.py:78-92 | a report is produced exactly when `unique_documents` and `total_chunks` hold counts and `document_types` holds a tally, and it shows those three values |
| DriveChat.WelcomeIsSafe | google_drive/gdrive_chat.py:50-66 | the welcome message reads only keys that are present |
| DriveChat.StatsCommandOfCollection | google_drive/gdrive_chat.py:78-92 | on a non-empty collection the stats command reports the distinct documents, the chunk count and type counts summing to it |
| DriveChat.StatsCommandFailsWhenEmpty | google_drive/gdrive_chat.py:83 | on an empty collection the stats command fails |
| DriveChat.StatsCommandFixed | google_drive/gdrive_chat.py:78-92 | with corrected statistics the stats command always succeeds |

## Left out

- The OAuth flow and token files (`google_drive/gdrive_auth.py`) are external authentication; the model takes `authenticated` as a flag.
- The HTTP call to Ollama's embedding endpoint and the `ollama run` subprocess are external; the embedder is an oracle that may fail (`None`) or return an empty vector.
- ChromaDB's `add`, `query`, `get` and `peek`, nearest-neighbour search and duplicate-id behaviour are external; the store is modelled as functions.
- `check_embedding_dimension` only prints.
- The Drive API call is left out. `scan_drive_documents` makes one `files().list` call and ignores `nextPageToken`, so only the first page (at most `max_results`, 100 by default) is ever seen; the model takes that page as its input list.
- The /tmp files of the Doc, Sheet and PDF loaders are left out. Exports and downloads are a `Download` record.
- PyMuPDF text extraction is external; pages are given as strings.
- JSON persistence of both index files is left out; a track file is Missing, Corrupt (a JSON decode failure) or Parsed, and a run's write is the `Written` outcome.
- `cos_sim`, floating-point rounding, `datetime.now()` and ISO-8601 parsing are left out. Scores are `real`, the age of a timestamp is an oracle, and `processed_time` and `ingested_at` take a single `now` per run.
- The interactive loops, colours, tqdm progress bars, `simulate_loading`, the welcome message's printing and `query_llm` are I/O.
- `search_by_document_name`, `list_processed_documents`, `update_gdrive_ingestion_index` and `update_ingestion_index` are outside this model.
- The entry points `rag_pipeline.py`, `rag_pipeline_gdrive.py`, `chat_loop.py` and `quick_test_chat` are wiring.
- The test scripts under `test_and_qa-Scripts` only print live results.
- `_process_csv_content`'s fallback after an exception is left out: nothing in the linearizer can raise, so it is unreachable.
- The CSV linearizer splits naively; RFC 4180 quoting is not part of the source either.
- Strings.Lower: lower-cases ASCII only, where Python's `str.lower` covers all of Unicode.
- DriveManager.ProcessNewGdriveDocs: an exception outside the per-document try (loading a track file that is not UTF-8 or cannot be read, listing, writing) is not modelled.
- DriveRetriever.WhereClause: states only the collection equality; the filters it adds are stated through `StoredChunkAdmitted`.
- DriveRetriever.StoredChunkAdmitted: its filter half rests on `Admits`, an assumed store semantics (all keys must hold, `$contains` as a substring test). The source only builds the where dict, and a store may read it differently or reject it.

## Findings

| source | as written | input that shows it | evidently intended | confidence | as-written member | corrected member |
|---|---|---|---|---|---|---|
| google_drive/gdrive_retriever.py:40-42 | the Drive id is `gdrive_<drive_id>_<chunk_index>`, and Drive PDF chunks restart `chunk_index` at 0 on every page | a Drive PDF with two pages that both hold words: both first chunks get `gdrive_<id>_0` | ids unique per chunk, as the comment at line 39 says, e.g. by including the page | not executed | DriveRetriever.DrivePdfIdsCollide | DriveRetriever.PagedIdsDistinct |
| google_drive/gdrive_retriever.py:177-178 | an empty collection returns the keys `documents` and `types` | the `stats` command on an empty collection reads `unique_documents` (gdrive_chat.py:83) and raises KeyError | the same keys `unique_documents` and `document_types` in every branch | not executed | DriveChat.StatsCommandFailsWhenEmpty | DriveChat.StatsCommandFixed |

=== FILE: chunker.dfy ===
/** The word-window loop shared by the Drive text chunker and the PDF loader:
    `for i in range(0, len(words), chunk_size - overlap): chunk_words = words[i:i + chunk_size]`,
    skipping a window whose slice is empty. */
module Chunker {
  import opened Wrappers

  /** One emitted window: its word offset `i` and the slice `words[i:i + chunk_size]`. */
  datatype Window = Window(start: nat, words: seq<string>)

  /** `range(0, n, 0)` raises ValueError before the loop runs. */
  datatype ChunkError = ZeroStep

  function Min(a: int, b: int): int {
    if a <= b then a else b
  }

  /** ceil(n / d) for a positive divisor: the number of steps of `d` from 0 that stay
      below `n`.  `CeilDivBounds` and `CeilDivClosedForm` relate it to division. */
  function CeilDiv(n: nat, d: nat): nat
    requires d > 0
    decreases n
  {
    if n == 0 then 0 else if n <= d then 1 else 1 + CeilDiv(n - d, d)
  }

  /** Python's slice `s[a:b]` for a non-negative start: a negative end counts from
      the back, an end past the length is clamped, and an empty range gives `[]`. */
  function PySlice<T>(s: seq<T>, a: nat, b: int): (r: seq<T>)
    ensures 0 <= b ==> r == (if a < Min(b, |s|) then s[a..Min(b, |s|)] else [])
  {
    var e := if b < 0 then (if |s| + b < 0 then 0 else |s| + b) else Min(b, |s|);
    if a < e then s[a..e] else []
  }

  /** The loop from offset `i` on, for a positive step. */
  function WindowsFrom(words: seq<string>, i: nat, size: int, step: nat): seq<Window>
    requires step > 0
    decreases |words| - i
  {
    if i >= |words| then []
    else
      var chunk := PySlice(words, i, i + size);
      var rest := WindowsFrom(words, i + step, size, step);
      if chunk == [] then rest else [Window(i, chunk)] + rest
  }

  /** The whole loop for given `chunk_size` and `overlap`.  The source never validates
      them: a zero step raises, a negative step gives an empty range. */
  function Windows(words: seq<string>, size: int, overlap: int): (r: Result<seq<Window>, ChunkError>)
    ensures r.Err? <==> size == overlap
    ensures size < overlap ==> r == Ok([])
  {
    var step := size - overlap;
    if step == 0 then Err(ZeroStep)
    else if step < 0 then Ok([])
    else Ok(WindowsFrom(words, 0, size, step))
  }

  /** The configurations under which the loop does what its comment says. */
  predicate ValidConfig(size: int, overlap: int) {
    0 <= overlap < size
  }

  /** Window `k` of a loop started at `i`: offset `i + k*step`, slice clamped at the end. */
  predicate WindowAt(words: seq<string>, w: Window, start: int, size: nat) {
    0 <= start < |words| && w.start == start && w.words == words[start..Min(start + size, |words|)]
  }

  /** First `step` words of every window but the last, all of the last: the words each
      window adds that the next one does not repeat. */
  function Stitch(ws: seq<Window>, step: nat): seq<string> {
    if |ws| == 0 then []
    else if |ws| == 1 then ws[0].words
    else ws[0].words[..Min(step, |ws[0].words|)] + Stitch(ws[1..], step)
  }

  // ---------------------------------------------------------------------------
  // Arithmetic helpers

  lemma MulBound(a: int, d: int)
    requires d > 0
    ensures a >= 1 ==> a * d >= d
    ensures a <= -1 ==> a * d <= -d
  {
    if a >= 1 {
      assert a * d == (a - 1) * d + d;
      assert (a - 1) * d >= 0;
    }
    if a <= -1 {
      assert a * d == (a + 1) * d - d;
      assert (a + 1) * d <= 0;
    }
  }

  /** Later multiples of a positive step are larger. */
  lemma MulStrict(a: nat, b: nat, step: nat)
    requires step > 0 && a < b
    ensures a * step < b * step
  {
    assert b * step == a * step + (b - a) * step;
    MulBound(b - a, step);
  }

  lemma DivUnique(x: int, d: int, q: int)
    requires d > 0 && q * d <= x < q * d + d
    ensures x / d == q
  {
    var q', r' := x / d, x % d;
    assert x == q' * d + r' && 0 <= r' < d;
    assert (q' - q) * d == q' * d - q * d;
    MulBound(q' - q, d);
  }

  lemma CeilDivZero(d: nat)
    requires d > 0
    ensures CeilDiv(0, d) == 0
  {
  }

  lemma CeilDivStep(m: nat, d: nat)
    requires d > 0 && m > 0
    ensures CeilDiv(m, d) == 1 + CeilDiv(if m > d then m - d else 0, d)
  {
  }

  /** `CeilDiv(n, d)` steps reach at least `n`, and one step fewer stays below `n`. */
  lemma {:induction false} CeilDivBounds(n: nat, d: nat)
    requires d > 0
    ensures n <= CeilDiv(n, d) * d
    ensures n > 0 ==> (CeilDiv(n, d) - 1) * d < n
    ensures n == 0 ==> CeilDiv(n, d) == 0
    decreases n
  {
    if n > d {
      CeilDivBounds(n - d, d);
      var c := CeilDiv(n - d, d);
      assert CeilDiv(n, d) == c + 1;
      assert (c + 1) * d == c * d + d;
    } else if n > 0 {
      assert CeilDiv(n, d) == 1;
    }
  }

  /** The recursive count is the closed form `(n + d - 1) / d`. */
  lemma CeilDivClosedForm(n: nat, d: nat)
    requires d > 0
    ensures CeilDiv(n, d) == (n + d - 1) / d
  {
    CeilDivBounds(n, d);
    var c := CeilDiv(n, d);
    if n == 0 {
      DivUnique(d - 1, d, 0);
    } else {
      assert (c - 1) * d == c * d - d;
      DivUnique(n + d - 1, d, c);
    }
  }

  /** Position `p < n` falls in the step-block `p / step`, one of the first `ceil(n / step)`. */
  lemma WindowOfPosition(n: nat, step: nat, p: nat)
    requires step > 0 && p < n
    ensures p / step < CeilDiv(n, step)
    ensures (p / step) * step <= p < (p / step) * step + step
  {
    DivBlock(p, step);
    CeilDivBounds(n, step);
    MulLess(p / step, CeilDiv(n, step), step);
  }

  /** `p` lies in its own block of `d`. */
  lemma DivBlock(p: nat, d: nat)
    requires d > 0
    ensures (p / d) * d <= p < (p / d) * d + d
  {
  }

  lemma MulSucc(k: nat, d: nat)
    ensures (k + 1) * d == k * d + d
  {
  }

  lemma MulLess(a: nat, b: nat, d: nat)
    requires d > 0 && a * d < b * d
    ensures a < b
  {
    assert (b - a) * d == b * d - a * d;
    MulBound(b - a, d);
  }

  // ---------------------------------------------------------------------------
  // Shape of the loop's output

  /** Under a positive size and step, the loop emits `ceil((n - i) / step)` windows and
      window `k` starts at `i + k*step` and holds `words[i + k*step : i + k*step + size]`. */
  lemma WindowsFromShape(words: seq<string>, i: nat, size: nat, step: nat)
    requires step > 0 && size > 0
    ensures var ws := WindowsFrom(words, i, size, step);
      && |ws| == CeilDiv(if i <= |words| then |words| - i else 0, step)
      && forall k :: 0 <= k < |ws| ==> WindowAt(words, ws[k], i + k * step, size)
  {
    WindowsFromCount(words, i, size, step);
    WindowsFromPositions(words, i, size, step);
  }

  /** Window `k` of the loop from `i` is the window at offset `i + k*step`. */
  lemma {:induction false} WindowsFromPositions(words: seq<string>, i: nat, size: nat, step: nat)
    requires step > 0 && size > 0
    ensures forall k :: 0 <= k < |WindowsFrom(words, i, size, step)| ==>
      WindowAt(words, WindowsFrom(words, i, size, step)[k], i + k * step, size)
    decreases |words| - i
  {
    if i < |words| {
      WindowsFromPositions(words, i + step, size, step);
      forall k | 0 <= k < |WindowsFrom(words, i, size, step)|
        ensures WindowAt(words, WindowsFrom(words, i, size, step)[k], i + k * step, size)
      {
        if k == 0 {
          WindowsFromFirst(words, i, size, step, k);
        } else {
          WindowsFromSplit(words, i, size, step, k);
          ShiftAt(words, WindowsFrom(words, i + step, size, step)[k - 1], i, k, size, step);
        }
      }
    }
  }

  lemma WindowsFromFirst(words: seq<string>, i: nat, size: nat, step: nat, k: nat)
    requires step > 0 && size > 0 && k == 0 && k < |WindowsFrom(words, i, size, step)|
    ensures WindowAt(words, WindowsFrom(words, i, size, step)[k], i + k * step, size)
  {
    WindowsFromSplit(words, i, size, step, k);
  }

  /** The window at `(i + step) + (k - 1)*step` is the window at `i + k*step`. */
  lemma ShiftAt(words: seq<string>, w: Window, i: nat, k: nat, size: nat, step: nat)
    requires k > 0 && WindowAt(words, w, i + step + (k - 1) * step, size)
    ensures WindowAt(words, w, i + k * step, size)
  {
    MulSucc(k - 1, step);
  }

  /** The first window of a non-empty loop, and the later ones as the loop from `i + step`. */
  lemma WindowsFromSplit(words: seq<string>, i: nat, size: nat, step: nat, k: nat)
    requires step > 0 && size > 0 && k < |WindowsFrom(words, i, size, step)|
    ensures k == 0 ==> WindowAt(words, WindowsFrom(words, i, size, step)[0], i, size)
    ensures k > 0 ==> k - 1 < |WindowsFrom(words, i + step, size, step)|
    ensures k > 0 ==> WindowsFrom(words, i, size, step)[k] == WindowsFrom(words, i + step, size, step)[k - 1]
  {
    WindowsFromEmpty(words, i, size, step);
    WindowsFromUnfold(words, i, size, step);
  }

  lemma {:induction false} WindowsFromCount(words: seq<string>, i: nat, size: nat, step: nat)
    requires step > 0 && size > 0
    ensures |WindowsFrom(words, i, size, step)| == CeilDiv(if i <= |words| then |words| - i else 0, step)
    decreases |words| - i
  {
    if i < |words| {
      WindowsFromCount(words, i + step, size, step);
      WindowsFromUnfold(words, i, size, step);
      CeilDivStep(|words| - i, step);
    }
  }

  lemma WindowsShape(words: seq<string>, size: int, overlap: int)
    requires ValidConfig(size, overlap)
    ensures Windows(words, size, overlap).Ok?
    ensures var ws := Windows(words, size, overlap).value;
      && |ws| == CeilDiv(|words|, size - overlap)
      && forall k :: 0 <= k < |ws| ==> WindowAt(words, ws[k], k * (size - overlap), size)
  {
    WindowsFromShape(words, 0, size, size - overlap);
  }

  /** The worked example: 450 words with the defaults 200/50 give windows at offsets
      0, 150 and 300, the last holding 150 words. */
  lemma DefaultExample(words: seq<string>)
    requires |words| == 450
    ensures var ws := Windows(words, 200, 50).value;
      && |ws| == 3
      && ws[0].start == 0 && ws[1].start == 150 && ws[2].start == 300
      && |ws[0].words| == 200 && |ws[1].words| == 200 && |ws[2].words| == 150
  {
    WindowsShape(words, 200, 50);
    var ws := Windows(words, 200, 50).value;
    assert WindowAt(words, ws[2], 2 * 150, 200);
  }

  /** Every word lies in some window: word `p` lies in window `p / step`. */
  lemma Coverage(words: seq<string>, size: int, overlap: int, p: nat)
    requires ValidConfig(size, overlap) && p < |words|
    ensures var ws := Windows(words, size, overlap).value;
      var k := p / (size - overlap);
      && k < |ws|
      && ws[k].start <= p < ws[k].start + |ws[k].words|
      && ws[k].words[p - ws[k].start] == words[p]
  {
    var step := size - overlap;
    WindowsShape(words, size, overlap);
    var ws := Windows(words, size, overlap).value;
    var k := p / step;
    WindowOfPosition(|words|, step, p);
    WindowHolds(words, ws[k], k * step, size, step, p);
  }

  /** A window starting within `step` words before `p` holds word `p`. */
  lemma WindowHolds(words: seq<string>, w: Window, start: int, size: nat, step: nat, p: nat)
    requires WindowAt(words, w, start, size)
    requires step <= size && start <= p < start + step && p < |words|
    ensures w.start <= p < w.start + |w.words|
    ensures w.words[p - w.start] == words[p]
  {
  }

  /** A full window and its successor share exactly `overlap` words: the last
      `overlap` words of the one are the first `overlap` words of the next. */
  lemma AdjacentOverlap(words: seq<string>, size: int, overlap: int, k: nat)
    requires ValidConfig(size, overlap)
    requires k + 1 < |Windows(words, size, overlap).value|
    requires |Windows(words, size, overlap).value[k].words| == size
    ensures var ws := Windows(words, size, overlap).value;
      && |ws[k + 1].words| >= overlap
      && ws[k].words[size - overlap..] == ws[k + 1].words[..overlap]
  {
    var step := size - overlap;
    WindowsShape(words, size, overlap);
    var ws := Windows(words, size, overlap).value;
    MulSucc(k, step);
    NextWindowOverlap(words, ws[k], ws[k + 1], k * step, size, step);
  }

  /** A full window and the one `step` words further share their last and first
      `size - step` words. */
  lemma NextWindowOverlap(words: seq<string>, w1: Window, w2: Window, s: int, size: nat, step: nat)
    requires 0 < step <= size
    requires WindowAt(words, w1, s, size) && WindowAt(words, w2, s + step, size)
    requires |w1.words| == size
    ensures |w2.words| >= size - step
    ensures w1.words[step..] == w2.words[..size - step]
  {
  }

  /** With a positive size the loop emits something exactly when its start is in range. */
  lemma WindowsFromEmpty(words: seq<string>, i: nat, size: nat, step: nat)
    requires 0 < step && 0 < size
    ensures WindowsFrom(words, i, size, step) == [] <==> i >= |words|
  {
    if i < |words| {
      assert PySlice(words, i, i + size) == words[i..Min(i + size, |words|)];
    }
  }

  /** One turn of the loop when the start is in range and the size positive. */
  lemma WindowsFromUnfold(words: seq<string>, i: nat, size: nat, step: nat)
    requires 0 < step && 0 < size && i < |words|
    ensures WindowsFrom(words, i, size, step)
      == [Window(i, words[i..Min(i + size, |words|)])] + WindowsFrom(words, i + step, size, step)
  {
    assert PySlice(words, i, i + size) == words[i..Min(i + size, |words|)];
  }

  lemma StitchCons(w: Window, rest: seq<Window>, step: nat)
    requires |rest| > 0
    ensures Stitch([w] + rest, step) == w.words[..Min(step, |w.words|)] + Stitch(rest, step)
  {
    assert ([w] + rest)[1..] == rest;
  }

  /** Dropping the repeated words and concatenating gives back the words from `i` on. */
  lemma {:induction false} StitchWindowsFrom(words: seq<string>, i: nat, size: nat, step: nat)
    requires 0 < step <= size
    ensures Stitch(WindowsFrom(words, i, size, step), step) == words[Min(i, |words|)..]
    decreases |words| - i
  {
    if i < |words| {
      var rest := WindowsFrom(words, i + step, size, step);
      if i + step < |words| {
        StitchWindowsFrom(words, i + step, size, step);
        StitchInner(words, i, size, step, rest);
      } else {
        StitchLast(words, i, size, step, rest);
      }
    }
  }

  /** A window with more to come contributes its first `step` words. */
  lemma StitchInner(words: seq<string>, i: nat, size: nat, step: nat, rest: seq<Window>)
    requires 0 < step <= size && i + step < |words|
    requires rest == WindowsFrom(words, i + step, size, step)
    requires Stitch(rest, step) == words[i + step..]
    ensures Stitch(WindowsFrom(words, i, size, step), step) == words[i..]
  {
    var chunk := words[i..Min(i + size, |words|)];
    WindowsFromEmpty(words, i + step, size, step);
    ChunkPrefix(words, i, size, step);
    StitchStep(words, i, step, chunk, rest);
    WindowsFromUnfold(words, i, size, step);
  }

  /** The last window holds all of the remaining words. */
  lemma StitchLast(words: seq<string>, i: nat, size: nat, step: nat, rest: seq<Window>)
    requires 0 < step <= size && i < |words| <= i + step
    requires rest == WindowsFrom(words, i + step, size, step)
    ensures Stitch(WindowsFrom(words, i, size, step), step) == words[i..]
  {
    WindowsFromUnfold(words, i, size, step);
    WindowsFromEmpty(words, i + step, size, step);
    assert Min(i + size, |words|) == |words|;
    assert [Window(i, words[i..])] + rest == [Window(i, words[i..])];
  }

  /** The first `step` words of a window that is followed by another. */
  lemma ChunkPrefix(words: seq<string>, i: nat, size: nat, step: nat)
    requires 0 < step <= size && i + step < |words|
    ensures step <= Min(i + size, |words|) - i
    ensures words[i..Min(i + size, |words|)][..step] == words[i..i + step]
  {
  }

  lemma StitchStep(words: seq<string>, i: nat, step: nat, chunk: seq<string>, rest: seq<Window>)
    requires i + step < |words| && |rest| > 0
    requires step <= |chunk| && chunk[..step] == words[i..i + step]
    requires Stitch(rest, step) == words[i + step..]
    ensures Stitch([Window(i, chunk)] + rest, step) == words[i..]
  {
    StitchCons(Window(i, chunk), rest, step);
    assert words[i..] == words[i..i + step] + words[i + step..];
  }

  /** Reconstruction: the words of all windows, less the overlap each one repeats,
      are exactly the input words. */
  lemma Reconstruction(words: seq<string>, size: int, overlap: int)
    requires ValidConfig(size, overlap)
    ensures Stitch(Windows(words, size, overlap).value, size - overlap) == words
  {
    StitchWindowsFrom(words, 0, size, size - overlap);
  }
}

=== FILE: gdrive_chat.dfy ===
/** `gdrive_chat`: the pure decisions of the Drive chat loop.  How a line of input is
    classified, which special command it names, how a source is formatted, what a
    query leads to, and what the `stats` command can read.  Terminal I/O, colours, the
    progress bar and the language-model call are not modelled: a query's outcome
    carries the prompt it would send. */
module DriveChat {
  import opened Wrappers
  import opened Strings
  import opened Metadata
  import opened Ranking
  import Retriever
  import DriveRetriever

  // ---------------------------------------------------------------------------
  // format_drive_source

  const DocIcon: string := "\U{1F4C4}"
  const LinkIcon: string := "\U{1F517}"

  function DriveLink(id: string): string {
    "https://drive.google.com/file/d/" + id + "/view"
  }

  function SourceParts(m: Meta): (parts: seq<string>)
    ensures |parts| <= 3
    ensures parts == [] <==> m.file.None? && m.sourceType.None? && m.driveId.None?
  {
    (if m.file.Some? then [DocIcon + " " + m.file.value] else [])
    + (if m.sourceType.Some? then ["(" + m.sourceType.value + ")"] else [])
    + (if m.driveId.Some? then [LinkIcon + " " + DriveLink(m.driveId.value)] else [])
  }

  /** `format_drive_source(metadata)`: the file name, the source type in parentheses and
      the Drive link, each only when its key is present, joined by `" | "`. */
  function FormatDriveSource(m: Meta): (s: string)
    ensures s == "" <==> m.file.None? && m.sourceType.None? && m.driveId.None?
    ensures m.file.Some? ==> StartsWith(s, DocIcon + " " + m.file.value)
    ensures m.driveId.Some? ==> EndsWith(s, LinkIcon + " " + DriveLink(m.driveId.value))
  {
    var parts := SourceParts(m);
    if parts == [] then ""
    else
      JoinStartsWithFirst(parts, " | ");
      JoinEndsWithLast(parts, " | ");
      assert |parts[0]| > 0;
      Join(parts, " | ")
  }

  // ---------------------------------------------------------------------------
  // handle_special_commands and the input classification

  datatype Command = ShowStats | ShowHelp

  /** The command `handle_special_commands(query)` handles, after lower-casing and
      stripping; `None` when it returns `False`. */
  function SpecialCommand(query: string): (c: Option<Command>)
    ensures c == Some(ShowStats) <==> Strip(Lower(query)) in ["stats", "status", "info"]
    ensures c == Some(ShowHelp) <==> Strip(Lower(query)) in ["help", "?"]
  {
    var key := Strip(Lower(query));
    if key in ["stats", "status", "info"] then Some(ShowStats)
    else if key in ["help", "?"] then Some(ShowHelp)
    else None
  }

  /** What the chat loop does with one line of input. */
  datatype Input = Exit | Blank | Special(command: Command) | Question(text: string)

  /** The order of the chat loop's tests: exit words first (after stripping, in any
      case), then empty input, then special commands; anything else is a question. */
  function Classify(line: string): (r: Input)
    ensures r.Question? <==>
      && Lower(Strip(line)) !in ["exit", "quit", "bye"]
      && Strip(line) != ""
      && SpecialCommand(Strip(line)).None?
    ensures r.Question? ==> r.text == Strip(line)
    ensures r.Exit? <==> Lower(Strip(line)) in ["exit", "quit", "bye"]
    ensures r.Blank? <==> Lower(Strip(line)) !in ["exit", "quit", "bye"] && Strip(line) == ""
    ensures r.Blank? ==> IsBlank(line)
    ensures r.Special? <==>
      && Lower(Strip(line)) !in ["exit", "quit", "bye"]
      && Strip(line) != ""
      && SpecialCommand(Strip(line)).Some?
    ensures r.Special? ==> SpecialCommand(Strip(line)) == Some(r.command)
  {
    var q := Strip(line);
    if Lower(q) in ["exit", "quit", "bye"] then Exit
    else if q == "" then Blank
    else
      match SpecialCommand(q)
      case Some(c) => Special(c)
      case None => Question(q)
  }

  // ---------------------------------------------------------------------------
  // Answering a question

  /** Where a question ends.  `Answered` carries the best hit, the prompt sent to the
      language model, and the other hits listed after the answer. */
  datatype Answer =
    | EmbedFailed           // the embedder raised; the loop's handler reports it
    | NoEmbedding           // a falsy query embedding
    | NoResults             // the search gave `None`
    | NoContent             // the search gave no documents
    | NoneRanked            // reranking gave nothing
    | Answered(top: Hit, prompt: string, others: seq<Hit>)

  /** The prompt built for the best hit; a hit without a file name is an "Unknown
      Document". */
  function Prompt(question: string, top: Hit): string {
    "Based on the Google Drive document \"" + top.meta.file.GetOr("Unknown Document")
    + "\", please answer this question: " + question
    + "\n\nUse the following context from the document:\n" + top.doc
    + "\n\nPlease provide a helpful and accurate answer based on this information."
  }

  /** The hits the answer lists after the best one: `top_results[1:3]`. */
  function Others(results: seq<Hit>): (os: seq<Hit>)
    requires results != []
    ensures |os| == (if |results| >= 3 then 2 else |results| - 1)
    ensures forall k :: 0 <= k < |os| ==> os[k] == results[k + 1]
  {
    results[1..if |results| >= 3 then 3 else |results|]
  }

  /** The reranked candidates of a search result. */
  function Ranked(query: Vector, res: Retrieved, cos: (Vector, Vector) -> real,
                  ageDays: string -> Option<int>): seq<Hit> {
    DriveRetriever.RerankGdrive(query, res.docs, res.embs, res.metas, cos, ageDays,
                                Retriever.DefaultThreshold)
  }

  /** The candidates the reranker orders. */
  function Candidates(query: Vector, res: Retrieved, cos: (Vector, Vector) -> real,
                      ageDays: string -> Option<int>): seq<Hit> {
    DriveRetriever.DriveCandidates(res.docs, res.metas, Retriever.Scores(query, res.embs, cos),
                                   ageDays, Retriever.DefaultThreshold)
  }

  /** A question's path through the loop body: embed the question (no metadata, so no
      prefix), search without filters, rerank, and answer from the best hit. */
  function AnswerQuestion(question: string, embed: string -> Option<Vector>,
                          query: DriveRetriever.Where -> QueryReply,
                          cos: (Vector, Vector) -> real, ageDays: string -> Option<int>): (a: Answer)
    ensures a.Answered? ==>
      && embed(question).Some? && embed(question).value != []
      && DriveRetriever.SearchDriveChunks(DriveRetriever.Filters(None, None), query).Some?
      && var res := DriveRetriever.SearchDriveChunks(DriveRetriever.Filters(None, None), query).value;
         var results := Ranked(embed(question).value, res, cos, ageDays);
         var cands := Candidates(embed(question).value, res, cos, ageDays);
         && results != [] && a.top == results[0] && a.others == Others(results)
         && a.prompt == Prompt(question, a.top)
         && a.top in cands
         && (forall c :: c in cands ==> a.top.score >= c.score)
         && |a.others| <= 2
         && (forall h :: h in a.others ==> h in cands && h.score <= a.top.score)
  {
    match embed(question)
    case None => EmbedFailed
    case Some(v) =>
      if v == [] then NoEmbedding
      else
        match DriveRetriever.SearchDriveChunks(DriveRetriever.Filters(None, None), query)
        case None => NoResults
        case Some(res) =>
          if res.docs == [] then NoContent
          else
            var results := Ranked(v, res, cos, ageDays);
            if results == [] then NoneRanked
            else
              RankedTop(v, res, cos, ageDays);
              Answered(results[0], Prompt(question, results[0]), Others(results))
  }

  /** The head of a sorted permutation of `cands` is a best candidate, and the hits
      listed after it are candidates scoring no higher. */
  lemma SortedHead(results: seq<Hit>, cands: seq<Hit>)
    requires results != [] && SortedDesc(results) && multiset(results) == multiset(cands)
    ensures results[0] in cands
    ensures forall c :: c in cands ==> results[0].score >= c.score
    ensures forall h :: h in Others(results) ==> h in cands && h.score <= results[0].score
  {
    assert results[0] in multiset(cands);
    forall c | c in cands ensures results[0].score >= c.score {
      assert c in multiset(results);
      var i :| 0 <= i < |results| && results[i] == c;
    }
    forall h | h in Others(results) ensures h in cands && h.score <= results[0].score {
      var k :| 0 <= k < |Others(results)| && Others(results)[k] == h;
      assert h == results[k + 1];
      assert h in multiset(cands);
    }
  }

  lemma RankedTop(v: Vector, res: Retrieved, cos: (Vector, Vector) -> real,
                  ageDays: string -> Option<int>)
    requires Ranked(v, res, cos, ageDays) != []
    ensures var results := Ranked(v, res, cos, ageDays);
      var cands := Candidates(v, res, cos, ageDays);
      && results[0] in cands
      && (forall c :: c in cands ==> results[0].score >= c.score)
      && (forall h :: h in Others(results) ==> h in cands && h.score <= results[0].score)
  {
    SortedHead(Ranked(v, res, cos, ageDays), Candidates(v, res, cos, ageDays));
  }

  // ---------------------------------------------------------------------------
  // The stats command and the welcome message

  /** What the `stats` command prints. */
  datatype StatsReport = StatsReport(documents: nat, chunks: nat, types: seq<DriveRetriever.TypeCount>)

  /** The `stats` command reads `unique_documents`, `total_chunks` and
      `document_types`; a missing key raises, and the chat loop's handler reports the
      error instead. */
  function StatsCommand(st: map<string, DriveRetriever.StatValue>): (r: Option<StatsReport>)
    ensures r.Some? <==> && "unique_documents" in st && "total_chunks" in st && "document_types" in st
                         && st["unique_documents"].Count? && st["total_chunks"].Count?
                         && st["document_types"].Types?
    ensures r.Some? ==> && st["unique_documents"] == DriveRetriever.Count(r.value.documents)
                        && st["total_chunks"] == DriveRetriever.Count(r.value.chunks)
                        && st["document_types"] == DriveRetriever.Types(r.value.types)
  {
    if "unique_documents" in st && "total_chunks" in st && "document_types" in st
       && st["unique_documents"].Count? && st["total_chunks"].Count? && st["document_types"].Types?
    then Some(StatsReport(st["unique_documents"].n, st["total_chunks"].n, st["document_types"].entries))
    else None
  }

  // ---------------------------------------------------------------------------
  // Lemmas

  /** With every key present the source reads "📄 file | (type) | 🔗 link". */
  lemma FormatAllParts(m: Meta)
    requires m.file.Some? && m.sourceType.Some? && m.driveId.Some?
    ensures FormatDriveSource(m)
         == DocIcon + " " + m.file.value + " | (" + m.sourceType.value + ") | "
            + LinkIcon + " " + DriveLink(m.driveId.value)
  {
    var parts := SourceParts(m);
    assert parts == [DocIcon + " " + m.file.value, "(" + m.sourceType.value + ")",
                     LinkIcon + " " + DriveLink(m.driveId.value)];
    assert parts[1..][1..] == [parts[2]];
    assert Join(parts[1..], " | ") == parts[1] + " | " + parts[2];
  }

  /** With a file and a type but no Drive id, the link part is left out. */
  lemma FormatFileAndType(m: Meta)
    requires m.file.Some? && m.sourceType.Some? && m.driveId.None?
    ensures FormatDriveSource(m) == DocIcon + " " + m.file.value + " | (" + m.sourceType.value + ")"
  {
    var parts := SourceParts(m);
    assert parts == [DocIcon + " " + m.file.value, "(" + m.sourceType.value + ")"];
    assert parts[1..] == [parts[1]];
    assert Join(parts, " | ") == parts[0] + " | " + parts[1];
  }

  /** With a type only, the source is the parenthesised type. */
  lemma FormatTypeOnly(m: Meta)
    requires m.file.None? && m.sourceType.Some? && m.driveId.None?
    ensures FormatDriveSource(m) == "(" + m.sourceType.value + ")"
  {
    assert SourceParts(m) == ["(" + m.sourceType.value + ")"];
  }

  /** With a Drive id only, the source is the link. */
  lemma FormatLinkOnly(m: Meta)
    requires m.file.None? && m.sourceType.None? && m.driveId.Some?
    ensures FormatDriveSource(m) == LinkIcon + " " + DriveLink(m.driveId.value)
  {
    assert SourceParts(m) == [LinkIcon + " " + DriveLink(m.driveId.value)];
  }

  /** With a file and a Drive id but no type, the type part is left out. */
  lemma FormatFileAndLink(m: Meta)
    requires m.file.Some? && m.sourceType.None? && m.driveId.Some?
    ensures FormatDriveSource(m)
         == DocIcon + " " + m.file.value + " | " + LinkIcon + " " + DriveLink(m.driveId.value)
  {
    var parts := SourceParts(m);
    assert parts == [DocIcon + " " + m.file.value, LinkIcon + " " + DriveLink(m.driveId.value)];
    assert parts[1..] == [parts[1]];
    assert Join(parts, " | ") == parts[0] + " | " + parts[1];
  }

  /** "Stats" in any case is the statistics command, not a question. */
  lemma StatsWordIsCommand()
    ensures Classify("Stats") == Special(ShowStats)
  {
    StripUnchanged("Stats");
    var low := Lower("Stats");
    assert |low| == 5 && low[0] == 's' && low[1] == 't' && low[2] == 'a' && low[3] == 't' && low[4] == 's';
    assert low == "stats";
    assert low !in ["exit", "quit", "bye"];
    StripUnchanged("stats");
    assert SpecialCommand("Stats") == Some(ShowStats);
  }

  /** An exit word in capitals still ends the loop. */
  lemma ExitWordEndsLoop()
    ensures Classify("EXIT") == Exit
  {
    StripUnchanged("EXIT");
    var low := Lower("EXIT");
    assert |low| == 4 && low[0] == 'e' && low[1] == 'x' && low[2] == 'i' && low[3] == 't';
    assert low == "exit";
  }

  /** Padding around an input never changes how it is classified. */
  lemma ClassifyStripped(line: string)
    ensures Classify(Strip(line)) == Classify(line)
  {
    StripIdempotent(line);
  }

  /** The `if not docs` test never fires: a search result always has documents. */
  lemma SearchResultHasDocs(f: DriveRetriever.Filters, query: DriveRetriever.Where -> QueryReply)
    requires DriveRetriever.SearchDriveChunks(f, query).Some?
    ensures DriveRetriever.SearchDriveChunks(f, query).value.docs != []
  {
  }

  /** A question is answered exactly when the embedding is non-empty, the search found
      something and reranking kept at least one hit; `NoContent` never happens. */
  lemma AnsweredIff(question: string, embed: string -> Option<Vector>,
                    query: DriveRetriever.Where -> QueryReply,
                    cos: (Vector, Vector) -> real, ageDays: string -> Option<int>)
    ensures var a := AnswerQuestion(question, embed, query, cos, ageDays);
      var res := DriveRetriever.SearchDriveChunks(DriveRetriever.Filters(None, None), query);
      && !a.NoContent?
      && (a.Answered? <==>
            && embed(question).Some? && embed(question).value != []
            && res.Some?
            && Retriever.Min3(|res.value.docs|, |res.value.metas|, |res.value.embs|) > 0)
  {
    var res := DriveRetriever.SearchDriveChunks(DriveRetriever.Filters(None, None), query);
    if res.Some? {
      SearchResultHasDocs(DriveRetriever.Filters(None, None), query);
    }
  }

  /** The welcome message only reads `unique_documents` when `total_chunks` is
      positive, and then the key is there; the `stats` command reads it always. */
  lemma WelcomeIsSafe(reply: DriveRetriever.GetReply)
    ensures var st := DriveRetriever.GetDocumentStats(reply);
      && "total_chunks" in st && st["total_chunks"].Count?
      && (st["total_chunks"].n > 0 ==> "unique_documents" in st && "document_types" in st)
  {
  }

  /** Finding, as written: on an empty collection the `stats` command fails, because
      the statistics lack `unique_documents`. */
  lemma StatsCommandFailsWhenEmpty()
    ensures StatsCommand(DriveRetriever.GetDocumentStats(DriveRetriever.GotMetas(Some([])))) == None
    ensures StatsCommand(DriveRetriever.GetDocumentStats(DriveRetriever.GotMetas(None))) == None
  {
  }

  /** On a non-empty collection the `stats` command reports the distinct Drive ids, the
      chunk count and a per-type tally that sums to that count. */
  lemma StatsCommandOfCollection(metas: seq<Meta>)
    requires metas != []
    ensures var r := StatsCommand(DriveRetriever.GetDocumentStats(DriveRetriever.GotMetas(Some(metas))));
      && r.Some?
      && r.value.documents == |DriveRetriever.DriveIds(metas)|
      && r.value.chunks == |metas|
      && DriveRetriever.Total(r.value.types) == |metas|
  {
    DriveRetriever.StatsOfCollection(metas);
  }

  /** Corrected: with the fixed statistics the `stats` command succeeds on every store
      reply, and reports zero documents and chunks for an empty collection. */
  lemma StatsCommandFixed(reply: DriveRetriever.GetReply)
    ensures StatsCommand(DriveRetriever.GetDocumentStatsFixed(reply)).Some?
    ensures reply.GotMetas? && (reply.metadatas.None? || reply.metadatas.value == []) ==>
      StatsCommand(DriveRetriever.GetDocumentStatsFixed(reply)) == Some(StatsReport(0, 0, []))
  {
  }
}

=== FILE: gdrive_embedder.dfy ===
/** `gdrive_embedder`: the text the Drive pipeline hands to the embedding model, and
    the retry and batch wrappers around the base embedder.  The base embedder
    (`embed_text`, an HTTP call) is a parameter: it returns a vector, the empty vector
    when the server failed, or `None` when it raised. */
module DriveEmbedder {
  import opened Wrappers
  import opened Strings
  import opened Metadata

  // ---------------------------------------------------------------------------
  // The context prefix of `embed_text_gdrive`

  /** The context parts, each present only when its key is present. */
  function ContextParts(m: Meta): (parts: seq<string>)
    ensures |parts| <= 2
    ensures parts == [] <==> m.sourceType.None? && m.file.None?
  {
    (if m.sourceType.Some? then ["Document type: " + m.sourceType.value] else [])
    + (if m.file.Some? then ["From document: " + m.file.value] else [])
  }

  /** The text `embed_text_gdrive(text, metadata)` embeds.  An empty dictionary (or no
      dictionary) leaves the text alone, and so does one with neither key. */
  function EnhancedText(text: string, m: Meta): (r: string)
    ensures EndsWith(r, text)
    ensures r == text <==> m.sourceType.None? && m.file.None?
    ensures m.sourceType.Some? ==> StartsWith(r, "Document type: " + m.sourceType.value)
    ensures m.sourceType.None? && m.file.Some? ==> StartsWith(r, "From document: " + m.file.value)
  {
    if IsEmpty(m) then text
    else
      var parts := ContextParts(m);
      if parts == [] then text
      else
        var r := Join(parts, " | ") + " | Content: " + text;
        assert r[|r| - |text|..] == text;
        if m.sourceType.Some? then
          assert r[..|parts[0]|] == parts[0];
          r
        else
          assert parts == ["From document: " + m.file.value];
          assert r[..|parts[0]|] == parts[0];
          r
  }

  /** `embed_text_gdrive(text, metadata)`. */
  function EmbedTextGdrive(text: string, m: Meta, embed: string -> Option<Vector>): (r: Option<Vector>)
    ensures m.sourceType.None? && m.file.None? ==> r == embed(text)
  {
    embed(EnhancedText(text, m))
  }

  /** The outcome of embedding each pair on its own; `None` where the call raised. */
  function Outcomes(pairs: seq<(string, Meta)>, embed: string -> Option<Vector>): seq<Option<Vector>> {
    seq(|pairs|, k requires 0 <= k < |pairs| => EmbedTextGdrive(pairs[k].0, pairs[k].1, embed))
  }

  /** The vectors of a run of outcomes, in order, or `None` from the first failure on. */
  function Collect(os: seq<Option<Vector>>): (r: Option<seq<Vector>>)
    ensures r.Some? ==> |r.value| == |os|
  {
    if os == [] then Some([])
    else
      match os[0]
      case None => None
      case Some(v) =>
        match Collect(os[1..])
        case None => None
        case Some(rest) => Some([v] + rest)
  }

  /** `embed_text_batch_gdrive(texts_and_metadata)`: one result per pair, in order, or
      `None` when a call raised.  The loop stops at the first raise; the later calls it
      skips have no effect here, so collecting every outcome gives the same result. */
  function EmbedBatch(pairs: seq<(string, Meta)>, embed: string -> Option<Vector>): (r: Option<seq<Vector>>)
    ensures r.Some? ==> |r.value| == |pairs|
  {
    Collect(Outcomes(pairs, embed))
  }

  /** The batch succeeds exactly when every pair embeds, and then holds each pair's
      embedding at that pair's position. */
  lemma EmbedBatchSpec(pairs: seq<(string, Meta)>, embed: string -> Option<Vector>)
    ensures EmbedBatch(pairs, embed).Some? <==>
      forall k :: 0 <= k < |pairs| ==> EmbedTextGdrive(pairs[k].0, pairs[k].1, embed).Some?
    ensures EmbedBatch(pairs, embed).Some? ==>
      forall k :: 0 <= k < |pairs| ==> Some(EmbedBatch(pairs, embed).value[k]) == EmbedTextGdrive(pairs[k].0, pairs[k].1, embed)
  {
    var os := Outcomes(pairs, embed);
    CollectSome(os);
    if Collect(os).Some? {
      forall k | 0 <= k < |pairs|
        ensures Some(EmbedBatch(pairs, embed).value[k]) == EmbedTextGdrive(pairs[k].0, pairs[k].1, embed)
      {
        CollectAt(os, k);
      }
    }
  }

  lemma {:induction false} CollectSome(os: seq<Option<Vector>>)
    ensures Collect(os).Some? <==> forall k :: 0 <= k < |os| ==> os[k].Some?
  {
    if os != [] {
      CollectSome(os[1..]);
      assert forall k :: 1 <= k < |os| ==> os[1..][k - 1] == os[k];
    }
  }

  lemma {:induction false} CollectAt(os: seq<Option<Vector>>, k: nat)
    requires Collect(os).Some? && k < |os|
    ensures Some(Collect(os).value[k]) == os[k]
    decreases k
  {
    var rest := Collect(os[1..]);
    assert os[0].Some? && rest.Some? && Collect(os).value == [os[0].value] + rest.value;
    if k > 0 {
      CollectAt(os[1..], k - 1);
      assert os[1..][k - 1] == os[k];
    }
  }

  // ---------------------------------------------------------------------------
  // `create_contextual_prompt`

  /** Python truthiness of an optional string value: present and non-empty. */
  predicate Truthy(s: Option<string>) {
    s.Some? && s.value != ""
  }

  function PromptElements(m: Meta): (es: seq<string>)
    ensures es == [] <==> !Truthy(m.sourceType) && !Truthy(m.file) && m.chunkIndex.None?
  {
    (if Truthy(m.sourceType) then ["Source: " + m.sourceType.value] else [])
    + (if Truthy(m.file) then ["Document: " + m.file.value] else [])
    + (if m.chunkIndex.Some? then ["Section: " + IntToString(m.chunkIndex.value)] else [])
  }

  /** `create_contextual_prompt(text, metadata)`: a bracketed header, a blank line, then
      the text; source type and file appear only when truthy, the chunk index whenever
      it is present, including 0. */
  function ContextualPrompt(text: string, m: Meta): (r: string)
    ensures EndsWith(r, text)
    ensures r == text <==> !Truthy(m.sourceType) && !Truthy(m.file) && m.chunkIndex.None?
    ensures r != text ==> StartsWith(r, "[") && EndsWith(r, "]\n\n" + text)
  {
    if IsEmpty(m) then text
    else
      var es := PromptElements(m);
      if es == [] then text
      else
        var r := "[" + Join(es, " | ") + "]" + "\n\n" + text;
        assert r[|r| - |text|..] == text;
        assert r[|r| - |"]\n\n" + text|..] == "]\n\n" + text;
        r
  }

  // ---------------------------------------------------------------------------
  // `get_embedding_with_retry`

  /** An attempt counts when it returned a non-empty vector. */
  predicate Succeeded(o: Option<Vector>) {
    o.Some? && o.value != []
  }

  function MaxCalls(maxRetries: int): nat {
    if maxRetries < 0 then 0 else maxRetries
  }

  /** The vector the attempts from `attempt` on give: the first non-empty one, or `[]`.
      `embed(text, k)` is the outcome of the `k`-th call. */
  function Retry(text: string, maxRetries: int, embed: (string, nat) -> Option<Vector>, attempt: nat)
    : (v: Vector)
    decreases MaxCalls(maxRetries) - attempt
  {
    if attempt >= MaxCalls(maxRetries) then []
    else if Succeeded(embed(text, attempt)) then embed(text, attempt).value
    else Retry(text, maxRetries, embed, attempt + 1)
  }

  /** `get_embedding_with_retry(text, max_retries)`, with the number of calls it makes:
      at most `max_retries`, stopping at the first non-empty vector. */
  method GetEmbeddingWithRetry(text: string, maxRetries: int, embed: (string, nat) -> Option<Vector>)
    returns (v: Vector, calls: nat)
    ensures calls <= MaxCalls(maxRetries)
    ensures forall k :: 0 <= k < calls - 1 ==> !Succeeded(embed(text, k))
    ensures v != [] <==> calls > 0 && Succeeded(embed(text, calls - 1))
    ensures v != [] ==> v == embed(text, calls - 1).value
    ensures v == [] ==> calls == MaxCalls(maxRetries) && forall k :: 0 <= k < calls ==> !Succeeded(embed(text, k))
    ensures v == Retry(text, maxRetries, embed, 0)
  {
    v := [];
    calls := 0;
    while calls < MaxCalls(maxRetries)
      invariant calls <= MaxCalls(maxRetries)
      invariant forall k :: 0 <= k < calls ==> !Succeeded(embed(text, k))
      invariant Retry(text, maxRetries, embed, 0) == Retry(text, maxRetries, embed, calls)
    {
      var o := embed(text, calls);
      calls := calls + 1;
      if o.Some? && o.value != [] {
        v := o.value;
        return;
      }
    }
  }

  /** A chunk as `embed_gdrive_chunk` receives it: either key may be missing. */
  datatype ChunkData = ChunkData(text: Option<string>, metadata: Option<Meta>)

  /** The prompt `embed_gdrive_chunk` embeds: a missing text is `''` and missing
      metadata is `{}`. */
  function ChunkPrompt(c: ChunkData): (p: string)
    ensures c.metadata.None? ==> p == c.text.GetOr("")
  {
    ContextualPrompt(c.text.GetOr(""), c.metadata.GetOr(EmptyMeta))
  }

  /** `embed_gdrive_chunk(chunk_data)`: the retried embedding of the contextual prompt,
      with the default three attempts. */
  method EmbedGdriveChunk(c: ChunkData, embed: (string, nat) -> Option<Vector>)
    returns (v: Vector, calls: nat)
    ensures 1 <= calls <= 3
    ensures v == Retry(ChunkPrompt(c), 3, embed, 0)
    ensures v == [] <==> forall k :: 0 <= k < 3 ==> !Succeeded(embed(ChunkPrompt(c), k))
  {
    v, calls := GetEmbeddingWithRetry(ChunkPrompt(c), 3, embed);
  }

  // ---------------------------------------------------------------------------
  // Lemmas

  /** With both keys, the prefix names the type, then the document, then the content. */
  lemma EnhancedTextBoth(text: string, m: Meta)
    requires m.sourceType.Some? && m.file.Some?
    ensures EnhancedText(text, m)
         == "Document type: " + m.sourceType.value + " | From document: " + m.file.value
            + " | Content: " + text
  {
    var parts := ContextParts(m);
    assert parts == ["Document type: " + m.sourceType.value, "From document: " + m.file.value];
    assert parts[1..] == ["From document: " + m.file.value];
    assert Join(parts[1..], " | ") == parts[1];
    assert Join(parts, " | ") == parts[0] + " | " + parts[1];
  }

  /** With exactly one key present, only that key's part precedes the content. */
  lemma EnhancedTextOneKey(text: string, m: Meta)
    ensures m.sourceType.Some? && m.file.None? ==>
      EnhancedText(text, m) == "Document type: " + m.sourceType.value + " | Content: " + text
    ensures m.sourceType.None? && m.file.Some? ==>
      EnhancedText(text, m) == "From document: " + m.file.value + " | Content: " + text
  {
    if m.sourceType.Some? && m.file.None? {
      assert ContextParts(m) == ["Document type: " + m.sourceType.value];
    } else if m.sourceType.None? && m.file.Some? {
      assert ContextParts(m) == ["From document: " + m.file.value];
    }
  }

  /** The two prefix builders disagree on an empty source type: the embedding prefix
      tests for the key, the prompt header for a truthy value. */
  lemma EmptySourceTypeDiffers(text: string, ci: int)
    ensures var m := EmptyMeta.(sourceType := Some(""));
      && EnhancedText(text, m) == "Document type:  | Content: " + text
      && ContextualPrompt(text, m) == text
  {
    var m := EmptyMeta.(sourceType := Some(""));
    assert "Document type: " + m.sourceType.value == "Document type: ";
    assert ContextParts(m) == ["Document type: "];
    assert !IsEmpty(m);
    assert Join(ContextParts(m), " | ") == "Document type: ";
  }

  lemma SectionZeroElements(m: Meta)
    requires m == EmptyMeta.(chunkIndex := Some(0))
    ensures PromptElements(m) == ["Section: 0"]
  {
    assert IntToString(0) == "0";
    assert "Section: " + IntToString(m.chunkIndex.value) == "Section: 0";
  }

  /** With a truthy source type and file and a chunk index, the header lists source,
      document and section, in that order. */
  lemma PromptAllElements(text: string, m: Meta)
    requires Truthy(m.sourceType) && Truthy(m.file) && m.chunkIndex.Some?
    ensures ContextualPrompt(text, m)
         == "[Source: " + m.sourceType.value + " | Document: " + m.file.value
            + " | Section: " + IntToString(m.chunkIndex.value) + "]\n\n" + text
  {
    var x, y, z := m.sourceType.value, m.file.value, IntToString(m.chunkIndex.value);
    var es := PromptElements(m);
    assert es == ["Source: " + x, "Document: " + y, "Section: " + z];
    JoinThree(es, " | ");
    assert !IsEmpty(m);
    assert ContextualPrompt(text, m) == "[" + Join(es, " | ") + "]" + "\n\n" + text;
    HeaderRegroup("[", "Source: ", x, " | ", "Document: ", y, "Section: ", z, "]", "\n\n", text);
    assert "[" + "Source: " == "[Source: ";
    assert " | " + "Document: " == " | Document: ";
    assert " | " + "Section: " == " | Section: ";
    assert "]" + "\n\n" == "]\n\n";
  }

  /** Joining three parts puts the separator between each pair. */
  lemma JoinThree(es: seq<string>, sep: string)
    requires |es| == 3
    ensures Join(es, sep) == es[0] + sep + es[1] + sep + es[2]
  {
    assert es[1..][1..] == [es[2]];
    assert Join(es[1..], sep) == es[1] + sep + es[2];
  }

  /** Concatenation regroups the bracketed three-part header freely. */
  lemma HeaderRegroup(open: string, l1: string, x: string, sep: string, l2: string, y: string,
                      l3: string, z: string, close: string, nl: string, t: string)
    ensures open + ((l1 + x) + sep + (l2 + y) + sep + (l3 + z)) + close + nl + t
         == (open + l1) + x + (sep + l2) + y + (sep + l3) + z + (close + nl) + t
  {
  }

  /** A falsy source type is left out of the header even when the file is shown. */
  lemma PromptDropsFalsySource(text: string, m: Meta)
    requires !Truthy(m.sourceType) && Truthy(m.file) && m.chunkIndex.None?
    ensures ContextualPrompt(text, m) == "[Document: " + m.file.value + "]\n\n" + text
  {
    var es := PromptElements(m);
    assert es == ["Document: " + m.file.value];
    assert Join(es, " | ") == es[0];
    assert !IsEmpty(m);
    assert ContextualPrompt(text, m) == "[" + Join(es, " | ") + "]" + "\n\n" + text;
  }

  /** Chunk index 0 is shown: it is compared with `None`, not checked for truthiness. */
  lemma SectionZeroShown(text: string)
    ensures ContextualPrompt(text, EmptyMeta.(chunkIndex := Some(0))) == "[Section: 0]\n\n" + text
  {
    var m := EmptyMeta.(chunkIndex := Some(0));
    SectionZeroElements(m);
    assert !IsEmpty(m);
    var es := PromptElements(m);
    assert Join(es, " | ") == "Section: 0";
    assert ContextualPrompt(text, m) == "[" + Join(es, " | ") + "]" + "\n\n" + text;
    assert "[" + "Section: 0" + "]" + "\n\n" == "[Section: 0]\n\n";
  }

  /** No attempts are made for a non-positive retry count. */
  lemma RetryNone(text: string, maxRetries: int, embed: (string, nat) -> Option<Vector>)
    requires maxRetries <= 0
    ensures Retry(text, maxRetries, embed, 0) == []
  {
  }

  /** The retried vector is empty exactly when every allowed attempt failed, and
      otherwise it is the first successful attempt's vector. */
  lemma {:induction false} RetryFirstSuccess(text: string, maxRetries: int,
                                             embed: (string, nat) -> Option<Vector>, attempt: nat)
    requires attempt <= MaxCalls(maxRetries)
    decreases MaxCalls(maxRetries) - attempt
    ensures var v := Retry(text, maxRetries, embed, attempt);
      && (v == [] <==> forall k :: attempt <= k < MaxCalls(maxRetries) ==> !Succeeded(embed(text, k)))
      && (v != [] ==> exists k :: attempt <= k < MaxCalls(maxRetries) && Succeeded(embed(text, k))
                                  && v == embed(text, k).value)
  {
    if attempt < MaxCalls(maxRetries) && !Succeeded(embed(text, attempt)) {
      RetryFirstSuccess(text, maxRetries, embed, attempt + 1);
    }
  }

  /** Every pair of `a + b` embeds without raising when every pair of each part does. */
  lemma EmbedBatchConcatSome(a: seq<(string, Meta)>, b: seq<(string, Meta)>,
                             embed: string -> Option<Vector>)
    requires EmbedBatch(a, embed).Some? && EmbedBatch(b, embed).Some?
    ensures EmbedBatch(a + b, embed).Some?
  {
    EmbedBatchSpec(a, embed);
    EmbedBatchSpec(b, embed);
    EmbedBatchSpec(a + b, embed);
    forall k | 0 <= k < |a + b| ensures EmbedTextGdrive((a + b)[k].0, (a + b)[k].1, embed).Some? {
      if k < |a| {
        assert (a + b)[k] == a[k];
      } else {
        assert (a + b)[k] == b[k - |a|];
      }
    }
  }

  /** Batching distributes over concatenation: a batch is the batches of its parts. */
  lemma EmbedBatchConcat(a: seq<(string, Meta)>, b: seq<(string, Meta)>,
                         embed: string -> Option<Vector>)
    requires EmbedBatch(a, embed).Some? && EmbedBatch(b, embed).Some?
    ensures EmbedBatch(a + b, embed) == Some(EmbedBatch(a, embed).value + EmbedBatch(b, embed).value)
  {
    EmbedBatchConcatSome(a, b, embed);
    EmbedBatchSpec(a, embed);
    EmbedBatchSpec(b, embed);
    EmbedBatchSpec(a + b, embed);
    var ra := EmbedBatch(a, embed).value;
    var rb := EmbedBatch(b, embed).value;
    var r := EmbedBatch(a + b, embed).value;
    forall k | 0 <= k < |a + b| ensures r[k] == (ra + rb)[k] {
      if k < |a| {
        assert (a + b)[k] == a[k];
      } else {
        assert (a + b)[k] == b[k - |a|];
      }
    }
    assert r == ra + rb;
  }
}

=== FILE: gdrive_loader.dfy ===
/** `gdrive_loader`: MIME-type classification, the word-window chunker for exported
    Docs and Sheets, and the dispatch of `load_drive_document`.  The Drive API is outside
    the model: an export is given as its text (or `None` when the download raised) and a
    downloaded PDF as its pages' texts. */
module DriveLoader {
  import opened Wrappers
  import opened Strings
  import opened Metadata
  import opened Chunker
  import PdfLoader
  import DriveSheet

  const GoogleDoc: string := "Google Doc"
  const GoogleSheet: string := "Google Sheet"
  const GoogleDrivePdf: string := "Google Drive PDF"

  const DocMime: string := "application/vnd.google-apps.document"
  const SheetMime: string := "application/vnd.google-apps.spreadsheet"
  const PdfMime: string := "application/pdf"
  const TextMime: string := "text/plain"

  /** The simplified file types `get_file_type` can return. */
  datatype FileType = Docs | Sheets | Pdf | Text | Unknown {
    /** The string the source uses for this type. */
    function Name(): string {
      match this
      case Docs => "docs"
      case Sheets => "sheets"
      case Pdf => "pdf"
      case Text => "text"
      case Unknown => "unknown"
    }
  }

  /** `mime_type_map` in `get_file_type`. */
  const MimeTypeMap: map<string, FileType> :=
    map[DocMime := Docs, SheetMime := Sheets, PdfMime := Pdf, TextMime := Text]

  /** `get_file_type(mime_type)`: `mime_type_map.get(mime_type, 'unknown')`. */
  function GetFileType(mime: string): (t: FileType)
    ensures t == Unknown <==> mime !in MimeTypeMap
  {
    if mime in MimeTypeMap then MimeTypeMap[mime] else Unknown
  }

  /** The one MIME type each known file type comes from. */
  function MimeOf(t: FileType): Option<string> {
    match t
    case Docs => Some(DocMime)
    case Sheets => Some(SheetMime)
    case Pdf => Some(PdfMime)
    case Text => Some(TextMime)
    case Unknown => None
  }

  /** The chunk built from one window of an exported Doc or Sheet. */
  function DriveChunk(w: Window, fileName: string, fileId: string, sourceType: string): Chunk {
    Chunk(Join(w.words, " "),
          Meta(Some(fileName), None, Some(w.start), Some(|w.words|), Some(fileId), Some(sourceType), None, None))
  }

  function DriveChunks(ws: seq<Window>, fileName: string, fileId: string, sourceType: string)
    : (cs: seq<Chunk>)
    ensures |cs| == |ws|
    ensures forall k :: 0 <= k < |ws| ==> cs[k] == DriveChunk(ws[k], fileName, fileId, sourceType)
  {
    seq(|ws|, k requires 0 <= k < |ws| => DriveChunk(ws[k], fileName, fileId, sourceType))
  }

  /** `_chunk_text(text, file_name, file_id, source_type, chunk_size, overlap)`: blank
      text gives no chunks before the step is ever used; otherwise a zero step raises. */
  function ChunkText(text: string, fileName: string, fileId: string, sourceType: string,
                     size: int, overlap: int): (r: Result<seq<Chunk>, ChunkError>)
    ensures r.Err? <==> !IsBlank(text) && size == overlap
  {
    if IsBlank(text) then Ok([])
    else
      match Windows(Words(text), size, overlap)
      case Err(e) => Err(e)
      case Ok(ws) => Ok(DriveChunks(ws, fileName, fileId, sourceType))
  }

  /** `_chunk_text` without its `if not text.strip()` guard. */
  function ChunkTextUnguarded(text: string, fileName: string, fileId: string, sourceType: string,
                              size: int, overlap: int): Result<seq<Chunk>, ChunkError>
  {
    match Windows(Words(text), size, overlap)
    case Err(e) => Err(e)
    case Ok(ws) => Ok(DriveChunks(ws, fileName, fileId, sourceType))
  }

  /** The metadata rewrite loop of `_load_pdf_from_drive`. */
  function RewriteForDrive(cs: seq<Chunk>, fileId: string): (r: seq<Chunk>)
    ensures |r| == |cs|
  {
    seq(|cs|, k requires 0 <= k < |cs| =>
      Chunk(cs[k].text, cs[k].meta.(driveId := Some(fileId), sourceType := Some(GoogleDrivePdf))))
  }

  /** What a successful run of the export or download gives; `None` when it raised. */
  datatype Download = Download(exported: Option<string>, pdfPages: Option<seq<string>>)

  /** `load_drive_document(service, file_id, file_type, file_name)`.  Every exception on
      the way (a failed download, a zero step) is caught and gives `[]`. */
  function LoadDriveDocument(fileType: FileType, fileId: string, fileName: string, d: Download)
    : (cs: seq<Chunk>)
  {
    match fileType
    case Docs =>
      (match d.exported
       case None => []
       case Some(text) =>
         match ChunkText(text, fileName, fileId, GoogleDoc, 200, 50)
         case Ok(cs) => cs
         case Err(_) => [])
    case Sheets =>
      (match d.exported
       case None => []
       case Some(csv) =>
         match ChunkText(DriveSheet.ProcessCsvContent(csv), fileName, fileId, GoogleSheet, 200, 50)
         case Ok(cs) => cs
         case Err(_) => [])
    case Pdf =>
      (match d.pdfPages
       case None => []
       case Some(pages) =>
         match PdfLoader.LoadPdfChunks(pages, "/tmp/" + fileName, PdfLoader.DefaultChunkSize, PdfLoader.DefaultOverlap)
         case Ok(cs) => RewriteForDrive(cs, fileId)
         case Err(_) => [])
    case _ => []
  }

  /** The `source_type` every chunk of a loaded document carries. */
  function SourceTypeOf(t: FileType): string {
    match t
    case Docs => GoogleDoc
    case Sheets => GoogleSheet
    case _ => GoogleDrivePdf
  }

  // ---------------------------------------------------------------------------
  // Lemmas

  /** `get_file_type` and `MimeOf` are inverse: exactly four MIME types are known, each
      to one type, and every other string is `unknown`. */
  lemma FileTypeRoundTrip(mime: string, t: FileType)
    ensures GetFileType(mime) == t && t != Unknown <==> MimeOf(t) == Some(mime)
  {
  }

  lemma FileTypeNames()
    ensures GetFileType(DocMime).Name() == "docs" && GetFileType(SheetMime).Name() == "sheets"
    ensures GetFileType(PdfMime).Name() == "pdf" && GetFileType(TextMime).Name() == "text"
    ensures GetFileType("application/msword").Name() == "unknown"
  {
  }

  /** Chunk `c` is the window at offset `i` of `words`: `words[i:i + size]` joined by
      single spaces, with `chunk_index = i`, `word_count = min(size, n - i) >= 1` and the
      given file, id and source type. */
  predicate ChunkAt(c: Chunk, words: seq<string>, i: int, size: nat,
                    fileName: string, fileId: string, sourceType: string)
  {
    && 0 <= i < |words|
    && c.text == Join(words[i..Min(i + size, |words|)], " ")
    && c.meta == Meta(Some(fileName), None, Some(i), Some(Min(size, |words| - i)),
                      Some(fileId), Some(sourceType), None, None)
    && 1 <= Min(size, |words| - i)
  }

  /** The shape of `_chunk_text` under a valid configuration: `ceil(n / step)` chunks for
      `n` words, chunk `k` being the window at offset `k*step`. */
  lemma ChunkTextShape(text: string, fileName: string, fileId: string, sourceType: string,
                       size: int, overlap: int)
    requires ValidConfig(size, overlap)
    ensures ChunkText(text, fileName, fileId, sourceType, size, overlap).Ok?
    ensures var cs := ChunkText(text, fileName, fileId, sourceType, size, overlap).value;
      var words := Words(text);
      && |cs| == CeilDiv(|words|, size - overlap)
      && forall k :: 0 <= k < |cs| ==>
           ChunkAt(cs[k], words, k * (size - overlap), size, fileName, fileId, sourceType)
  {
    var words := Words(text);
    var step := size - overlap;
    BlankIffNoWords(text);
    WindowsShape(words, size, overlap);
    var ws := Windows(words, size, overlap).value;
    if IsBlank(text) {
      CeilDivZero(step);
      assert |ws| == 0;
    } else {
      assert ChunkText(text, fileName, fileId, sourceType, size, overlap)
          == Ok(DriveChunks(ws, fileName, fileId, sourceType));
      DriveChunksAt(ws, words, size, step, fileName, fileId, sourceType);
    }
  }

  /** Chunk `k` built from window `k` at offset `k*step` is the chunk at that offset. */
  lemma DriveChunksAt(ws: seq<Window>, words: seq<string>, size: nat, step: nat,
                      fileName: string, fileId: string, sourceType: string)
    requires size > 0
    requires forall k :: 0 <= k < |ws| ==> WindowAt(words, ws[k], k * step, size)
    ensures var cs := DriveChunks(ws, fileName, fileId, sourceType);
      forall k :: 0 <= k < |cs| ==> ChunkAt(cs[k], words, k * step, size, fileName, fileId, sourceType)
  {
    var cs := DriveChunks(ws, fileName, fileId, sourceType);
    forall k | 0 <= k < |cs| ensures ChunkAt(cs[k], words, k * step, size, fileName, fileId, sourceType) {
      WindowChunk(ws[k], words, k * step, size, fileName, fileId, sourceType);
    }
  }

  /** The chunk built from the window at offset `i` is the chunk at offset `i`. */
  lemma WindowChunk(w: Window, words: seq<string>, i: int, size: nat,
                    fileName: string, fileId: string, sourceType: string)
    requires WindowAt(words, w, i, size) && size > 0
    ensures ChunkAt(DriveChunk(w, fileName, fileId, sourceType), words, i, size, fileName, fileId, sourceType)
  {
    assert |w.words| == Min(size, |words| - i);
  }

  /** The blank-text guard changes nothing under a usable step: blank text has no words,
      and a loop over no words emits nothing.  It matters only for a zero step, where it
      turns the `range` error into `[]`. */
  lemma BlankGuardRedundant(text: string, fileName: string, fileId: string, sourceType: string,
                            size: int, overlap: int)
    ensures size != overlap ==>
      ChunkText(text, fileName, fileId, sourceType, size, overlap)
        == ChunkTextUnguarded(text, fileName, fileId, sourceType, size, overlap)
    ensures size == overlap && IsBlank(text) ==>
      ChunkText(text, fileName, fileId, sourceType, size, overlap) == Ok([])
      && ChunkTextUnguarded(text, fileName, fileId, sourceType, size, overlap).Err?
  {
    BlankIffNoWords(text);
    if IsBlank(text) && size > overlap {
      assert WindowsFrom(Words(text), 0, size, size - overlap) == [];
    }
  }

  /** The `chunk_index` values of one `_chunk_text` result are pairwise distinct. */
  lemma ChunkIndicesDistinct(text: string, fileName: string, fileId: string, sourceType: string,
                             size: int, overlap: int, a: nat, b: nat)
    requires ValidConfig(size, overlap)
    requires a < b < |ChunkText(text, fileName, fileId, sourceType, size, overlap).value|
    ensures var cs := ChunkText(text, fileName, fileId, sourceType, size, overlap).value;
      cs[a].meta.chunkIndex.Some? && cs[a].meta.chunkIndex != cs[b].meta.chunkIndex
  {
    ChunkIndexAt(text, fileName, fileId, sourceType, size, overlap, a);
    ChunkIndexAt(text, fileName, fileId, sourceType, size, overlap, b);
    MulStrict(a, b, size - overlap);
  }

  /** Chunk `k` carries the offset `k*step` as its `chunk_index`. */
  lemma ChunkIndexAt(text: string, fileName: string, fileId: string, sourceType: string,
                     size: int, overlap: int, k: nat)
    requires ValidConfig(size, overlap)
    requires k < |ChunkText(text, fileName, fileId, sourceType, size, overlap).value|
    ensures ChunkText(text, fileName, fileId, sourceType, size, overlap).value[k].meta.chunkIndex
      == Some(k * (size - overlap))
  {
    ChunkTextShape(text, fileName, fileId, sourceType, size, overlap);
    var cs := ChunkText(text, fileName, fileId, sourceType, size, overlap).value;
    assert ChunkAt(cs[k], Words(text), k * (size - overlap), size, fileName, fileId, sourceType);
  }

  /** Each chunk's text re-splits into exactly `word_count` words. */
  lemma ChunkWordCount(text: string, fileName: string, fileId: string, sourceType: string,
                       size: int, overlap: int, k: nat)
    requires ValidConfig(size, overlap)
    requires k < |ChunkText(text, fileName, fileId, sourceType, size, overlap).value|
    ensures var c := ChunkText(text, fileName, fileId, sourceType, size, overlap).value[k];
      c.meta.wordCount == Some(|Words(c.text)|)
  {
    ChunkTextShape(text, fileName, fileId, sourceType, size, overlap);
    var c := ChunkText(text, fileName, fileId, sourceType, size, overlap).value[k];
    ChunkAtWordCount(c, Words(text), k * (size - overlap), size, fileName, fileId, sourceType);
  }

  lemma ChunkAtWordCount(c: Chunk, words: seq<string>, i: int, size: nat,
                         fileName: string, fileId: string, sourceType: string)
    requires ChunkAt(c, words, i, size, fileName, fileId, sourceType) && AllWords(words)
    ensures c.meta.wordCount == Some(|Words(c.text)|)
  {
    SliceOfWords(words, i, Min(i + size, |words|));
    WordsOfJoin(words[i..Min(i + size, |words|)]);
  }

  /** The Drive PDF rewrite sets `drive_id` and `source_type` on every chunk and leaves
      its text, file, page and chunk index as the PDF loader made them. */
  lemma RewriteKeepsPosition(cs: seq<Chunk>, fileId: string, k: nat)
    requires k < |cs|
    ensures var c := RewriteForDrive(cs, fileId)[k];
      && c.text == cs[k].text
      && c.meta.file == cs[k].meta.file && c.meta.page == cs[k].meta.page
      && c.meta.chunkIndex == cs[k].meta.chunkIndex && c.meta.wordCount == cs[k].meta.wordCount
      && c.meta.driveId == Some(fileId) && c.meta.sourceType == Some(GoogleDrivePdf)
  {
  }

  /** Only Docs, Sheets and PDFs load anything: `text`, `unknown` and every failed
      download give `[]`. */
  lemma LoadOnlySupported(fileType: FileType, fileId: string, fileName: string, d: Download)
    ensures LoadDriveDocument(fileType, fileId, fileName, d) != [] ==>
      && fileType in {Docs, Sheets, Pdf}
      && (fileType == Pdf ==> d.pdfPages.Some?)
      && (fileType != Pdf ==> d.exported.Some?)
  {
  }

  /** A loaded document's chunks all carry its Drive id and the source type of its file
      type. */
  lemma LoadedChunksTagged(fileType: FileType, fileId: string, fileName: string, d: Download, k: nat)
    requires k < |LoadDriveDocument(fileType, fileId, fileName, d)|
    ensures var c := LoadDriveDocument(fileType, fileId, fileName, d)[k];
      c.meta.driveId == Some(fileId) && c.meta.sourceType == Some(SourceTypeOf(fileType))
  {
    match fileType
    case Docs =>
      ChunkTextShape(d.exported.value, fileName, fileId, GoogleDoc, 200, 50);
      assert ChunkAt(LoadDriveDocument(fileType, fileId, fileName, d)[k], Words(d.exported.value),
                     k * 150, 200, fileName, fileId, GoogleDoc);
    case Sheets =>
      var text := DriveSheet.ProcessCsvContent(d.exported.value);
      ChunkTextShape(text, fileName, fileId, GoogleSheet, 200, 50);
      assert ChunkAt(LoadDriveDocument(fileType, fileId, fileName, d)[k], Words(text),
                     k * 150, 200, fileName, fileId, GoogleSheet);
    case Pdf =>
    case _ =>
  }

  /** A downloaded Drive PDF loads as the local PDF loader's chunks of `/tmp/<name>`, in
      the same order, each tagged with the Drive id. */
  lemma DrivePdfShape(fileId: string, fileName: string, d: Download)
    requires d.pdfPages.Some?
    ensures var cs := LoadDriveDocument(Pdf, fileId, fileName, d);
      var pages := d.pdfPages.value;
      && |cs| == PdfLoader.TotalWindows(pages, 150)
      && forall k :: 0 <= k < |cs| ==>
           && cs[k].meta.driveId == Some(fileId)
           && cs[k].meta.sourceType == Some(GoogleDrivePdf)
           && cs[k].meta.file == Some("/tmp/" + fileName)
           && cs[k].meta.page.Some? && 1 <= cs[k].meta.page.value <= |pages|
  {
    var pages := d.pdfPages.value;
    var path := "/tmp/" + fileName;
    PdfLoader.LoadPdfChunksShape(pages, path, 200, 50);
    var orig := PdfLoader.LoadPdfChunks(pages, path, 200, 50).value;
    var cs := LoadDriveDocument(Pdf, fileId, fileName, d);
    assert cs == RewriteForDrive(orig, fileId);
    forall k | 0 <= k < |cs|
      ensures cs[k].meta.file == Some(path) && cs[k].meta.page.Some? && 1 <= cs[k].meta.page.value <= |pages|
    {
      assert PdfLoader.FromPage(orig[k], pages, 1, path, 200, 150);
    }
  }
}

=== FILE: gdrive_manager.dfy ===
/** `gdrive_manager`: which Drive documents a run picks up, what it does with each one,
    and how the tracking index changes.  The Drive listing, the downloads, the embedder,
    the store and the clock are inputs; the JSON track file is a `TrackFile` value. */
module DriveManager {
  import opened Wrappers
  import opened Strings
  import opened Metadata
  import opened DriveLoader

  /** One file record of the Drive listing. */
  datatype DriveDoc = DriveDoc(id: string, name: string, mimeType: string, modifiedTime: string)

  /** One entry of `ingested_gdrive.json`.  An entry read back from disk need not carry a
      `modified_time`, hence the option. */
  datatype Entry = Entry(name: string, modifiedTime: Option<string>, processedTime: string,
                         chunkCount: nat, chunkIds: seq<string>, fileType: string, mimeType: string)

  type Index = map<string, Entry>

  /** What reading the track file finds. */
  datatype TrackFile = Missing | Corrupt | Parsed(index: Index)

  /** `load_gdrive_ingestion_index()`: a missing file and a file that does not parse both
      give the empty index. */
  function LoadIndex(f: TrackFile): (ix: Index)
    ensures f.Parsed? ==> ix == f.index
    ensures !f.Parsed? ==> ix == map[]
  {
    match f
    case Parsed(ix) => ix
    case _ => map[]
  }

  // ---------------------------------------------------------------------------
  // The scan query

  /** `SUPPORTED_MIME_TYPES`. */
  const SupportedMimeTypes: seq<string> := [DocMime, SheetMime, PdfMime]

  function MimeClause(mime: string): string {
    "mimeType='" + mime + "'"
  }

  function MimeClauses(mimes: seq<string>): (cs: seq<string>)
    ensures |cs| == |mimes|
    ensures forall k :: 0 <= k < |mimes| ==> cs[k] == MimeClause(mimes[k])
  {
    seq(|mimes|, k requires 0 <= k < |mimes| => MimeClause(mimes[k]))
  }

  /** The query without a folder restriction. */
  const BaseQuery: string := "(" + Join(MimeClauses(SupportedMimeTypes), " or ") + ") and trashed=false"

  /** The `q` argument `scan_drive_documents(service, folder_id)` lists with: the base
      query, with the parent restriction appended when `folder_id` is truthy. */
  function ScanQuery(folderId: Option<string>): (q: string)
    ensures |BaseQuery| <= |q| && q[..|BaseQuery|] == BaseQuery
    ensures q == BaseQuery <==> folderId.None? || folderId.value == ""
  {
    if folderId.Some? && folderId.value != "" then
      BaseQuery + " and '" + folderId.value + "' in parents"
    else BaseQuery
  }

  // ---------------------------------------------------------------------------
  // Selecting documents

  /** A listed document is new, or its stored modification time differs from the
      listing's; an entry without one always differs. */
  predicate NeedsProcessing(doc: DriveDoc, ix: Index) {
    doc.id !in ix || ix[doc.id].modifiedTime != Some(doc.modifiedTime)
  }

  /** `get_new_gdrive_docs_to_process`: the listed documents that need processing, in
      listing order. */
  function NewDocs(docs: seq<DriveDoc>, ix: Index): (r: seq<DriveDoc>)
    ensures |r| <= |docs|
  {
    if docs == [] then []
    else (if NeedsProcessing(docs[0], ix) then [docs[0]] else []) + NewDocs(docs[1..], ix)
  }

  /** A listed document is selected exactly when it needs processing. */
  lemma {:induction false} NewDocsMembers(docs: seq<DriveDoc>, ix: Index)
    ensures forall d :: d in NewDocs(docs, ix) <==> d in docs && NeedsProcessing(d, ix)
  {
    if docs != [] {
      NewDocsMembers(docs[1..], ix);
      assert docs == [docs[0]] + docs[1..];
    }
  }

  // ---------------------------------------------------------------------------
  // Processing one document

  /** Why a document was left out of the index. */
  datatype Skip = Unsupported | NoChunks | EmbeddingMismatch | Failed

  datatype DocOutcome = Stored(ids: seq<string>) | Skipped(reason: Skip)

  /** The embeddings the per-chunk loop collects: every truthy vector, in chunk order,
      or `None` when a call to the embedder raised. */
  function Embeddings(chunks: seq<Chunk>, embed: string -> Option<Vector>): (r: Option<seq<Vector>>)
    ensures r.Some? <==> forall k :: 0 <= k < |chunks| ==> embed(chunks[k].text).Some?
    ensures r.Some? ==> |r.value| <= |chunks| && forall k :: 0 <= k < |r.value| ==> r.value[k] != []
  {
    if chunks == [] then Some([])
    else
      match embed(chunks[0].text)
      case None => None
      case Some(v) =>
        match Embeddings(chunks[1..], embed)
        case None => None
        case Some(rest) => Some(if v != [] then [v] + rest else rest)
  }

  /** The embeddings of all chunks, when the embedder returned one for each. */
  function AllEmbeddings(chunks: seq<Chunk>, embed: string -> Option<Vector>): seq<Vector>
    requires forall k :: 0 <= k < |chunks| ==> embed(chunks[k].text).Some?
  {
    seq(|chunks|, k requires 0 <= k < |chunks| => embed(chunks[k].text).value)
  }

  /** Every chunk got a non-empty vector from the embedder. */
  predicate AllEmbedded(chunks: seq<Chunk>, embed: string -> Option<Vector>) {
    forall k :: 0 <= k < |chunks| ==> embed(chunks[k].text).Some? && embed(chunks[k].text).value != []
  }

  /** The chunks `load_drive_document` gives for a listed document. */
  function DocChunks(doc: DriveDoc, download: string -> Download): seq<Chunk> {
    LoadDriveDocument(GetFileType(doc.mimeType), doc.id, doc.name, download(doc.id))
  }

  /** What the loop body of `process_new_gdrive_docs` does with one document: an
      unsupported type, no chunks, a missing embedding and any exception skip it; a
      document is stored only when every chunk was embedded and the store call returned. */
  function Outcome(doc: DriveDoc, download: string -> Download, embed: string -> Option<Vector>,
                   add: (seq<Chunk>, seq<Vector>) -> Option<seq<string>>): (o: DocOutcome)
    ensures var chunks := DocChunks(doc, download);
      && (o.Stored? <==>
            && GetFileType(doc.mimeType) != Unknown
            && chunks != []
            && AllEmbedded(chunks, embed)
            && add(chunks, AllEmbeddings(chunks, embed)).Some?)
      && (o.Stored? ==> AllEmbedded(chunks, embed) && add(chunks, AllEmbeddings(chunks, embed)) == Some(o.ids))
  {
    var chunks := DocChunks(doc, download);
    if GetFileType(doc.mimeType) == Unknown then Skipped(Unsupported)
    else if chunks == [] then Skipped(NoChunks)
    else
      match Embeddings(chunks, embed)
      case None => Skipped(Failed)
      case Some(embs) =>
        EmbeddingsExact(chunks, embed);
        if |embs| != |chunks| then Skipped(EmbeddingMismatch)
        else
          match add(chunks, embs)
          case None => Skipped(Failed)
          case Some(ids) => Stored(ids)
  }

  /** The index entry written for a stored document. */
  function EntryFor(doc: DriveDoc, chunkCount: nat, ids: seq<string>, now: string): Entry {
    Entry(doc.name, Some(doc.modifiedTime), now, chunkCount, ids,
          GetFileType(doc.mimeType).Name(), doc.mimeType)
  }

  /** One document processed against the index: only its own key can change, and only
      when it was stored. */
  function ProcessDoc(ix: Index, doc: DriveDoc, download: string -> Download,
                      embed: string -> Option<Vector>,
                      add: (seq<Chunk>, seq<Vector>) -> Option<seq<string>>, now: string): (r: Index)
    ensures var o := Outcome(doc, download, embed, add);
      && (o.Skipped? ==> r == ix)
      && (o.Stored? ==>
            doc.id in r && r[doc.id] == EntryFor(doc, |DocChunks(doc, download)|, o.ids, now))
    ensures forall k :: k != doc.id ==> (k in r <==> k in ix) && (k in ix ==> r[k] == ix[k])
  {
    match Outcome(doc, download, embed, add)
    case Skipped(_) => ix
    case Stored(ids) => ix[doc.id := EntryFor(doc, |DocChunks(doc, download)|, ids, now)]
  }

  function DocIds(docs: seq<DriveDoc>): set<string> {
    set d | d in docs :: d.id
  }

  /** The loop over the selected documents. */
  function ProcessAll(ix: Index, docs: seq<DriveDoc>, download: string -> Download,
                      embed: string -> Option<Vector>,
                      add: (seq<Chunk>, seq<Vector>) -> Option<seq<string>>, now: string): (r: Index)
    ensures forall k :: k in ix ==> k in r
    ensures forall k :: k !in DocIds(docs) ==> (k in r <==> k in ix) && (k in ix ==> r[k] == ix[k])
    decreases |docs|
  {
    if docs == [] then ix
    else
      var ix1 := ProcessDoc(ix, docs[0], download, embed, add, now);
      var r := ProcessAll(ix1, docs[1..], download, embed, add, now);
      assert forall k :: k !in DocIds(docs) ==> k != docs[0].id && k !in DocIds(docs[1..]);
      r
  }

  /** What a run leaves behind: the index it wrote, or nothing. */
  datatype RunOutcome = NotWritten | Written(index: Index)

  /** `process_new_gdrive_docs(embed_func, add_func)`.  A failed authentication or an
      empty selection returns before anything is written; otherwise the whole index is
      written once, after every selected document was processed.  A failed listing is
      the empty `listed`. */
  function ProcessNewGdriveDocs(authenticated: bool, track: TrackFile, listed: seq<DriveDoc>,
                                download: string -> Download, embed: string -> Option<Vector>,
                                add: (seq<Chunk>, seq<Vector>) -> Option<seq<string>>,
                                now: string): (r: RunOutcome)
    ensures r.Written? <==> authenticated && NewDocs(listed, LoadIndex(track)) != []
    ensures r.Written? ==>
      var ix := LoadIndex(track);
      && (forall k :: k in ix ==> k in r.index)
      && (forall k :: k in r.index && k !in ix ==> exists d :: d in listed && d.id == k)
      && (forall d :: d in listed && !NeedsProcessing(d, ix) ==> d.id in r.index)
  {
    if !authenticated then NotWritten
    else
      var ix := LoadIndex(track);
      var selected := NewDocs(listed, ix);
      NewDocsMembers(listed, ix);
      if selected == [] then NotWritten
      else
        var out := ProcessAll(ix, selected, download, embed, add, now);
        forall k | k in out && k !in ix ensures exists d :: d in listed && d.id == k {
          var d :| d in selected && d.id == k;
          assert d in listed;
        }
        Written(out)
  }

  // ---------------------------------------------------------------------------
  // Lemmas

  /** With every chunk embedded, the collected vectors are exactly the chunks' vectors
      in chunk order; with one missing, fewer vectors are collected than there are
      chunks. */
  lemma {:induction false} EmbeddingsExact(chunks: seq<Chunk>, embed: string -> Option<Vector>)
    requires Embeddings(chunks, embed).Some?
    ensures |Embeddings(chunks, embed).value| == |chunks| <==> AllEmbedded(chunks, embed)
    ensures AllEmbedded(chunks, embed) ==>
      Embeddings(chunks, embed).value == AllEmbeddings(chunks, embed)
  {
    if chunks != [] {
      EmbeddingsExact(chunks[1..], embed);
      var rest := Embeddings(chunks[1..], embed).value;
      assert forall k :: 1 <= k < |chunks| ==> chunks[1..][k - 1] == chunks[k];
      if AllEmbedded(chunks, embed) {
        assert AllEmbedded(chunks[1..], embed);
        assert [embed(chunks[0].text).value] + AllEmbeddings(chunks[1..], embed)
            == AllEmbeddings(chunks, embed);
      } else if AllEmbedded(chunks[1..], embed) {
        assert embed(chunks[0].text).value == [];
      }
    }
  }

  /** The scan query without a folder: the three supported MIME types OR-ed in
      parentheses, then the trash filter. */
  lemma BaseQueryText()
    ensures BaseQuery == "(" + MimeClause(DocMime) + " or " + MimeClause(SheetMime) + " or "
                       + MimeClause(PdfMime) + ") and trashed=false"
  {
    var cs := MimeClauses(SupportedMimeTypes);
    assert cs == [MimeClause(DocMime), MimeClause(SheetMime), MimeClause(PdfMime)];
    var tail := cs[1..];
    assert |tail| == 2 && tail[0] == cs[1] && tail[1..] == [cs[2]];
    assert Join(tail, " or ") == cs[1] + " or " + cs[2];
    assert Join(cs, " or ") == cs[0] + " or " + (cs[1] + " or " + cs[2]);
    Regroup("(", cs[0], cs[1], cs[2], " or ", ") and trashed=false");
  }

  lemma Regroup(open: string, a: string, b: string, c: string, sep: string, close: string)
    ensures open + (a + sep + (b + sep + c)) + close == open + a + sep + b + sep + c + close
  {
  }

  /** A folder id appends exactly one parent restriction. */
  lemma ScanQueryInFolder(folderId: string)
    requires folderId != ""
    ensures ScanQuery(Some(folderId)) == BaseQuery + " and '" + folderId + "' in parents"
    ensures ScanQuery(Some("")) == ScanQuery(None) == BaseQuery
  {
  }

  /** Selection distributes over concatenation of listings, so it keeps listing order. */
  lemma {:induction false} NewDocsConcat(a: seq<DriveDoc>, b: seq<DriveDoc>, ix: Index)
    ensures NewDocs(a + b, ix) == NewDocs(a, ix) + NewDocs(b, ix)
  {
    if a != [] {
      var x, t := a[0], a[1..];
      assert a == [x] + t && a + b == [x] + (t + b);
      NewDocsConcat(t, b, ix);
      NewDocsCons(x, t, b, ix);
    } else {
      assert a + b == b;
    }
  }

  lemma NewDocsCons(x: DriveDoc, t: seq<DriveDoc>, b: seq<DriveDoc>, ix: Index)
    requires NewDocs(t + b, ix) == NewDocs(t, ix) + NewDocs(b, ix)
    ensures NewDocs([x] + (t + b), ix) == NewDocs([x] + t, ix) + NewDocs(b, ix)
  {
    var head := if NeedsProcessing(x, ix) then [x] else [];
    assert ([x] + (t + b))[1..] == t + b;
    assert ([x] + t)[1..] == t;
    AppendAssoc(head, NewDocs(t, ix), NewDocs(b, ix));
  }

  /** Against an empty index, every listed document is selected. */
  lemma {:induction false} NewDocsFresh(docs: seq<DriveDoc>)
    ensures NewDocs(docs, map[]) == docs
  {
    if docs != [] {
      NewDocsFresh(docs[1..]);
    }
  }

  /** A missing and a corrupt track file select the whole listing. */
  lemma UnreadableTrackSelectsAll(track: TrackFile, docs: seq<DriveDoc>)
    requires !track.Parsed?
    ensures NewDocs(docs, LoadIndex(track)) == docs
  {
    NewDocsFresh(docs);
  }

  /** A stored document is up to date in the index that results. */
  lemma StoredIsSettled(ix: Index, doc: DriveDoc, download: string -> Download,
                        embed: string -> Option<Vector>,
                        add: (seq<Chunk>, seq<Vector>) -> Option<seq<string>>, now: string)
    requires Outcome(doc, download, embed, add).Stored?
    ensures !NeedsProcessing(doc, ProcessDoc(ix, doc, download, embed, add, now))
  {
  }

  /** In a listing where equal ids mean equal records, each document's key ends up with
      its entry when it was stored, and as it was before when it was skipped. */
  lemma {:induction false} ProcessAllAt(ix: Index, docs: seq<DriveDoc>, d: DriveDoc,
                                        download: string -> Download,
                                        embed: string -> Option<Vector>,
                                        add: (seq<Chunk>, seq<Vector>) -> Option<seq<string>>,
                                        now: string)
    requires forall a, b :: a in docs && b in docs && a.id == b.id ==> a == b
    requires d in docs
    decreases |docs|
    ensures var r := ProcessAll(ix, docs, download, embed, add, now);
      var o := Outcome(d, download, embed, add);
      && (o.Stored? ==> d.id in r && r[d.id] == EntryFor(d, |DocChunks(d, download)|, o.ids, now))
      && (o.Skipped? ==> (d.id in r <==> d.id in ix) && (d.id in ix ==> r[d.id] == ix[d.id]))
  {
    var ix1 := ProcessDoc(ix, docs[0], download, embed, add, now);
    assert ProcessAll(ix, docs, download, embed, add, now)
        == ProcessAll(ix1, docs[1..], download, embed, add, now);
    if d in docs[1..] {
      ProcessAllAt(ix1, docs[1..], d, download, embed, add, now);
      if docs[0].id == d.id {
        assert docs[0] == d;
      }
    } else {
      assert d == docs[0];
      forall e | e in docs[1..] ensures e.id != d.id {
        assert e in docs;
      }
    }
  }

  /** Running twice over the same listing: after a run, a listed document is selected
      again exactly when it was selected and then skipped.  Stored documents are up to
      date, and documents that were up to date stay so. */
  lemma Rerun(authenticated: bool, track: TrackFile, listed: seq<DriveDoc>,
              download: string -> Download, embed: string -> Option<Vector>,
              add: (seq<Chunk>, seq<Vector>) -> Option<seq<string>>, now: string, d: DriveDoc)
    requires forall a, b :: a in listed && b in listed && a.id == b.id ==> a == b
    requires d in listed
    requires ProcessNewGdriveDocs(authenticated, track, listed, download, embed, add, now).Written?
    ensures var ix := LoadIndex(track);
      var out := ProcessNewGdriveDocs(authenticated, track, listed, download, embed, add, now).index;
      var again := NeedsProcessing(d, out);
      again <==> NeedsProcessing(d, ix) && Outcome(d, download, embed, add).Skipped?
  {
    var ix := LoadIndex(track);
    var selected := NewDocs(listed, ix);
    var out := ProcessAll(ix, selected, download, embed, add, now);
    NewDocsMembers(listed, ix);
    if d in selected {
      ProcessAllAt(ix, selected, d, download, embed, add, now);
    } else {
      forall e | e in selected ensures e.id != d.id {
        assert e in listed;
      }
    }
  }
}

=== FILE: gdrive_retriever.dfy ===
/** `gdrive_retriever`: ids and stored metadata of Drive chunks, the filtered search,
    the boosted reranker and the collection statistics.  ChromaDB, `cos_sim`, the clock
    and ISO-8601 parsing are outside the model: the store's replies are inputs, the
    similarity is a function parameter, `datetime.now().isoformat()` is the string `now`,
    and the age in whole days of an `ingested_at` value is a function returning `None`
    when the value does not parse. */
module DriveRetriever {
  import opened Wrappers
  import opened Strings
  import opened Metadata
  import opened Ranking
  import Chunker
  import PdfLoader
  import DriveSheet
  import DriveLoader
  import Retriever

  const DriveCollection: string := "google_drive"

  // ---------------------------------------------------------------------------
  // add_chunks_gdrive

  /** `f"gdrive_{drive_id}_{chunk_index}"` with the defaults `'unknown'` and the list
      position `i`. */
  function DriveChunkId(m: Meta, i: int): string {
    "gdrive_" + m.driveId.GetOr("unknown") + "_" + IntToString(m.chunkIndex.GetOr(i))
  }

  /** The key the id is built from. */
  function DriveKey(m: Meta, i: int): (string, int) {
    (m.driveId.GetOr("unknown"), m.chunkIndex.GetOr(i))
  }

  /** `{**metadata, "ingested_at": now, "collection_type": "google_drive"}`. */
  function Stamp(m: Meta, now: string): Meta {
    m.(ingestedAt := Some(now), collectionType := Some(DriveCollection))
  }

  /** `add_chunks_gdrive(chunks, embeddings)`: the `collection.add` call it makes; its
      `ids` are also the return value. */
  function AddChunksGdrive(chunks: seq<Chunk>, embeddings: seq<Vector>, now: string): (r: AddCall)
    ensures |r.ids| == |r.documents| == |r.metadatas| == |chunks|
    ensures r.embeddings == embeddings
    ensures forall k :: 0 <= k < |chunks| ==>
      && r.documents[k] == chunks[k].text
      && r.ids[k] == DriveChunkId(chunks[k].meta, k)
      && r.metadatas[k] == Stamp(chunks[k].meta, now)
  {
    AddCall(seq(|chunks|, k requires 0 <= k < |chunks| => chunks[k].text),
            seq(|chunks|, k requires 0 <= k < |chunks| => Stamp(chunks[k].meta, now)),
            seq(|chunks|, k requires 0 <= k < |chunks| => DriveChunkId(chunks[k].meta, k)),
            embeddings)
  }

  /** An id that also carries the page when the chunk has one. */
  function PagedDriveChunkId(m: Meta, i: int): string {
    if m.page.Some? then
      "gdrive_" + m.driveId.GetOr("unknown") + "_" + IntToString(m.page.value) + "_"
        + IntToString(m.chunkIndex.GetOr(i))
    else DriveChunkId(m, i)
  }

  /** `add_chunks_gdrive` with page-qualified ids. */
  function AddChunksGdrivePaged(chunks: seq<Chunk>, embeddings: seq<Vector>, now: string): (r: AddCall)
    ensures |r.ids| == |r.documents| == |r.metadatas| == |chunks|
    ensures r.embeddings == embeddings
  {
    AddCall(seq(|chunks|, k requires 0 <= k < |chunks| => chunks[k].text),
            seq(|chunks|, k requires 0 <= k < |chunks| => Stamp(chunks[k].meta, now)),
            seq(|chunks|, k requires 0 <= k < |chunks| => PagedDriveChunkId(chunks[k].meta, k)),
            embeddings)
  }

  predicate Distinct<T(==)>(xs: seq<T>) {
    forall a, b :: 0 <= a < b < |xs| ==> xs[a] != xs[b]
  }

  // ---------------------------------------------------------------------------
  // search_drive_chunks

  /** The recognised keys of the optional `filters` dictionary; no filters, `{}` and a
      dictionary with neither key all mean both are `None`. */
  datatype Filters = Filters(sourceType: Option<string>, fileName: Option<string>)

  /** A ChromaDB where clause of the three forms the search builds. */
  datatype Where = Where(collectionType: string, sourceType: Option<string>, fileContains: Option<string>)

  function WhereClause(f: Filters): (w: Where)
    ensures w.collectionType == DriveCollection
  {
    Where(DriveCollection, f.sourceType, f.fileName)
  }

  /** The store semantics this model assumes for the where clause: every listed key
      must hold, the keys as equalities and `$contains` as a substring test on `file`.
      The search only builds the clause; how the store evaluates it is outside the
      program. */
  predicate Admits(w: Where, m: Meta) {
    && m.collectionType == Some(w.collectionType)
    && (w.sourceType.Some? ==> m.sourceType == w.sourceType)
    && (w.fileContains.Some? ==> m.file.Some? && Contains(m.file.value, w.fileContains.value))
  }

  /** The reply normalisation of `search_drive_chunks`: unlike the local retriever it
      never looks at the embeddings key first, but indexing an absent one raises and is
      caught just the same. */
  function NormaliseDriveReply(reply: QueryReply): Option<Retrieved> {
    match reply
    case Raised => None
    case Reply(docs, embs, metas) =>
      if docs.None? || docs.value == [] || docs.value[0] == [] then None
      else if embs.None? || embs.value == [] || metas.None? || metas.value == [] then None
      else Some(Retrieved(docs.value[0], embs.value[0], metas.value[0]))
  }

  /** `search_drive_chunks(query_embedding, filters)` against a store whose answer to a
      where clause is `query`. */
  function SearchDriveChunks(f: Filters, query: Where -> QueryReply): Option<Retrieved> {
    NormaliseDriveReply(query(WhereClause(f)))
  }

  // ---------------------------------------------------------------------------
  // rerank_gdrive_results

  /** `0.1 * (7 - days_old) / 7` for documents at most seven days old, else nothing; a
      missing or unparseable `ingested_at` gives nothing. */
  function Recency(m: Meta, ageDays: string -> Option<int>): real {
    match m.ingestedAt
    case None => 0.0
    case Some(t) =>
      match ageDays(t)
      case None => 0.0
      case Some(d) => if d <= 7 then 0.1 * (7 - d) as real / 7.0 else 0.0
  }

  /** +0.05 for a source type containing "Google Doc", else +0.03 for one containing
      "Google Sheet", else nothing; a missing source type counts as `''`. */
  function TypeBoost(m: Meta): real {
    var st := m.sourceType.GetOr("");
    if Contains(st, "Google Doc") then 0.05
    else if Contains(st, "Google Sheet") then 0.03
    else 0.0
  }

  /** One enhanced result: boosted score, warning from the unboosted one. */
  function DriveHit(doc: string, m: Meta, base: real, ageDays: string -> Option<int>, threshold: real): Hit {
    Hit(doc, m, base + Recency(m, ageDays) + TypeBoost(m), base < threshold)
  }

  function DriveCandidates(docs: seq<string>, metas: seq<Meta>, scores: seq<real>,
                           ageDays: string -> Option<int>, threshold: real): (cs: seq<Hit>)
    ensures |cs| == Retriever.Min3(|docs|, |metas|, |scores|)
  {
    var n := Retriever.Min3(|docs|, |metas|, |scores|);
    seq(n, i requires 0 <= i < n => DriveHit(docs[i], metas[i], scores[i], ageDays, threshold))
  }

  /** `rerank_gdrive_results(query_embedding, docs, embs, metas, threshold)`. */
  function RerankGdrive(query: Vector, docs: seq<string>, embs: seq<Vector>, metas: seq<Meta>,
                        cos: (Vector, Vector) -> real, ageDays: string -> Option<int>, threshold: real)
    : (r: seq<Hit>)
    ensures var cands := DriveCandidates(docs, metas, Retriever.Scores(query, embs, cos), ageDays, threshold);
      && SortedDesc(r)
      && multiset(r) == multiset(cands)
      && |r| == Retriever.Min3(|docs|, |metas|, |embs|)
  {
    SortDesc(DriveCandidates(docs, metas, Retriever.Scores(query, embs, cos), ageDays, threshold))
  }

  // ---------------------------------------------------------------------------
  // get_document_stats

  /** One entry of the `type_counts` dictionary, in first-seen order. */
  datatype TypeCount = TypeCount(sourceType: string, count: nat)

  datatype StatValue = Count(n: nat) | Types(entries: seq<TypeCount>)

  /** What `collection.get(include=["metadatas"])` hands back, or `GetRaised`. */
  datatype GetReply = GetRaised | GotMetas(metadatas: Option<seq<Meta>>)

  function SourceKey(m: Meta): string {
    m.sourceType.GetOr("Unknown")
  }

  predicate KeysDistinct(t: seq<TypeCount>) {
    forall a, b :: 0 <= a < b < |t| ==> t[a].sourceType != t[b].sourceType
  }

  /** `type_counts[key] = type_counts.get(key, 0) + 1`. */
  function Bump(t: seq<TypeCount>, key: string): (r: seq<TypeCount>)
    ensures |r| == |t| || |r| == |t| + 1
  {
    if t == [] then [TypeCount(key, 1)]
    else if t[0].sourceType == key then [TypeCount(key, t[0].count + 1)] + t[1..]
    else [t[0]] + Bump(t[1..], key)
  }

  /** The type counts after the loop has seen `metas`. */
  function TallyTypes(metas: seq<Meta>): seq<TypeCount>
    decreases |metas|
  {
    if metas == [] then [] else Bump(TallyTypes(metas[..|metas| - 1]), SourceKey(metas[|metas| - 1]))
  }

  /** The `drive_id` values seen, as a set. */
  function DriveIds(metas: seq<Meta>): (ids: set<string>)
    decreases |metas|
  {
    if metas == [] then {}
    else
      var last := metas[|metas| - 1];
      DriveIds(metas[..|metas| - 1]) + (if last.driveId.Some? then {last.driveId.value} else {})
  }

  /** The set holds exactly the drive ids present in some metadata. */
  lemma {:induction false} DriveIdsMembers(metas: seq<Meta>)
    ensures forall x :: x in DriveIds(metas) <==> exists i :: 0 <= i < |metas| && metas[i].driveId == Some(x)
    decreases |metas|
  {
    if metas != [] {
      var before := metas[..|metas| - 1];
      DriveIdsMembers(before);
      assert forall i :: 0 <= i < |before| ==> before[i] == metas[i];
    }
  }

  /** `get_document_stats()` for a given store reply. */
  function GetDocumentStats(reply: GetReply): map<string, StatValue> {
    match reply
    case GetRaised => StatsMap(Count(0), Count(0), Types([]))
    case GotMetas(ms) =>
      if ms.None? || ms.value == [] then
        map["total_chunks" := Count(0), "documents" := Count(0), "types" := Types([])]
      else
        StatsMap(Count(|ms.value|), Count(|DriveIds(ms.value)|), Types(TallyTypes(ms.value)))
  }

  /** The dictionary the error branch and the non-empty branch return. */
  function StatsMap(total: StatValue, unique: StatValue, types: StatValue): map<string, StatValue> {
    map["total_chunks" := total, "unique_documents" := unique, "document_types" := types]
  }

  /** `get_document_stats()` with the empty branch using the keys of the other two. */
  function GetDocumentStatsFixed(reply: GetReply): (r: map<string, StatValue>)
    ensures r.Keys == {"total_chunks", "unique_documents", "document_types"}
  {
    match reply
    case GotMetas(Some(ms)) =>
      if ms == [] then GetDocumentStats(GetRaised) else GetDocumentStats(reply)
    case _ => GetDocumentStats(GetRaised)
  }

  function Occurrences(metas: seq<Meta>, key: string): nat
    decreases |metas|
  {
    if metas == [] then 0
    else Occurrences(metas[..|metas| - 1], key) + (if SourceKey(metas[|metas| - 1]) == key then 1 else 0)
  }

  function Total(t: seq<TypeCount>): nat {
    if t == [] then 0 else t[0].count + Total(t[1..])
  }

  /** The count recorded for `key`, 0 when it has none. */
  function CountOf(t: seq<TypeCount>, key: string): nat {
    if t == [] then 0
    else if t[0].sourceType == key then t[0].count
    else CountOf(t[1..], key)
  }

  // ---------------------------------------------------------------------------
  // Lemmas: ids

  /** Two Drive ids are equal exactly when their (drive id, chunk index) keys are. */
  lemma DriveIdIffKey(m1: Meta, i1: int, m2: Meta, i2: int)
    ensures DriveChunkId(m1, i1) == DriveChunkId(m2, i2) <==> DriveKey(m1, i1) == DriveKey(m2, i2)
  {
    if DriveChunkId(m1, i1) == DriveChunkId(m2, i2) {
      var p1, p2 := "gdrive_" + m1.driveId.GetOr("unknown"), "gdrive_" + m2.driveId.GetOr("unknown");
      UnderscoreIntInjective(p1, m1.chunkIndex.GetOr(i1), p2, m2.chunkIndex.GetOr(i2));
      assert p1[7..] == m1.driveId.GetOr("unknown");
      assert p2[7..] == m2.driveId.GetOr("unknown");
    }
  }

  /** `add_chunks_gdrive` gives pairwise distinct ids exactly when the chunks' (drive
      id, chunk index) keys are pairwise distinct. */
  lemma DriveIdsDistinctIff(chunks: seq<Chunk>, embeddings: seq<Vector>, now: string)
    ensures Distinct(AddChunksGdrive(chunks, embeddings, now).ids)
      <==> forall a, b :: 0 <= a < b < |chunks| ==> DriveKey(chunks[a].meta, a) != DriveKey(chunks[b].meta, b)
  {
    var ids := AddChunksGdrive(chunks, embeddings, now).ids;
    forall a, b | 0 <= a < b < |chunks|
      ensures ids[a] != ids[b] <==> DriveKey(chunks[a].meta, a) != DriveKey(chunks[b].meta, b)
    {
      DriveIdIffKey(chunks[a].meta, a, chunks[b].meta, b);
    }
  }

  /** Every stored Drive chunk keeps its own metadata and is tagged as a Drive chunk.
      Under the assumed store semantics `Admits`, a filter admits it exactly when its
      source type equals the filter's and its file name contains the filter's. */
  lemma StoredChunkAdmitted(chunks: seq<Chunk>, embeddings: seq<Vector>, now: string, f: Filters, k: nat)
    requires k < |chunks|
    ensures var m := AddChunksGdrive(chunks, embeddings, now).metadatas[k];
      && m.file == chunks[k].meta.file && m.page == chunks[k].meta.page
      && m.chunkIndex == chunks[k].meta.chunkIndex && m.driveId == chunks[k].meta.driveId
      && m.sourceType == chunks[k].meta.sourceType && m.wordCount == chunks[k].meta.wordCount
      && m.ingestedAt == Some(now) && m.collectionType == Some(DriveCollection)
      && (Admits(WhereClause(f), m) <==>
            && (f.sourceType.Some? ==> chunks[k].meta.sourceType == f.sourceType)
            && (f.fileName.Some? ==> chunks[k].meta.file.Some?
                                     && Contains(chunks[k].meta.file.value, f.fileName.value)))
  {
  }

  /** The ids of a loaded Doc or Sheet are pairwise distinct. */
  lemma DocIdsDistinct(fileType: DriveLoader.FileType, fileId: string, fileName: string,
                       d: DriveLoader.Download, embeddings: seq<Vector>, now: string)
    requires fileType == DriveLoader.Docs || fileType == DriveLoader.Sheets
    ensures Distinct(AddChunksGdrive(DriveLoader.LoadDriveDocument(fileType, fileId, fileName, d),
                                     embeddings, now).ids)
  {
    var cs := DriveLoader.LoadDriveDocument(fileType, fileId, fileName, d);
    if cs != [] {
      var text := if fileType == DriveLoader.Docs then d.exported.value
                  else DriveSheet.ProcessCsvContent(d.exported.value);
      var st := DriveLoader.SourceTypeOf(fileType);
      assert cs == DriveLoader.ChunkText(text, fileName, fileId, st, 200, 50).value;
      forall a, b | 0 <= a < b < |cs| ensures DriveKey(cs[a].meta, a) != DriveKey(cs[b].meta, b) {
        DriveLoader.ChunkIndicesDistinct(text, fileName, fileId, st, 200, 50, a, b);
      }
      DriveIdsDistinctIff(cs, embeddings, now);
    }
  }

  /** Both reply normalisations agree on every reply: checking the embeddings key first
      changes no outcome, since indexing it when absent raises and is caught. */
  lemma NormalisationsAgree(reply: QueryReply)
    ensures NormaliseDriveReply(reply) == Retriever.SearchSimilarChunks(reply)
  {
  }

  /** Finding: a Drive PDF restarts `chunk_index` on every page, so the first chunks of
      its first two pages get the same id. */
  lemma DrivePdfIdsCollide(fileId: string, fileName: string, pages: seq<string>,
                           embeddings: seq<Vector>, now: string)
    requires |pages| >= 2 && Words(pages[0]) != [] && Words(pages[1]) != []
    ensures var cs := DriveLoader.LoadDriveDocument(DriveLoader.Pdf, fileId, fileName,
                                                    DriveLoader.Download(None, Some(pages)));
      var n0 := Chunker.CeilDiv(|Words(pages[0])|, 150);
      var ids := AddChunksGdrive(cs, embeddings, now).ids;
      && 0 < n0 < |cs|
      && cs[0].meta.page == Some(1) && cs[n0].meta.page == Some(2)
      && ids[0] == ids[n0] == "gdrive_" + fileId + "_0"
  {
    var path := "/tmp/" + fileName;
    TwoPagesFirstChunks(pages, path);
    var orig := PdfLoader.LoadPdfChunks(pages, path, 200, 50).value;
    var n0 := Chunker.CeilDiv(|Words(pages[0])|, 150);
    var cs := DriveLoader.LoadDriveDocument(DriveLoader.Pdf, fileId, fileName,
                                           DriveLoader.Download(None, Some(pages)));
    assert cs == DriveLoader.RewriteForDrive(orig, fileId);
    DriveLoader.RewriteKeepsPosition(orig, fileId, 0);
    DriveLoader.RewriteKeepsPosition(orig, fileId, n0);
    assert IntToString(0) == "0";
  }

  /** The first chunk of each of the first two pages has `chunk_index` 0. */
  lemma TwoPagesFirstChunks(pages: seq<string>, path: string)
    requires |pages| >= 2 && Words(pages[0]) != [] && Words(pages[1]) != []
    ensures var r := PdfLoader.LoadPdfChunks(pages, path, 200, 50);
      var n0 := Chunker.CeilDiv(|Words(pages[0])|, 150);
      && r.Ok? && 0 < n0 < |r.value|
      && r.value[0].meta.page == Some(1) && r.value[0].meta.chunkIndex == Some(0)
      && r.value[n0].meta.page == Some(2) && r.value[n0].meta.chunkIndex == Some(0)
  {
    var w0, w1 := Words(pages[0]), Words(pages[1]);
    FirstWindowAtZero(w0);
    FirstWindowAtZero(w1);
    var ws0 := Chunker.Windows(w0, 200, 50).value;
    var ws1 := Chunker.Windows(w1, 200, 50).value;
    var pc0 := PdfLoader.PageChunks(ws0, 1, path);
    var pc1 := PdfLoader.PageChunks(ws1, 2, path);
    var rest2 := PdfLoader.PagesChunks(pages[2..], 3, path, 200, 50).value;
    assert pages[1..][0] == pages[1] && pages[1..][1..] == pages[2..];
    var rest := PdfLoader.PagesChunks(pages[1..], 2, path, 200, 50).value;
    assert rest == pc1 + rest2;
    var orig := PdfLoader.LoadPdfChunks(pages, path, 200, 50).value;
    assert orig == pc0 + rest;
    assert orig[0] == pc0[0] && orig[|pc0|] == pc1[0];
  }

  /** Under the defaults a non-empty page has at least one window, the first at offset 0. */
  lemma FirstWindowAtZero(words: seq<string>)
    requires words != []
    ensures var r := Chunker.Windows(words, 200, 50);
      && r.Ok? && |r.value| == Chunker.CeilDiv(|words|, 150) > 0 && r.value[0].start == 0
  {
    Chunker.WindowsShape(words, 200, 50);
    Chunker.CeilDivBounds(|words|, 150);
    var ws := Chunker.Windows(words, 200, 50).value;
    assert Chunker.WindowAt(words, ws[0], 0 * 150, 200);
  }

  /** Page-qualified ids determine drive id, page and chunk index. */
  lemma PagedIdInjective(m1: Meta, i1: int, m2: Meta, i2: int)
    requires m1.page.Some? && m2.page.Some?
    requires PagedDriveChunkId(m1, i1) == PagedDriveChunkId(m2, i2)
    ensures DriveKey(m1, i1) == DriveKey(m2, i2) && m1.page == m2.page
  {
    var p1, p2 := "gdrive_" + m1.driveId.GetOr("unknown"), "gdrive_" + m2.driveId.GetOr("unknown");
    UnderscoreIntInjective(p1 + "_" + IntToString(m1.page.value), m1.chunkIndex.GetOr(i1),
                           p2 + "_" + IntToString(m2.page.value), m2.chunkIndex.GetOr(i2));
    UnderscoreIntInjective(p1, m1.page.value, p2, m2.page.value);
    assert p1[7..] == m1.driveId.GetOr("unknown");
    assert p2[7..] == m2.driveId.GetOr("unknown");
  }

  /** With page-qualified ids every loaded document, PDFs included, gets pairwise
      distinct ids. */
  lemma PagedIdsDistinct(fileType: DriveLoader.FileType, fileId: string, fileName: string,
                         d: DriveLoader.Download, embeddings: seq<Vector>, now: string)
    ensures Distinct(AddChunksGdrivePaged(DriveLoader.LoadDriveDocument(fileType, fileId, fileName, d),
                                          embeddings, now).ids)
  {
    var cs := DriveLoader.LoadDriveDocument(fileType, fileId, fileName, d);
    var ids := AddChunksGdrivePaged(cs, embeddings, now).ids;
    if fileType == DriveLoader.Pdf && cs != [] {
      var pages := d.pdfPages.value;
      var path := "/tmp/" + fileName;
      PdfLoader.LoadPdfChunksShape(pages, path, 200, 50);
      var orig := PdfLoader.LoadPdfChunks(pages, path, 200, 50).value;
      assert cs == DriveLoader.RewriteForDrive(orig, fileId);
      forall a, b | 0 <= a < b < |cs| ensures ids[a] != ids[b] {
        PdfLoader.PdfPositionsDistinct(pages, path, 200, 50, a, b);
        DriveLoader.RewriteKeepsPosition(orig, fileId, a);
        DriveLoader.RewriteKeepsPosition(orig, fileId, b);
        assert PdfLoader.FromPage(orig[a], pages, 1, path, 200, 150);
        assert PdfLoader.FromPage(orig[b], pages, 1, path, 200, 150);
        if ids[a] == ids[b] {
          PagedIdInjective(cs[a].meta, a, cs[b].meta, b);
        }
      }
    } else if fileType == DriveLoader.Docs || fileType == DriveLoader.Sheets {
      DocIdsDistinct(fileType, fileId, fileName, d, embeddings, now);
      var old_ids := AddChunksGdrive(cs, embeddings, now).ids;
      forall k | 0 <= k < |cs| ensures ids[k] == old_ids[k] {
        DriveLoader.LoadedChunksTagged(fileType, fileId, fileName, d, k);
        DocChunkHasNoPage(fileType, fileId, fileName, d, k);
      }
    }
  }

  lemma DocChunkHasNoPage(fileType: DriveLoader.FileType, fileId: string, fileName: string,
                          d: DriveLoader.Download, k: nat)
    requires fileType == DriveLoader.Docs || fileType == DriveLoader.Sheets
    requires k < |DriveLoader.LoadDriveDocument(fileType, fileId, fileName, d)|
    ensures DriveLoader.LoadDriveDocument(fileType, fileId, fileName, d)[k].meta.page.None?
  {
    var text := if fileType == DriveLoader.Docs then d.exported.value
                else DriveSheet.ProcessCsvContent(d.exported.value);
    var st := DriveLoader.SourceTypeOf(fileType);
    DriveLoader.ChunkTextShape(text, fileName, fileId, st, 200, 50);
    assert DriveLoader.ChunkAt(DriveLoader.LoadDriveDocument(fileType, fileId, fileName, d)[k],
                               Words(text), k * 150, 200, fileName, fileId, st);
  }

  // ---------------------------------------------------------------------------
  // Lemmas: reranking

  /** The Drive reranker keeps tied candidates in their retrieval order. */
  lemma RerankGdriveStable(query: Vector, docs: seq<string>, embs: seq<Vector>, metas: seq<Meta>,
                           cos: (Vector, Vector) -> real, ageDays: string -> Option<int>,
                           threshold: real, v: real)
    ensures WithScore(RerankGdrive(query, docs, embs, metas, cos, ageDays, threshold), v)
         == WithScore(DriveCandidates(docs, metas, Retriever.Scores(query, embs, cos), ageDays, threshold), v)
  {
    SortStable(DriveCandidates(docs, metas, Retriever.Scores(query, embs, cos), ageDays, threshold), v);
  }

  /** Every reranked result is one retrieved candidate: its score is its similarity plus
      both boosts, and its warning is raised exactly when the similarity alone is below
      the threshold. */
  lemma RerankGdriveResults(query: Vector, docs: seq<string>, embs: seq<Vector>, metas: seq<Meta>,
                            cos: (Vector, Vector) -> real, ageDays: string -> Option<int>,
                            threshold: real, h: Hit)
    requires h in RerankGdrive(query, docs, embs, metas, cos, ageDays, threshold)
    ensures exists i :: (0 <= i < |docs| && i < |metas| && i < |embs|
      && h.doc == docs[i] && h.meta == metas[i]
      && h.score == cos(query, embs[i]) + Recency(metas[i], ageDays) + TypeBoost(metas[i])
      && (h.lowConfidence <==> cos(query, embs[i]) < threshold))
  {
    var scores := Retriever.Scores(query, embs, cos);
    var i := CandidateIndex(docs, metas, scores, ageDays, threshold, h);
    assert scores[i] == cos(query, embs[i]);
  }

  /** Where a reranked hit came from: the candidate at some index. */
  lemma CandidateIndex(docs: seq<string>, metas: seq<Meta>, scores: seq<real>,
                       ageDays: string -> Option<int>, threshold: real, h: Hit) returns (i: nat)
    requires h in multiset(DriveCandidates(docs, metas, scores, ageDays, threshold))
    ensures i < |docs| && i < |metas| && i < |scores|
    ensures h == DriveHit(docs[i], metas[i], scores[i], ageDays, threshold)
  {
    var cands := DriveCandidates(docs, metas, scores, ageDays, threshold);
    i :| 0 <= i < |cands| && cands[i] == h;
  }

  /** The boosts never clear a warning: a Google Doc ingested today with similarity 0.19
      scores 0.34 and is still flagged under the default threshold. */
  lemma BoostKeepsWarning(doc: string, m: Meta, ageDays: string -> Option<int>)
    requires m.ingestedAt.Some? && ageDays(m.ingestedAt.value) == Some(0)
    requires m.sourceType == Some(DriveLoader.GoogleDoc)
    ensures var h := DriveHit(doc, m, 0.19, ageDays, Retriever.DefaultThreshold);
      h.score == 0.34 && h.lowConfidence
  {
    assert StartsWith(DriveLoader.GoogleDoc, "Google Doc");
  }

  /** The recency boost is never negative; it lies in [0, 0.1] for ages 0 to 7 days and
      vanishes beyond, but the age has no lower bound: a timestamp in the future earns
      more than 0.1. */
  lemma RecencyBounds(m: Meta, ageDays: string -> Option<int>)
    ensures 0.0 <= Recency(m, ageDays)
    ensures m.ingestedAt.Some? && ageDays(m.ingestedAt.value).Some? ==>
      var d := ageDays(m.ingestedAt.value).value;
      && (0 <= d <= 7 ==> 0.0 <= Recency(m, ageDays) <= 0.1)
      && (d > 7 ==> Recency(m, ageDays) == 0.0)
      && (d < 0 ==> Recency(m, ageDays) > 0.1)
    ensures m.ingestedAt.None? || ageDays(m.ingestedAt.value).None? ==> Recency(m, ageDays) == 0.0
  {
  }

  // ---------------------------------------------------------------------------
  // Lemmas: statistics

  /** Bumping adds one to the key's count and leaves every other count alone. */
  lemma {:induction false} BumpCounts(t: seq<TypeCount>, key: string)
    ensures Total(Bump(t, key)) == Total(t) + 1
    ensures forall k :: CountOf(Bump(t, key), k) == CountOf(t, k) + (if k == key then 1 else 0)
  {
    if t != [] && t[0].sourceType != key {
      BumpCounts(t[1..], key);
      assert Bump(t, key)[1..] == Bump(t[1..], key);
    }
  }

  /** Bumping keeps every count positive. */
  lemma {:induction false} BumpPositive(t: seq<TypeCount>, key: string)
    requires forall i :: 0 <= i < |t| ==> t[i].count >= 1
    ensures forall i :: 0 <= i < |Bump(t, key)| ==> Bump(t, key)[i].count >= 1
  {
    if t != [] && t[0].sourceType != key {
      BumpPositive(t[1..], key);
      assert Bump(t, key) == [t[0]] + Bump(t[1..], key);
    }
  }

  /** Every key after bumping is the bumped key or one that was there before. */
  lemma {:induction false} BumpKeys(t: seq<TypeCount>, key: string)
    ensures forall i :: 0 <= i < |Bump(t, key)| ==>
      Bump(t, key)[i].sourceType == key || exists j :: 0 <= j < |t| && t[j].sourceType == Bump(t, key)[i].sourceType
  {
    if t != [] && t[0].sourceType != key {
      BumpKeys(t[1..], key);
      var r := Bump(t[1..], key);
      assert Bump(t, key) == [t[0]] + r;
      forall i | 0 <= i < |r| && r[i].sourceType != key
        ensures exists j :: 0 <= j < |t| && t[j].sourceType == r[i].sourceType
      {
        var j :| 0 <= j < |t[1..]| && t[1..][j].sourceType == r[i].sourceType;
        assert t[j + 1].sourceType == r[i].sourceType;
      }
    }
  }

  /** Bumping keeps the keys distinct. */
  lemma {:induction false} BumpDistinct(t: seq<TypeCount>, key: string)
    requires KeysDistinct(t)
    ensures KeysDistinct(Bump(t, key))
  {
    if t != [] && t[0].sourceType != key {
      BumpDistinct(t[1..], key);
      BumpKeys(t[1..], key);
      var r := Bump(t[1..], key);
      assert Bump(t, key) == [t[0]] + r;
      forall i | 0 <= i < |r| ensures r[i].sourceType != t[0].sourceType {
        if r[i].sourceType != key {
          var j :| 0 <= j < |t[1..]| && t[1..][j].sourceType == r[i].sourceType;
          assert t[j + 1].sourceType == r[i].sourceType;
        }
      }
    }
  }

  /** The type tally counts every metadata exactly once under its source type
      (`'Unknown'` when missing): one entry per distinct key, no empty entries, counts
      summing to the number of metadatas. */
  lemma {:induction false} TallyCounts(metas: seq<Meta>)
    ensures var t := TallyTypes(metas);
      && KeysDistinct(t)
      && (forall i :: 0 <= i < |t| ==> t[i].count >= 1)
      && Total(t) == |metas|
      && forall k :: CountOf(t, k) == Occurrences(metas, k)
    decreases |metas|
  {
    if metas != [] {
      TallyCounts(metas[..|metas| - 1]);
      var t, key := TallyTypes(metas[..|metas| - 1]), SourceKey(metas[|metas| - 1]);
      BumpCounts(t, key);
      BumpPositive(t, key);
      BumpDistinct(t, key);
    }
  }

  /** For a non-empty collection the statistics are: the number of chunks, the number of
      distinct drive ids, and the tally of source types. */
  lemma StatsOfCollection(metas: seq<Meta>)
    requires metas != []
    ensures var st := GetDocumentStats(GotMetas(Some(metas)));
      && st.Keys == {"total_chunks", "unique_documents", "document_types"}
      && st["total_chunks"] == Count(|metas|)
      && st["unique_documents"] == Count(|DriveIds(metas)|)
      && st["document_types"].Types?
      && Total(st["document_types"].entries) == |metas|
      && forall k :: CountOf(st["document_types"].entries, k) == Occurrences(metas, k)
  {
    StatsLookups(Count(|metas|), Count(|DriveIds(metas)|), Types(TallyTypes(metas)));
    TallyCounts(metas);
  }

  /** The three keys, each holding its own value. */
  lemma StatsLookups(total: StatValue, unique: StatValue, types: StatValue)
    ensures var m := StatsMap(total, unique, types);
      && m.Keys == {"total_chunks", "unique_documents", "document_types"}
      && m["total_chunks"] == total && m["unique_documents"] == unique && m["document_types"] == types
  {
    StatKeysDistinct();
  }

  lemma StatKeysDistinct()
    ensures "total_chunks" != "unique_documents" && "total_chunks" != "document_types"
    ensures "unique_documents" != "document_types"
  {
    assert |"total_chunks"| == 12 && |"unique_documents"| == 16 && |"document_types"| == 14;
  }

  /** Finding: an empty collection gives `documents` and `types` instead of
      `unique_documents` and `document_types`, the keys the other two branches use and
      the `stats` command reads. */
  lemma EmptyStatsKeys()
    ensures GetDocumentStats(GotMetas(Some([]))).Keys == {"total_chunks", "documents", "types"}
    ensures "unique_documents" !in GetDocumentStats(GotMetas(Some([])))
    ensures "unique_documents" in GetDocumentStats(GetRaised)
  {
  }

  /** The corrected statistics agree with the original wherever the original has the
      expected keys, and give zero counts for an empty collection. */
  lemma FixedStatsAgree(reply: GetReply)
    ensures reply.GotMetas? && reply.metadatas.Some? && reply.metadatas.value != [] ==>
      GetDocumentStatsFixed(reply) == GetDocumentStats(reply)
    ensures reply == GetRaised ==> GetDocumentStatsFixed(reply) == GetDocumentStats(reply)
    ensures reply.GotMetas? && (reply.metadatas.None? || reply.metadatas.value == []) ==>
      GetDocumentStatsFixed(reply)["unique_documents"] == Count(0)
  {
  }
}

=== FILE: gdrive_sheet.dfy ===
/** `_process_csv_content`: a Google Sheet exported as CSV is turned into sentence-like
    lines before chunking.  Lines and cells are split naively on newline and comma, with
    no RFC 4180 quoting. */
module DriveSheet {
  import opened Strings

  /** One listed cell: its header (or `Col{j}`) and its stripped text. */
  datatype Field = Field(header: string, value: string)

  /** One listed data line: its 1-based position after the header and its cells. */
  datatype Row = Row(number: nat, fields: seq<Field>)

  /** Positions `p >= from` where `keep` holds, in increasing order. */
  function Positions(keep: seq<bool>, from: nat): (ps: seq<nat>)
    ensures forall k :: 0 <= k < |ps| ==> from <= ps[k] < |keep| && keep[ps[k]]
    decreases |keep| - from
  {
    if from >= |keep| then []
    else if !keep[from] then Positions(keep, from + 1)
    else [from] + Positions(keep, from + 1)
  }

  /** The positions are increasing, and every kept position from `from` on is listed. */
  lemma {:induction false} PositionsComplete(keep: seq<bool>, from: nat)
    ensures var ps := Positions(keep, from);
      && (forall a, b :: 0 <= a < b < |ps| ==> ps[a] < ps[b])
      && (forall p :: from <= p < |keep| && keep[p] ==> p in ps)
    decreases |keep| - from
  {
    if from < |keep| {
      PositionsComplete(keep, from + 1);
    }
  }

  /** Which entries of `xs` are non-blank (`if line.strip()`, `if cell.strip()`). */
  function NonBlank(xs: seq<string>): (keep: seq<bool>)
    ensures |keep| == |xs|
    ensures forall i :: 0 <= i < |xs| ==> keep[i] == !IsBlank(xs[i])
  {
    seq(|xs|, i requires 0 <= i < |xs| => !IsBlank(xs[i]))
  }

  /** `headers[j] if j < len(headers) else f'Col{j}'`. */
  function Label(headers: seq<string>, j: nat): string {
    if j < |headers| then headers[j] else "Col" + NatToString(j)
  }

  /** The listed cells of one line: non-blank cells only, each labelled by its column. */
  function Fields(line: string, headers: seq<string>): seq<Field> {
    var cells := Split(line, ',');
    var ps := Positions(NonBlank(cells), 0);
    seq(|ps|, k requires 0 <= k < |ps| => Field(Label(headers, ps[k]), Strip(cells[ps[k]])))
  }

  /** The listed data lines: every non-blank line after the header, numbered by position. */
  function Rows(lines: seq<string>, headers: seq<string>): seq<Row> {
    var ps := Positions(NonBlank(lines), 1);
    seq(|ps|, k requires 0 <= k < |ps| => Row(ps[k], Fields(lines[ps[k]], headers)))
  }

  function Lines(csv: string): (lines: seq<string>)
    ensures |lines| >= 1
  {
    Split(Strip(csv), '\n')
  }

  function Headers(csv: string): seq<string> {
    Split(Lines(csv)[0], ',')
  }

  function HeaderLine(headers: seq<string>): string {
    "Spreadsheet with columns: " + Join(headers, ", ")
  }

  /** `f"{header}: {value}"`. */
  function FieldText(f: Field): string {
    f.header + ": " + f.value
  }

  function FieldTexts(fs: seq<Field>): (ts: seq<string>)
    ensures |ts| == |fs|
    ensures forall k :: 0 <= k < |fs| ==> ts[k] == FieldText(fs[k])
  {
    seq(|fs|, k requires 0 <= k < |fs| => FieldText(fs[k]))
  }

  /** `f"Row {row_number}: " + " | ".join(row_parts)`. */
  function RenderRow(r: Row): string {
    "Row " + NatToString(r.number) + ": " + Join(FieldTexts(r.fields), " | ")
  }

  function RenderRows(rows: seq<Row>): (ts: seq<string>)
    ensures |ts| == |rows|
    ensures forall k :: 0 <= k < |rows| ==> ts[k] == RenderRow(rows[k])
  {
    seq(|rows|, k requires 0 <= k < |rows| => RenderRow(rows[k]))
  }

  /** `structured_parts`: the header line, then one line per listed row. */
  function Parts(csv: string): seq<string> {
    [HeaderLine(Headers(csv))] + RenderRows(Rows(Lines(csv), Headers(csv)))
  }

  /** `_process_csv_content(csv_content)`.  The `if not lines` early return is dead:
      splitting always yields at least one line. */
  function ProcessCsvContent(csv: string): string {
    Join(Parts(csv), "\n")
  }

  // ---------------------------------------------------------------------------
  // Lemmas

  lemma {:induction false} JoinAvoids(ws: seq<string>, sep: string, c: char)
    requires c !in sep
    requires forall k :: 0 <= k < |ws| ==> c !in ws[k]
    ensures c !in Join(ws, sep)
  {
    if |ws| > 1 {
      JoinAvoids(ws[1..], sep, c);
    }
  }

  lemma {:induction false} SplitWithout(s: string, c: char)
    requires c !in s
    ensures Split(s, c) == [s]
  {
    if s != [] {
      assert s[0] != c;
      assert c !in s[1..] by {
        forall i | 0 <= i < |s[1..]| ensures s[1..][i] != c {
          assert s[1..][i] == s[i + 1];
        }
      }
      SplitWithout(s[1..], c);
      assert [s[0]] + s[1..] == s;
    }
  }

  lemma {:induction false} SplitAtFirst(a: string, rest: string, c: char)
    requires c !in a
    ensures Split(a + [c] + rest, c) == [a] + Split(rest, c)
  {
    if a == [] {
      assert ([c] + rest)[1..] == rest;
    } else {
      assert (a + [c] + rest)[1..] == a[1..] + [c] + rest;
      SplitAtFirst(a[1..], rest, c);
      assert (a + [c] + rest)[0] == a[0] != c;
      assert [a[0]] + a[1..] == a;
    }
  }

  /** Splitting lines joined by a separator they do not contain gives the lines back. */
  lemma {:induction false} SplitJoin(ws: seq<string>, c: char)
    requires |ws| > 0
    requires forall k :: 0 <= k < |ws| ==> c !in ws[k]
    ensures Split(Join(ws, [c]), c) == ws
  {
    if |ws| == 1 {
      SplitWithout(ws[0], c);
    } else {
      SplitJoin(ws[1..], c);
      SplitAtFirst(ws[0], Join(ws[1..], [c]), c);
    }
  }

  lemma StripAvoids(s: string, c: char)
    requires c !in s
    ensures c !in Strip(s)
  {
    var n := LeftEnd(s);
    var l := TrimLeft(s);
    var r := TrimRight(l);
    forall i | 0 <= i < |r| ensures r[i] != c {
      assert r[i] == l[i] == s[n + i];
    }
  }

  /** A piece of `s.split(sep)` avoids every character `s` avoids. */
  lemma JoinSplitPieceAvoids(s: string, sep: char, pieces: seq<string>, j: nat, c: char)
    requires pieces == Split(s, sep) && j < |pieces| && c !in s
    ensures c !in pieces[j]
  {
    JoinSplit(s, sep);
    PieceInJoin(pieces, [sep], j);
  }

  /** Every piece of a join is a substring of it. */
  lemma {:induction false} PieceInJoin(ws: seq<string>, sep: string, j: nat)
    requires j < |ws|
    ensures forall ch :: ch in ws[j] ==> ch in Join(ws, sep)
  {
    if |ws| > 1 {
      if j > 0 {
        PieceInJoin(ws[1..], sep, j - 1);
      }
    }
  }

  lemma DigitsAvoidNewline(n: nat)
    ensures '\n' !in NatToString(n)
  {
    var d := NatToString(n);
    forall i | 0 <= i < |d| ensures d[i] != '\n' {
    }
  }

  lemma LabelAvoidsNewline(headers: seq<string>, j: nat)
    requires forall i :: 0 <= i < |headers| ==> '\n' !in headers[i]
    ensures '\n' !in Label(headers, j)
  {
    DigitsAvoidNewline(j);
  }

  /** The listed cells of a line without newlines render without newlines. */
  lemma FieldsAvoidNewline(line: string, headers: seq<string>)
    requires '\n' !in line
    requires forall i :: 0 <= i < |headers| ==> '\n' !in headers[i]
    ensures forall m :: 0 <= m < |Fields(line, headers)| ==> '\n' !in FieldText(Fields(line, headers)[m])
  {
    var cells := Split(line, ',');
    var ps := Positions(NonBlank(cells), 0);
    var fs := Fields(line, headers);
    forall m | 0 <= m < |fs| ensures '\n' !in FieldText(fs[m]) {
      assert fs[m] == Field(Label(headers, ps[m]), Strip(cells[ps[m]]));
      JoinSplitPieceAvoids(line, ',', cells, ps[m], '\n');
      StripAvoids(cells[ps[m]], '\n');
      LabelAvoidsNewline(headers, ps[m]);
    }
  }

  lemma RowAvoidsNewline(r: Row)
    requires forall m :: 0 <= m < |r.fields| ==> '\n' !in FieldText(r.fields[m])
    ensures '\n' !in RenderRow(r)
  {
    DigitsAvoidNewline(r.number);
    JoinAvoids(FieldTexts(r.fields), " | ", '\n');
  }

  lemma PartsHaveNoNewline(csv: string)
    ensures forall k :: 0 <= k < |Parts(csv)| ==> '\n' !in Parts(csv)[k]
  {
    HeaderLineAvoidsNewline(csv);
    RenderedAvoidNewline(Lines(csv), Headers(csv));
  }

  lemma HeaderLineAvoidsNewline(csv: string)
    ensures forall j :: 0 <= j < |Headers(csv)| ==> '\n' !in Headers(csv)[j]
    ensures '\n' !in HeaderLine(Headers(csv))
  {
    var lines := Lines(csv);
    var headers := Headers(csv);
    forall j | 0 <= j < |headers| ensures '\n' !in headers[j] {
      JoinSplitPieceAvoids(lines[0], ',', headers, j, '\n');
    }
    JoinAvoids(headers, ", ", '\n');
  }

  lemma RenderedAvoidNewline(lines: seq<string>, headers: seq<string>)
    requires forall i :: 0 <= i < |lines| ==> '\n' !in lines[i]
    requires forall j :: 0 <= j < |headers| ==> '\n' !in headers[j]
    ensures forall k :: 0 <= k < |RenderRows(Rows(lines, headers))| ==> '\n' !in RenderRows(Rows(lines, headers))[k]
  {
    var rows := Rows(lines, headers);
    var ps := Positions(NonBlank(lines), 1);
    var rendered := RenderRows(rows);
    forall k | 0 <= k < |rows| ensures '\n' !in rendered[k] {
      assert rows[k] == Row(ps[k], Fields(lines[ps[k]], headers));
      FieldsAvoidNewline(lines[ps[k]], headers);
      RowAvoidsNewline(rows[k]);
    }
  }

  /** The output's lines are exactly the structured parts: the header line first, then
      one rendered line per listed row, in order. */
  lemma ProcessCsvLines(csv: string)
    ensures var out := Split(ProcessCsvContent(csv), '\n');
      var rows := Rows(Lines(csv), Headers(csv));
      && |out| == 1 + |rows|
      && out[0] == HeaderLine(Headers(csv))
      && (forall k :: 0 <= k < |rows| ==> out[k + 1] == RenderRow(rows[k]))
  {
    PartsHaveNoNewline(csv);
    SplitJoin(Parts(csv), '\n');
    var rows := Rows(Lines(csv), Headers(csv));
    var parts := Parts(csv);
    assert parts == [HeaderLine(Headers(csv))] + RenderRows(rows);
    forall k | 0 <= k < |rows| ensures parts[k + 1] == RenderRow(rows[k]) {
      assert parts[k + 1] == RenderRows(rows)[k];
    }
  }

  /** The text always opens with the header sentence. */
  lemma ProcessCsvStartsWithHeader(csv: string)
    ensures StartsWith(ProcessCsvContent(csv), "Spreadsheet with columns: " + Join(Headers(csv), ", "))
  {
    JoinStartsWithFirst(Parts(csv), "\n");
  }

  /** The listed rows are exactly the non-blank lines after the header, in order, each
      numbered by its position and holding that line's cells. */
  lemma RowsListed(lines: seq<string>, headers: seq<string>)
    ensures var rows := Rows(lines, headers);
      && (forall k :: 0 <= k < |rows| ==>
            && 1 <= rows[k].number < |lines| && !IsBlank(lines[rows[k].number])
            && rows[k].fields == Fields(lines[rows[k].number], headers))
      && (forall a, b :: 0 <= a < b < |rows| ==> rows[a].number < rows[b].number)
      && (forall i :: 1 <= i < |lines| && !IsBlank(lines[i]) ==>
            exists k :: 0 <= k < |rows| && rows[k].number == i)
  {
    var rows := Rows(lines, headers);
    var ps := Positions(NonBlank(lines), 1);
    PositionsComplete(NonBlank(lines), 1);
    forall i | 1 <= i < |lines| && !IsBlank(lines[i])
      ensures exists k :: 0 <= k < |rows| && rows[k].number == i
    {
      var k :| 0 <= k < |ps| && ps[k] == i;
      assert rows[k].number == i;
    }
  }

  /** Field `m` of `fs` comes from the non-blank cell at column `ps[m]`, and the
      columns strictly increase. */
  predicate ListsCells(fs: seq<Field>, cells: seq<string>, headers: seq<string>, ps: seq<nat>) {
    && |ps| == |fs|
    && (forall a, b :: 0 <= a < b < |ps| ==> ps[a] < ps[b])
    && (forall m :: 0 <= m < |ps| ==>
          ps[m] < |cells| && !IsBlank(cells[ps[m]])
          && fs[m] == Field(Label(headers, ps[m]), Strip(cells[ps[m]])))
  }

  /** A listed row shows the non-blank cells of its line in column order, each with its
      header, or `Col{j}` beyond the header width, and its stripped value. */
  lemma RowFields(line: string, headers: seq<string>)
    ensures var cells := Split(line, ',');
      var fs := Fields(line, headers);
      && (exists ps :: ListsCells(fs, cells, headers, ps))
      && (forall m :: 0 <= m < |fs| ==> fs[m].value != [] && !IsSpace(fs[m].value[0]))
      && (forall j :: 0 <= j < |cells| && !IsBlank(cells[j]) ==>
            Field(Label(headers, j), Strip(cells[j])) in fs)
      && |fs| <= |cells|
  {
    var cells := Split(line, ',');
    var ps := Positions(NonBlank(cells), 0);
    var fs := Fields(line, headers);
    PositionsComplete(NonBlank(cells), 0);
    FieldsListCells(line, headers);
    forall m | 0 <= m < |fs| ensures fs[m].value != [] && !IsSpace(fs[m].value[0]) {
      var cell := cells[ps[m]];
      var l := TrimLeft(cell);
      var r := TrimRight(l);
      assert r != [];
      assert r[0] == l[0] == cell[LeftEnd(cell)];
    }
    forall j | 0 <= j < |cells| && !IsBlank(cells[j])
      ensures Field(Label(headers, j), Strip(cells[j])) in fs
    {
      var k :| 0 <= k < |ps| && ps[k] == j;
      assert fs[k] == Field(Label(headers, j), Strip(cells[j]));
    }
    PositionsBound(NonBlank(cells), 0);
  }

  /** The fields of a line are listed from its non-blank cells, in column order. */
  lemma FieldsListCells(line: string, headers: seq<string>)
    ensures exists ps :: ListsCells(Fields(line, headers), Split(line, ','), headers, ps)
  {
    var cells := Split(line, ',');
    var ps := Positions(NonBlank(cells), 0);
    PositionsComplete(NonBlank(cells), 0);
    assert ListsCells(Fields(line, headers), cells, headers, ps);
  }

  lemma {:induction false} PositionsBound(keep: seq<bool>, from: nat)
    ensures |Positions(keep, from)| <= if from <= |keep| then |keep| - from else 0
    decreases |keep| - from
  {
    if from < |keep| {
      PositionsBound(keep, from + 1);
    }
  }

  /** The worked example: a blank line after the header leaves a gap in the numbering,
      and cells past the header width are labelled by column. */
  lemma GapExample()
    ensures Rows(["a,b", "", "1,2,3"], ["a", "b"])
      == [Row(2, [Field("a", "1"), Field("b", "2"), Field("Col2", "3")])]
  {
    var lines := ["a,b", "", "1,2,3"];
    GapExampleLines(lines);
    GapExampleCells();
    var rows := Rows(lines, ["a", "b"]);
    assert |rows| == 1 && rows[0] == Row(2, Fields("1,2,3", ["a", "b"]));
  }

  lemma GapExampleLines(lines: seq<string>)
    requires lines == ["a,b", "", "1,2,3"]
    ensures Positions(NonBlank(lines), 1) == [2]
  {
    StripUnchanged("a,b");
    StripUnchanged("1,2,3");
    var keepLines := NonBlank(lines);
    assert keepLines[0] && keepLines[2];
    assert !keepLines[1];
    assert Positions(keepLines, 3) == [];
    assert Positions(keepLines, 2) == [2];
  }

  lemma SplitExample()
    ensures Split("1,2,3", ',') == ["1", "2", "3"]
  {
    assert "1,2,3" == "1" + [','] + "2,3" && "2,3" == "2" + [','] + "3";
    SplitAtFirst("1", "2,3", ',');
    SplitAtFirst("2", "3", ',');
    SplitWithout("3", ',');
  }

  lemma AllCellsListed(cells: seq<string>)
    requires cells == ["1", "2", "3"]
    ensures Positions(NonBlank(cells), 0) == [0, 1, 2]
  {
    StripUnchanged("1");
    StripUnchanged("2");
    StripUnchanged("3");
    var keep := NonBlank(cells);
    assert keep[0] && keep[1] && keep[2];
    assert Positions(keep, 3) == [];
    assert Positions(keep, 2) == [2];
    assert Positions(keep, 1) == [1, 2];
  }

  lemma GapExampleCells()
    ensures Fields("1,2,3", ["a", "b"]) == [Field("a", "1"), Field("b", "2"), Field("Col2", "3")]
  {
    SplitExample();
    var cells := Split("1,2,3", ',');
    AllCellsListed(cells);
    StripUnchanged("1");
    StripUnchanged("2");
    StripUnchanged("3");
    assert Label(["a", "b"], 2) == "Col2";
  }
}

=== FILE: metadata.dfy ===
/** The chunk record both pipelines pass around: the text of one window and its
    metadata dictionary.  The dictionary is modelled as a record with one optional
    field per key the code reads or writes; an absent key is `None`. */
module Metadata {
  import opened Wrappers

  datatype Meta = Meta(
    file: Option<string>,           // "file"
    page: Option<int>,              // "page" (1-based), PDF chunks only
    chunkIndex: Option<int>,        // "chunk_index": word offset of the window
    wordCount: Option<int>,         // "word_count", Drive doc/sheet chunks only
    driveId: Option<string>,        // "drive_id"
    sourceType: Option<string>,     // "source_type"
    ingestedAt: Option<string>,     // "ingested_at", added when stored
    collectionType: Option<string>  // "collection_type", added when stored
  )

  /** The empty dictionary `{}`. */
  const EmptyMeta: Meta := Meta(None, None, None, None, None, None, None, None)

  /** Python truthiness of a dictionary: `not metadata`. */
  predicate IsEmpty(m: Meta) {
    m == EmptyMeta
  }

  datatype Chunk = Chunk(text: string, meta: Meta)

  /** An embedding vector.  The embedder signals failure with the empty vector. */
  type Vector = seq<real>

  /** What `collection.query(...)` hands back for one query embedding: the per-query
      lists under each key (`None` when the key is absent), or `Raised` when the call
      itself raised. */
  datatype QueryReply =
    | Raised
    | Reply(documents: Option<seq<seq<string>>>,
            embeddings: Option<seq<seq<Vector>>>,
            metadatas: Option<seq<seq<Meta>>>)

  /** The `(documents, embeddings, metadatas)` triple a search returns. */
  datatype Retrieved = Retrieved(docs: seq<string>, embs: seq<Vector>, metas: seq<Meta>)

  /** The arguments of one `collection.add(...)` call. */
  datatype AddCall = AddCall(documents: seq<string>, metadatas: seq<Meta>, ids: seq<string>,
                             embeddings: seq<Vector>)
}

=== FILE: pdf_loader.dfy ===
/** `load_pdf_chunks`: every page's text is split into words and windowed on its own;
    chunks carry the 1-based page number, the file path and the word offset within the
    page.  Text extraction is outside the model: a PDF is given as its pages' texts. */
module PdfLoader {
  import opened Wrappers
  import opened Strings
  import opened Metadata
  import opened Chunker

  const DefaultChunkSize: int := 200
  const DefaultOverlap: int := 50

  function PdfChunk(w: Window, pageNumber: nat, path: string): Chunk {
    Chunk(Join(w.words, " "),
          Meta(Some(path), Some(pageNumber), Some(w.start), None, None, None, None, None))
  }

  function PageChunks(ws: seq<Window>, pageNumber: nat, path: string): (cs: seq<Chunk>)
    ensures |cs| == |ws|
  {
    seq(|ws|, k requires 0 <= k < |ws| => PdfChunk(ws[k], pageNumber, path))
  }

  /** The loop over pages, the first of which has number `firstPage`. */
  function PagesChunks(pages: seq<string>, firstPage: nat, path: string, size: int, overlap: int)
    : (r: Result<seq<Chunk>, ChunkError>)
    ensures r.Err? <==> |pages| > 0 && size == overlap
    decreases |pages|
  {
    if |pages| == 0 then Ok([])
    else
      match Windows(Words(pages[0]), size, overlap)
      case Err(e) => Err(e)
      case Ok(ws) =>
        match PagesChunks(pages[1..], firstPage + 1, path, size, overlap)
        case Err(e) => Err(e)
        case Ok(rest) => Ok(PageChunks(ws, firstPage, path) + rest)
  }

  /** `load_pdf_chunks(path, chunk_size, overlap)` for a document with the given pages. */
  function LoadPdfChunks(pages: seq<string>, path: string, size: int, overlap: int)
    : Result<seq<Chunk>, ChunkError>
  {
    PagesChunks(pages, 1, path, size, overlap)
  }

  /** Total number of windows over all pages. */
  function TotalWindows(pages: seq<string>, step: nat): nat
    requires step > 0
  {
    if |pages| == 0 then 0 else CeilDiv(|Words(pages[0])|, step) + TotalWindows(pages[1..], step)
  }

  /** A chunk is window `ci` of one page of `pages` (numbered from `firstPage`): its
      metadata is exactly page, file and offset, the offset is a multiple of the step
      inside that page, and its text is that page's words from the offset on, at most
      `size` of them, joined by single spaces. */
  predicate FromPage(c: Chunk, pages: seq<string>, firstPage: nat, path: string, size: nat, step: nat)
    requires step > 0
  {
    && c.meta.page.Some? && c.meta.chunkIndex.Some?
    && var pg := c.meta.page.value;
    && var ci := c.meta.chunkIndex.value;
    && firstPage <= pg < firstPage + |pages|
    && 0 <= ci
    && c.meta == Meta(Some(path), Some(pg), Some(ci), None, None, None, None, None)
    && var ws := Words(pages[pg - firstPage]);
    && ci < |ws| && ci % step == 0
    && c.text == Join(ws[ci..Min(ci + size, |ws|)], " ")
  }

  /** Strict (page, offset) order. */
  predicate Before(a: Chunk, b: Chunk) {
    var pa, pb := a.meta.page.GetOr(0), b.meta.page.GetOr(0);
    pa < pb || (pa == pb && a.meta.chunkIndex.GetOr(0) < b.meta.chunkIndex.GetOr(0))
  }

  lemma MulMod(k: nat, d: nat)
    requires d > 0
    ensures (k * d) % d == 0
  {
    DivUnique(k * d, d, k);
  }

  /** The chunks of the first page: all from that page, by increasing offset. */
  lemma FirstPageShape(pages: seq<string>, firstPage: nat, path: string, size: int, overlap: int)
    requires ValidConfig(size, overlap) && |pages| > 0
    ensures var step := size - overlap;
      var ws := Windows(Words(pages[0]), size, overlap).value;
      var pc := PageChunks(ws, firstPage, path);
      && |pc| == CeilDiv(|Words(pages[0])|, step)
      && (forall j :: 0 <= j < |pc| ==> FromPage(pc[j], pages, firstPage, path, size, step))
      && (forall j :: 0 <= j < |pc| ==> pc[j].meta.page == Some(firstPage))
      && (forall a, b :: 0 <= a < b < |pc| ==> Before(pc[a], pc[b]))
  {
    var step := size - overlap;
    var words := Words(pages[0]);
    WindowsShape(words, size, overlap);
    var ws := Windows(words, size, overlap).value;
    var pc := PageChunks(ws, firstPage, path);
    forall j | 0 <= j < |pc| ensures FromPage(pc[j], pages, firstPage, path, size, step) {
      WindowFromPage(ws[j], j, pages, firstPage, path, size, step);
    }
    forall a, b | 0 <= a < b < |pc| ensures Before(pc[a], pc[b]) {
      assert WindowAt(words, ws[a], a * step, size);
      assert WindowAt(words, ws[b], b * step, size);
      MulStrict(a, b, step);
    }
  }

  /** The chunk of window `j` of the first page comes from that page. */
  lemma WindowFromPage(w: Window, j: nat, pages: seq<string>, firstPage: nat, path: string,
                       size: nat, step: nat)
    requires step > 0 && |pages| > 0
    requires WindowAt(Words(pages[0]), w, j * step, size)
    ensures FromPage(PdfChunk(w, firstPage, path), pages, firstPage, path, size, step)
  {
    MulMod(j, step);
  }

  /** A chunk of the later pages is a chunk of the whole document, on a later page. */
  lemma LiftFromPage(c: Chunk, pages: seq<string>, firstPage: nat, path: string, size: nat, step: nat)
    requires step > 0 && |pages| > 0
    requires FromPage(c, pages[1..], firstPage + 1, path, size, step)
    ensures FromPage(c, pages, firstPage, path, size, step)
    ensures c.meta.page.value > firstPage
  {
    assert pages[1..][c.meta.page.value - (firstPage + 1)] == pages[c.meta.page.value - firstPage];
  }

  /** The first page's chunks followed by the later pages' chunks keep both the
      per-chunk shape and the (page, offset) order. */
  lemma ConcatShape(pc: seq<Chunk>, rest: seq<Chunk>, pages: seq<string>, firstPage: nat,
                    path: string, size: nat, step: nat)
    requires step > 0 && |pages| > 0
    requires forall j :: 0 <= j < |pc| ==> FromPage(pc[j], pages, firstPage, path, size, step)
    requires forall j :: 0 <= j < |pc| ==> pc[j].meta.page == Some(firstPage)
    requires forall a, b :: 0 <= a < b < |pc| ==> Before(pc[a], pc[b])
    requires forall j :: 0 <= j < |rest| ==> FromPage(rest[j], pages[1..], firstPage + 1, path, size, step)
    requires forall a, b :: 0 <= a < b < |rest| ==> Before(rest[a], rest[b])
    ensures forall j :: 0 <= j < |pc + rest| ==> FromPage((pc + rest)[j], pages, firstPage, path, size, step)
    ensures forall a, b :: 0 <= a < b < |pc + rest| ==> Before((pc + rest)[a], (pc + rest)[b])
  {
    var cs := pc + rest;
    forall j | 0 <= j < |rest| ensures FromPage(rest[j], pages, firstPage, path, size, step)
      && rest[j].meta.page.value > firstPage
    {
      LiftFromPage(rest[j], pages, firstPage, path, size, step);
    }
    forall j | 0 <= j < |cs| ensures FromPage(cs[j], pages, firstPage, path, size, step) {
      if j >= |pc| {
        assert cs[j] == rest[j - |pc|];
      }
    }
    forall a, b | 0 <= a < b < |cs| ensures Before(cs[a], cs[b]) {
      if b >= |pc| {
        assert cs[b] == rest[b - |pc|];
        if a >= |pc| {
          assert cs[a] == rest[a - |pc|];
        }
      }
    }
  }

  lemma {:induction false} PagesChunksShape(pages: seq<string>, firstPage: nat, path: string,
                                            size: int, overlap: int)
    requires ValidConfig(size, overlap)
    ensures var step := size - overlap;
      var cs := PagesChunks(pages, firstPage, path, size, overlap).value;
      && |cs| == TotalWindows(pages, step)
      && (forall j :: 0 <= j < |cs| ==> FromPage(cs[j], pages, firstPage, path, size, step))
      && (forall a, b :: 0 <= a < b < |cs| ==> Before(cs[a], cs[b]))
    decreases |pages|
  {
    var step := size - overlap;
    if |pages| > 0 {
      var ws := Windows(Words(pages[0]), size, overlap).value;
      FirstPageShape(pages, firstPage, path, size, overlap);
      PagesChunksShape(pages[1..], firstPage + 1, path, size, overlap);
      var rest := PagesChunks(pages[1..], firstPage + 1, path, size, overlap).value;
      var pc := PageChunks(ws, firstPage, path);
      assert PagesChunks(pages, firstPage, path, size, overlap).value == pc + rest;
      ConcatShape(pc, rest, pages, firstPage, path, size, step);
    }
  }

  /** The shape of `load_pdf_chunks` output under a valid configuration: one chunk per
      window of every page (`ceil(n / step)` for a page of `n` words, none for a page
      without words), each chunk a slice of a single page with `page = page_num + 1`,
      `file = path` and `chunk_index` its offset in that page, in page order and by
      increasing offset within a page. */
  lemma LoadPdfChunksShape(pages: seq<string>, path: string, size: int, overlap: int)
    requires ValidConfig(size, overlap)
    ensures LoadPdfChunks(pages, path, size, overlap).Ok?
    ensures var step := size - overlap;
      var cs := LoadPdfChunks(pages, path, size, overlap).value;
      && |cs| == TotalWindows(pages, step)
      && (forall j :: 0 <= j < |cs| ==> FromPage(cs[j], pages, 1, path, size, step))
      && (forall a, b :: 0 <= a < b < |cs| ==> Before(cs[a], cs[b]))
  {
    PagesChunksShape(pages, 1, path, size, overlap);
  }

  /** Each chunk's text re-splits into between 1 and `size` words of its page. */
  lemma FromPageWords(c: Chunk, pages: seq<string>, firstPage: nat, path: string, size: nat, step: nat)
    requires step > 0 && size > 0
    requires FromPage(c, pages, firstPage, path, size, step)
    ensures var ws := Words(pages[c.meta.page.value - firstPage]);
      var ci := c.meta.chunkIndex.value;
      && Words(c.text) == ws[ci..Min(ci + size, |ws|)]
      && 1 <= |Words(c.text)| <= size
  {
    var ws := Words(pages[c.meta.page.value - firstPage]);
    var ci := c.meta.chunkIndex.value;
    SliceOfWords(ws, ci, Min(ci + size, |ws|));
    WordsOfJoin(ws[ci..Min(ci + size, |ws|)]);
  }

  /** No two chunks of one document share a (page, chunk_index) pair. */
  lemma PdfPositionsDistinct(pages: seq<string>, path: string, size: int, overlap: int, a: nat, b: nat)
    requires ValidConfig(size, overlap)
    requires a < b < |LoadPdfChunks(pages, path, size, overlap).value|
    ensures var cs := LoadPdfChunks(pages, path, size, overlap).value;
      (cs[a].meta.page, cs[a].meta.chunkIndex) != (cs[b].meta.page, cs[b].meta.chunkIndex)
  {
    LoadPdfChunksShape(pages, path, size, overlap);
    var cs := LoadPdfChunks(pages, path, size, overlap).value;
    assert Before(cs[a], cs[b]);
  }

  /** A zero step makes every non-empty document raise, and a negative step yields no
      chunks at all: `0 <= overlap < chunk_size` is what the loader silently assumes. */
  lemma UnvalidatedStep(pages: seq<string>, path: string, size: int, overlap: int)
    ensures size == overlap && |pages| > 0 ==> LoadPdfChunks(pages, path, size, overlap).Err?
    ensures size < overlap ==> LoadPdfChunks(pages, path, size, overlap) == Ok([])
  {
    if size < overlap {
      NegativeStepEmpty(pages, 1, path, size, overlap);
    }
  }

  lemma {:induction false} NegativeStepEmpty(pages: seq<string>, firstPage: nat, path: string,
                                             size: int, overlap: int)
    requires size < overlap
    ensures PagesChunks(pages, firstPage, path, size, overlap) == Ok([])
    decreases |pages|
  {
    if |pages| > 0 {
      NegativeStepEmpty(pages[1..], firstPage + 1, path, size, overlap);
      assert Windows(Words(pages[0]), size, overlap) == Ok([]);
      assert PageChunks([], firstPage, path) == [];
      var empty: seq<Chunk> := [];
      assert PageChunks([], firstPage, path) + empty == empty;
      assert PagesChunks(pages, firstPage, path, size, overlap)
        == Ok(PageChunks([], firstPage, path) + empty);
    }
  }
}

=== FILE: pdf_manager.dfy ===
/** `pdf_manager`: the local-PDF tracker.  Which files under `docs/` a run picks up, what
    it stores for each, and the index it writes to `ingested.json`.  The directory
    listing, the PDF text extraction, the embedder and the store are inputs.  Unlike the
    Drive tracker nothing here catches exceptions: any failure aborts the whole run. */
module PdfManager {
  import opened Wrappers
  import opened Strings
  import opened Metadata
  import PdfLoader

  /** `ingested.json`: each processed path with the chunk ids stored for it. */
  type PdfIndex = map<string, seq<string>>

  /** What reading the track file finds. */
  datatype TrackFile = Missing | Corrupt | Parsed(index: PdfIndex)

  datatype LoadError = CorruptTrackFile

  /** `load_ingestion_index()`: a missing file is the empty index, but a file that does
      not parse raises. */
  function LoadIndex(f: TrackFile): (r: Result<PdfIndex, LoadError>)
    ensures r.Err? <==> f.Corrupt?
    ensures f.Missing? ==> r == Ok(map[])
    ensures f.Parsed? ==> r == Ok(f.index)
  {
    match f
    case Missing => Ok(map[])
    case Corrupt => Err(CorruptTrackFile)
    case Parsed(ix) => Ok(ix)
  }

  const PdfFolder: string := "docs"

  predicate IsPdfName(f: string) {
    EndsWith(Lower(f), ".pdf")
  }

  /** `get_all_pdf_paths()`: the folder entries whose lower-cased name ends in `.pdf`,
      joined onto the folder, in listing order. */
  function GetAllPdfPaths(listing: seq<string>): (ps: seq<string>)
    ensures forall p :: p in ps <==> exists f :: f in listing && IsPdfName(f) && p == PdfFolder + "/" + f
    ensures |ps| <= |listing|
  {
    if listing == [] then []
    else
      var rest := GetAllPdfPaths(listing[1..]);
      assert forall f :: f in listing[1..] ==> f in listing;
      (if IsPdfName(listing[0]) then [PdfFolder + "/" + listing[0]] else []) + rest
  }

  /** `get_new_pdfs_to_process()`: the paths that are not keys of the index, in order.
      There is no modification check. */
  function NewPdfs(paths: seq<string>, ix: PdfIndex): (r: seq<string>)
    ensures |r| <= |paths|
  {
    if paths == [] then []
    else (if paths[0] !in ix then [paths[0]] else []) + NewPdfs(paths[1..], ix)
  }

  /** A path is selected exactly when it is listed and not yet indexed. */
  lemma {:induction false} NewPdfsMembers(paths: seq<string>, ix: PdfIndex)
    ensures forall p :: p in NewPdfs(paths, ix) <==> p in paths && p !in ix
  {
    if paths != [] {
      NewPdfsMembers(paths[1..], ix);
      assert paths == [paths[0]] + paths[1..];
    }
  }

  /** `[embed_func(chunk["text"]) for chunk in chunks]`: one vector per chunk, whatever
      it is, or `None` when a call raised. */
  function EmbedAll(chunks: seq<Chunk>, embed: string -> Option<Vector>): (r: Option<seq<Vector>>)
    ensures r.Some? <==> forall k :: 0 <= k < |chunks| ==> embed(chunks[k].text).Some?
    ensures r.Some? ==>
      && |r.value| == |chunks|
      && forall k :: 0 <= k < |chunks| ==> Some(r.value[k]) == embed(chunks[k].text)
  {
    if forall k :: 0 <= k < |chunks| ==> embed(chunks[k].text).Some? then
      Some(seq(|chunks|, k requires 0 <= k < |chunks| => embed(chunks[k].text).value))
    else None
  }

  /** The chunks `load_pdf_chunks(path)` gives, or `None` when opening the file raised.
      With the default sizes the chunker never fails. */
  function PathChunks(path: string, pagesOf: string -> Option<seq<string>>): Option<seq<Chunk>> {
    match pagesOf(path)
    case None => None
    case Some(pages) =>
      var r := PdfLoader.LoadPdfChunks(pages, path, PdfLoader.DefaultChunkSize, PdfLoader.DefaultOverlap);
      if r.Ok? then Some(r.value) else None
  }

  datatype PathOutcome = Aborted | NoText | Stored(ids: seq<string>)

  /** The loop body for one path: no chunks skips it unrecorded; otherwise every chunk
      is embedded and the store's ids are recorded.  Any exception aborts. */
  function Outcome(path: string, pagesOf: string -> Option<seq<string>>,
                   embed: string -> Option<Vector>,
                   add: (seq<Chunk>, seq<Vector>) -> Option<seq<string>>): (o: PathOutcome)
    ensures o.NoText? <==> PathChunks(path, pagesOf) == Some([])
    ensures o.Stored? <==>
      var cs := PathChunks(path, pagesOf);
      && cs.Some? && cs.value != []
      && EmbedAll(cs.value, embed).Some?
      && add(cs.value, EmbedAll(cs.value, embed).value).Some?
    ensures o.Stored? ==>
      Some(o.ids) == add(PathChunks(path, pagesOf).value, EmbedAll(PathChunks(path, pagesOf).value, embed).value)
  {
    match PathChunks(path, pagesOf)
    case None => Aborted
    case Some(chunks) =>
      if chunks == [] then NoText
      else
        match EmbedAll(chunks, embed)
        case None => Aborted
        case Some(embs) =>
          match add(chunks, embs)
          case None => Aborted
          case Some(ids) => Stored(ids)
  }

  /** The loop of `process_new_pdfs` over the selected paths; `None` when it raised. */
  function PdfLoop(ix: PdfIndex, paths: seq<string>, pagesOf: string -> Option<seq<string>>,
                   embed: string -> Option<Vector>,
                   add: (seq<Chunk>, seq<Vector>) -> Option<seq<string>>): (r: Option<PdfIndex>)
    ensures r.Some? <==> forall k :: 0 <= k < |paths| ==> !Outcome(paths[k], pagesOf, embed, add).Aborted?
    ensures r.Some? ==> forall p :: p in ix && p !in paths ==> p in r.value && r.value[p] == ix[p]
    ensures r.Some? ==> forall p :: p in r.value && p !in ix ==> p in paths
    decreases |paths|
  {
    if paths == [] then Some(ix)
    else
      var rest := paths[1..];
      assert forall k :: 1 <= k < |paths| ==> paths[k] == rest[k - 1];
      match Outcome(paths[0], pagesOf, embed, add)
      case Aborted => None
      case NoText => PdfLoop(ix, rest, pagesOf, embed, add)
      case Stored(ids) => PdfLoop(ix[paths[0] := ids], rest, pagesOf, embed, add)
  }

  datatype RunOutcome = Failed | UpToDate | Written(index: PdfIndex)

  /** `process_new_pdfs(embed_func, add_func)`: a corrupt track file or any failure in
      the loop raises before anything is written; with nothing new the run returns
      without writing; otherwise the index is written once, after the loop.  Entries
      already in the index are never modified. */
  function ProcessNewPdfs(track: TrackFile, listing: seq<string>,
                          pagesOf: string -> Option<seq<string>>, embed: string -> Option<Vector>,
                          add: (seq<Chunk>, seq<Vector>) -> Option<seq<string>>): (r: RunOutcome)
    ensures r.UpToDate? <==> !track.Corrupt? && NewPdfs(GetAllPdfPaths(listing), LoadIndex(track).value) == []
    ensures r.Written? ==> !track.Corrupt?
    ensures r.Written? && !track.Corrupt? ==>
      var ix := LoadIndex(track).value;
      && (forall p :: p in ix ==> p in r.index && r.index[p] == ix[p])
      && (forall p :: p in r.index && p !in ix ==> p in GetAllPdfPaths(listing))
  {
    match LoadIndex(track)
    case Err(_) => Failed
    case Ok(ix) =>
      var selected := NewPdfs(GetAllPdfPaths(listing), ix);
      NewPdfsMembers(GetAllPdfPaths(listing), ix);
      if selected == [] then UpToDate
      else
        match PdfLoop(ix, selected, pagesOf, embed, add)
        case None => Failed
        case Some(out) => Written(out)
  }

  // ---------------------------------------------------------------------------
  // Lemmas

  /** A path already in the index is never selected again, whatever happened to the
      file since: an edited PDF is not re-ingested. */
  lemma IndexedNeverReselected(paths: seq<string>, ix: PdfIndex, p: string)
    requires p in ix
    ensures p !in NewPdfs(paths, ix)
  {
    NewPdfsMembers(paths, ix);
  }

  /** Selection distributes over concatenation, so it keeps listing order. */
  lemma {:induction false} NewPdfsConcat(a: seq<string>, b: seq<string>, ix: PdfIndex)
    ensures NewPdfs(a + b, ix) == NewPdfs(a, ix) + NewPdfs(b, ix)
  {
    if a != [] {
      var x, t := a[0], a[1..];
      assert a == [x] + t && a + b == [x] + (t + b);
      NewPdfsConcat(t, b, ix);
      NewPdfsCons(x, t, b, ix);
    } else {
      assert a + b == b;
    }
  }

  lemma NewPdfsCons(x: string, t: seq<string>, b: seq<string>, ix: PdfIndex)
    requires NewPdfs(t + b, ix) == NewPdfs(t, ix) + NewPdfs(b, ix)
    ensures NewPdfs([x] + (t + b), ix) == NewPdfs([x] + t, ix) + NewPdfs(b, ix)
  {
    var head := if x !in ix then [x] else [];
    assert ([x] + (t + b))[1..] == t + b;
    assert ([x] + t)[1..] == t;
    AppendAssoc(head, NewPdfs(t, ix), NewPdfs(b, ix));
  }

  /** After the loop, each path's key holds the ids stored for it, or is as before when
      the path had no text. */
  lemma {:induction false} PdfLoopAt(ix: PdfIndex, paths: seq<string>, p: string,
                                     pagesOf: string -> Option<seq<string>>,
                                     embed: string -> Option<Vector>,
                                     add: (seq<Chunk>, seq<Vector>) -> Option<seq<string>>)
    requires PdfLoop(ix, paths, pagesOf, embed, add).Some?
    requires p in paths
    decreases |paths|
    ensures var r := PdfLoop(ix, paths, pagesOf, embed, add).value;
      var o := Outcome(p, pagesOf, embed, add);
      && (o.Stored? ==> p in r && r[p] == o.ids)
      && (o.NoText? ==> (p in r <==> p in ix) && (p in ix ==> r[p] == ix[p]))
  {
    var o0 := Outcome(paths[0], pagesOf, embed, add);
    var ix1 := if o0.Stored? then ix[paths[0] := o0.ids] else ix;
    assert PdfLoop(ix, paths, pagesOf, embed, add) == PdfLoop(ix1, paths[1..], pagesOf, embed, add);
    if p in paths[1..] {
      PdfLoopAt(ix1, paths[1..], p, pagesOf, embed, add);
    }
  }

  /** Running again over the same folder selects exactly the new paths that had no
      text: a stored PDF is recorded for good. */
  lemma Rerun(track: TrackFile, listing: seq<string>, pagesOf: string -> Option<seq<string>>,
              embed: string -> Option<Vector>,
              add: (seq<Chunk>, seq<Vector>) -> Option<seq<string>>, p: string)
    requires ProcessNewPdfs(track, listing, pagesOf, embed, add).Written?
    ensures var ix := LoadIndex(track).value;
      var out := ProcessNewPdfs(track, listing, pagesOf, embed, add).index;
      var paths := GetAllPdfPaths(listing);
      var again := p in NewPdfs(paths, out);
      again <==> p in NewPdfs(paths, ix) && Outcome(p, pagesOf, embed, add).NoText?
  {
    var ix := LoadIndex(track).value;
    var selected := NewPdfs(GetAllPdfPaths(listing), ix);
    var out := ProcessNewPdfs(track, listing, pagesOf, embed, add).index;
    NewPdfsMembers(GetAllPdfPaths(listing), ix);
    NewPdfsMembers(GetAllPdfPaths(listing), out);
    if p in selected {
      PdfLoopAt(ix, selected, p, pagesOf, embed, add);
      var k :| 0 <= k < |selected| && selected[k] == p;
      assert !Outcome(selected[k], pagesOf, embed, add).Aborted?;
    }
  }

  /** Unlike the Drive tracker, an empty vector from the embedder is passed on to the
      store with the others: the vectors handed to `add_func` are one per chunk, in
      chunk order, unchecked. */
  lemma EmptyVectorsStored(path: string, pagesOf: string -> Option<seq<string>>,
                           embed: string -> Option<Vector>,
                           add: (seq<Chunk>, seq<Vector>) -> Option<seq<string>>, k: nat)
    requires PathChunks(path, pagesOf).Some?
    requires k < |PathChunks(path, pagesOf).value|
    requires EmbedAll(PathChunks(path, pagesOf).value, embed).Some?
    requires embed(PathChunks(path, pagesOf).value[k].text) == Some([])
    requires add(PathChunks(path, pagesOf).value, EmbedAll(PathChunks(path, pagesOf).value, embed).value).Some?
    ensures Outcome(path, pagesOf, embed, add).Stored?
    ensures EmbedAll(PathChunks(path, pagesOf).value, embed).value[k] == []
  {
  }

  /** A listed name is picked up whatever the case of its extension. */
  lemma UpperCaseExtension()
    ensures IsPdfName("REPORT.PDF") && IsPdfName("notes.Pdf") && !IsPdfName("notes.pdf.txt")
  {
    assert Lower("REPORT.PDF") == "report.pdf";
    assert Lower("notes.Pdf") == "notes.pdf";
    assert Lower("notes.pdf.txt")[9..] == ".txt";
  }
}

=== FILE: ranking.dfy ===
/** The ordering both rerankers use: Python's stable `sort(key=score, reverse=True)`,
    modelled as an insertion sort on scored hits.  Ties keep their input order. */
module Ranking {
  import opened Metadata

  /** A reranked candidate: `(doc, meta, score, warning)`. */
  datatype Hit = Hit(doc: string, meta: Meta, score: real, lowConfidence: bool)

  predicate SortedDesc(hs: seq<Hit>) {
    forall i, j :: 0 <= i < j < |hs| ==> hs[i].score >= hs[j].score
  }

  /** `h` placed before the first hit whose score does not exceed its own. */
  function Insert(h: Hit, hs: seq<Hit>): (r: seq<Hit>)
    requires SortedDesc(hs)
    ensures SortedDesc(r)
    ensures multiset(r) == multiset(hs) + multiset{h}
    ensures |r| == |hs| + 1
    ensures forall x :: x in r ==> x == h || x in hs
  {
    if hs == [] || hs[0].score <= h.score then [h] + hs
    else
      var rest := Insert(h, hs[1..]);
      assert forall j :: 0 <= j < |rest| ==> hs[0].score >= rest[j].score by {
        forall j | 0 <= j < |rest| ensures hs[0].score >= rest[j].score {
          assert rest[j] in rest;
        }
      }
      ConsSorted(hs[0], rest);
      assert hs == [hs[0]] + hs[1..];
      [hs[0]] + rest
  }

  lemma ConsSorted(x: Hit, rest: seq<Hit>)
    requires SortedDesc(rest)
    requires forall j :: 0 <= j < |rest| ==> x.score >= rest[j].score
    ensures SortedDesc([x] + rest)
  {
    forall i, j | 0 <= i < j < |[x] + rest| ensures ([x] + rest)[i].score >= ([x] + rest)[j].score {
      if i > 0 {
        assert ([x] + rest)[i] == rest[i - 1];
      }
      assert ([x] + rest)[j] == rest[j - 1];
    }
  }

  /** `sorted(hs, key=lambda x: x.score, reverse=True)`. */
  function SortDesc(hs: seq<Hit>): (r: seq<Hit>)
    ensures SortedDesc(r)
    ensures multiset(r) == multiset(hs)
    ensures |r| == |hs|
  {
    if hs == [] then []
    else
      assert hs == [hs[0]] + hs[1..];
      Insert(hs[0], SortDesc(hs[1..]))
  }

  /** The hits of `hs` whose score is exactly `v`, in their order in `hs`. */
  function WithScore(hs: seq<Hit>, v: real): seq<Hit> {
    if hs == [] then []
    else if hs[0].score == v then [hs[0]] + WithScore(hs[1..], v)
    else WithScore(hs[1..], v)
  }

  // ---------------------------------------------------------------------------
  // Lemmas

  /** Inserting keeps the hits of every score in order, `h` going first among its
      equals because it came first in the input. */
  lemma {:induction false} InsertStable(h: Hit, hs: seq<Hit>, v: real)
    requires SortedDesc(hs)
    ensures WithScore(Insert(h, hs), v)
      == (if h.score == v then [h] + WithScore(hs, v) else WithScore(hs, v))
  {
    if hs == [] || hs[0].score <= h.score {
      assert Insert(h, hs) == [h] + hs;
      assert ([h] + hs)[1..] == hs;
    } else {
      var rest := Insert(h, hs[1..]);
      assert Insert(h, hs) == [hs[0]] + rest;
      assert ([hs[0]] + rest)[1..] == rest;
      InsertStable(h, hs[1..], v);
    }
  }

  /** Stability: for every score, the hits with that score appear in the sorted output
      in exactly their input order. */
  lemma {:induction false} SortStable(hs: seq<Hit>, v: real)
    ensures WithScore(SortDesc(hs), v) == WithScore(hs, v)
  {
    if hs != [] {
      SortStable(hs[1..], v);
      InsertStable(hs[0], SortDesc(hs[1..]), v);
    }
  }

  /** Sorting a list that is already in descending order changes nothing. */
  lemma {:induction false} SortSorted(hs: seq<Hit>)
    requires SortedDesc(hs)
    ensures SortDesc(hs) == hs
  {
    if hs != [] {
      var tail := hs[1..];
      assert SortedDesc(tail) by {
        forall i, j | 0 <= i < j < |tail| ensures tail[i].score >= tail[j].score {
          assert tail[i] == hs[i + 1] && tail[j] == hs[j + 1];
        }
      }
      SortSorted(tail);
      assert tail == [] || tail[0].score <= hs[0].score;
      assert Insert(hs[0], tail) == [hs[0]] + tail;
      assert hs == [hs[0]] + tail;
    }
  }
}

=== FILE: retriever.dfy ===
/** `retriever`: the local PDF store's chunk ids, the normalisation of a similarity
    query's reply, and the plain reranker.  ChromaDB and the cosine similarity are
    outside the model: a query reply is an input and `cos_sim` a function parameter. */
module Retriever {
  import opened Wrappers
  import opened Strings
  import opened Metadata
  import opened Ranking
  import Chunker
  import PdfLoader

  const DefaultThreshold: real := 0.2

  /** `f"{file}_{page}_{chunk_index}"`, or `None` when one of the keys is missing
      (the KeyError that aborts `add_chunks` before anything is stored). */
  function LocalId(m: Meta): Option<string> {
    if m.file.Some? && m.page.Some? && m.chunkIndex.Some? then
      Some(m.file.value + "_" + IntToString(m.page.value) + "_" + IntToString(m.chunkIndex.value))
    else None
  }

  /** `add_chunks(chunks, embeddings)`: the `collection.add` call it makes, whose `ids`
      are also its return value, or `None` when building an id raised. */
  function AddChunks(chunks: seq<Chunk>, embeddings: seq<Vector>): (r: Option<AddCall>)
    ensures r.Some? <==> forall k :: 0 <= k < |chunks| ==> LocalId(chunks[k].meta).Some?
    ensures r.Some? ==>
      && |r.value.ids| == |r.value.documents| == |r.value.metadatas| == |chunks|
      && r.value.embeddings == embeddings
      && forall k :: 0 <= k < |chunks| ==>
           && Some(r.value.ids[k]) == LocalId(chunks[k].meta)
           && r.value.documents[k] == chunks[k].text
           && r.value.metadatas[k] == chunks[k].meta
  {
    if forall k :: 0 <= k < |chunks| ==> LocalId(chunks[k].meta).Some? then
      Some(AddCall(seq(|chunks|, k requires 0 <= k < |chunks| => chunks[k].text),
                   seq(|chunks|, k requires 0 <= k < |chunks| => chunks[k].meta),
                   seq(|chunks|, k requires 0 <= k < |chunks| => LocalId(chunks[k].meta).value),
                   embeddings))
    else None
  }

  /** The result normalisation of `search_similar_chunks`: a reply without embeddings,
      without documents or with an empty first document list gives `None`, and so does
      any error on the way (indexing an absent or empty list raises and is caught);
      otherwise the first query's three lists. */
  function SearchSimilarChunks(reply: QueryReply): (r: Option<Retrieved>)
    ensures r.Some? <==>
      && reply.Reply?
      && reply.embeddings.Some? && reply.embeddings.value != []
      && reply.documents.Some? && reply.documents.value != [] && reply.documents.value[0] != []
      && reply.metadatas.Some? && reply.metadatas.value != []
    ensures r.Some? ==> r.value == Retrieved(reply.documents.value[0], reply.embeddings.value[0],
                                             reply.metadatas.value[0])
  {
    match reply
    case Raised => None
    case Reply(docs, embs, metas) =>
      if embs.None? then None
      else if docs.None? || docs.value == [] || docs.value[0] == [] then None
      else if embs.value == [] || metas.None? || metas.value == [] then None
      else Some(Retrieved(docs.value[0], embs.value[0], metas.value[0]))
  }

  function Min3(a: nat, b: nat, c: nat): nat {
    if a <= b && a <= c then a else if b <= c then b else c
  }

  /** `zip(docs, metas, scores)`, each triple flagged when its score is below the
      threshold; `zip` stops at the shortest list. */
  function Candidates(docs: seq<string>, metas: seq<Meta>, scores: seq<real>, threshold: real)
    : (cs: seq<Hit>)
    ensures |cs| == Min3(|docs|, |metas|, |scores|)
  {
    var n := Min3(|docs|, |metas|, |scores|);
    seq(n, i requires 0 <= i < n => Hit(docs[i], metas[i], scores[i], scores[i] < threshold))
  }

  /** `cos_sim(query_embedding, embs)[0]`: one similarity per stored vector. */
  function Scores(query: Vector, embs: seq<Vector>, cos: (Vector, Vector) -> real): (s: seq<real>)
    ensures |s| == |embs|
  {
    seq(|embs|, i requires 0 <= i < |embs| => cos(query, embs[i]))
  }

  /** `rerank_results(query_embedding, docs, embs, metas, threshold)`.  The source sorts
      the `(doc, meta, score)` triples and then flags each; the flag depends on the score
      alone, so flagging first and sorting the flagged hits gives the same list. */
  function RerankResults(query: Vector, docs: seq<string>, embs: seq<Vector>, metas: seq<Meta>,
                         cos: (Vector, Vector) -> real, threshold: real): (r: seq<Hit>)
    ensures var cands := Candidates(docs, metas, Scores(query, embs, cos), threshold);
      && SortedDesc(r)
      && multiset(r) == multiset(cands)
      && |r| == Min3(|docs|, |metas|, |embs|)
    ensures forall i :: 0 <= i < |r| ==> r[i].lowConfidence == (r[i].score < threshold)
  {
    var cands := Candidates(docs, metas, Scores(query, embs, cos), threshold);
    var r := SortDesc(cands);
    assert forall i :: 0 <= i < |r| ==> r[i] in multiset(cands);
    r
  }

  // ---------------------------------------------------------------------------
  // Lemmas

  /** A local id determines file, page and chunk index: integers never render with an
      underscore, so the last two underscores delimit them whatever the file name is. */
  lemma LocalIdInjective(m1: Meta, m2: Meta)
    requires LocalId(m1).Some? && LocalId(m1) == LocalId(m2)
    ensures m1.file == m2.file && m1.page == m2.page && m1.chunkIndex == m2.chunkIndex
  {
    UnderscoreIntInjective(m1.file.value + "_" + IntToString(m1.page.value), m1.chunkIndex.value,
                           m2.file.value + "_" + IntToString(m2.page.value), m2.chunkIndex.value);
    UnderscoreIntInjective(m1.file.value, m1.page.value, m2.file.value, m2.page.value);
  }

  /** The ids `add_chunks` gives the chunks of one `load_pdf_chunks` result are pairwise
      distinct. */
  lemma PdfIdsDistinct(pages: seq<string>, path: string, size: int, overlap: int, a: nat, b: nat)
    requires Chunker.ValidConfig(size, overlap)
    requires a < b < |PdfLoader.LoadPdfChunks(pages, path, size, overlap).value|
    ensures var cs := PdfLoader.LoadPdfChunks(pages, path, size, overlap).value;
      LocalId(cs[a].meta).Some? && LocalId(cs[a].meta) != LocalId(cs[b].meta)
  {
    PdfLoader.LoadPdfChunksShape(pages, path, size, overlap);
    PdfLoader.PdfPositionsDistinct(pages, path, size, overlap, a, b);
    var cs := PdfLoader.LoadPdfChunks(pages, path, size, overlap).value;
    var step := size - overlap;
    assert PdfLoader.FromPage(cs[a], pages, 1, path, size, step);
    assert PdfLoader.FromPage(cs[b], pages, 1, path, size, step);
    if LocalId(cs[a].meta) == LocalId(cs[b].meta) {
      LocalIdInjective(cs[a].meta, cs[b].meta);
    }
  }

  /** Storing a PDF's chunks never raises, and every chunk gets its own id. */
  lemma AddPdfChunks(pages: seq<string>, path: string, size: int, overlap: int,
                     embeddings: seq<Vector>)
    requires Chunker.ValidConfig(size, overlap)
    ensures var cs := PdfLoader.LoadPdfChunks(pages, path, size, overlap).value;
      var r := AddChunks(cs, embeddings);
      && r.Some?
      && forall a, b :: 0 <= a < b < |cs| ==> r.value.ids[a] != r.value.ids[b]
  {
    PdfLoader.LoadPdfChunksShape(pages, path, size, overlap);
    var cs := PdfLoader.LoadPdfChunks(pages, path, size, overlap).value;
    forall k | 0 <= k < |cs| ensures LocalId(cs[k].meta).Some? {
      assert PdfLoader.FromPage(cs[k], pages, 1, path, size, size - overlap);
    }
    var r := AddChunks(cs, embeddings);
    forall a, b | 0 <= a < b < |cs| ensures r.value.ids[a] != r.value.ids[b] {
      PdfIdsDistinct(pages, path, size, overlap, a, b);
    }
  }

  /** Reranking keeps tied candidates in their retrieval order. */
  lemma RerankStable(query: Vector, docs: seq<string>, embs: seq<Vector>, metas: seq<Meta>,
                     cos: (Vector, Vector) -> real, threshold: real, v: real)
    ensures WithScore(RerankResults(query, docs, embs, metas, cos, threshold), v)
         == WithScore(Candidates(docs, metas, Scores(query, embs, cos), threshold), v)
  {
    SortStable(Candidates(docs, metas, Scores(query, embs, cos), threshold), v);
  }
}

=== FILE: strings.dfy ===
/** The Python string operations the pipelines rely on: `str.split()`, `str.split(sep)`,
    `sep.join(...)`, `str.strip()`, `str.lower()`, `endswith`, `in` and `str(int)`. */
module Strings {

  /** Python's `str.isspace` for one character: the characters `str.split()` and
      `str.strip()` treat as whitespace. */
  predicate IsSpace(c: char) {
    c == ' ' || c == '\t' || c == '\n' || c == '\r' || c == '\U{000B}' || c == '\U{000C}'
    || ('\U{001C}' <= c <= '\U{001F}') || c == '\U{0085}' || c == '\U{00A0}' || c == '\U{1680}'
    || ('\U{2000}' <= c <= '\U{200A}') || c == '\U{2028}' || c == '\U{2029}' || c == '\U{202F}'
    || c == '\U{205F}' || c == '\U{3000}'
  }

  predicate AllSpace(s: string) {
    forall i :: 0 <= i < |s| ==> IsSpace(s[i])
  }

  /** A word as `str.split()` produces it: non-empty and free of whitespace. */
  predicate IsWord(w: string) {
    |w| > 0 && forall i :: 0 <= i < |w| ==> !IsSpace(w[i])
  }

  predicate AllWords(ws: seq<string>) {
    forall k :: 0 <= k < |ws| ==> IsWord(ws[k])
  }

  /** Length of the run of non-whitespace characters that starts `s`. */
  function TokenLen(s: string): (n: nat)
    ensures n <= |s|
    ensures forall i :: 0 <= i < n ==> !IsSpace(s[i])
    ensures n < |s| ==> IsSpace(s[n])
  {
    if s == [] || IsSpace(s[0]) then 0 else 1 + TokenLen(s[1..])
  }

  /** Python's `s.split()` with no argument: the maximal whitespace-free runs, in order. */
  function Words(s: string): (ws: seq<string>)
    ensures AllWords(ws)
    decreases |s|
  {
    if s == [] then []
    else if IsSpace(s[0]) then Words(s[1..])
    else
      var k := TokenLen(s);
      [s[..k]] + Words(s[k..])
  }

  /** `sep.join(ws)`. */
  function Join(ws: seq<string>, sep: string): string {
    if |ws| == 0 then ""
    else if |ws| == 1 then ws[0]
    else ws[0] + sep + Join(ws[1..], sep)
  }

  /** Python's `s.split(c)` for a one-character separator: the pieces between
      occurrences of `c`; there is always at least one piece. */
  function Split(s: string, c: char): (parts: seq<string>)
    ensures |parts| >= 1
    ensures forall k :: 0 <= k < |parts| ==> c !in parts[k]
  {
    if s == [] then [""]
    else if s[0] == c then [""] + Split(s[1..], c)
    else
      var rest := Split(s[1..], c);
      [[s[0]] + rest[0]] + rest[1..]
  }

  /** Number of leading whitespace characters. */
  function LeftEnd(s: string): (n: nat)
    ensures n <= |s|
    ensures forall i :: 0 <= i < n ==> IsSpace(s[i])
    ensures n < |s| ==> !IsSpace(s[n])
  {
    if s != [] && IsSpace(s[0]) then 1 + LeftEnd(s[1..]) else 0
  }

  /** Length of `s` without its trailing whitespace. */
  function RightEnd(s: string): (n: nat)
    ensures n <= |s|
    ensures forall i :: n <= i < |s| ==> IsSpace(s[i])
    ensures n > 0 ==> !IsSpace(s[n - 1])
  {
    if s != [] && IsSpace(s[|s| - 1]) then RightEnd(s[..|s| - 1]) else |s|
  }

  /** Leading whitespace removed: the longest suffix not starting with whitespace. */
  function TrimLeft(s: string): string {
    s[LeftEnd(s)..]
  }

  /** Trailing whitespace removed: the longest prefix not ending with whitespace. */
  function TrimRight(s: string): string {
    s[..RightEnd(s)]
  }

  /** Python's `s.strip()`. */
  function Strip(s: string): string {
    TrimRight(TrimLeft(s))
  }

  /** Python's `not s.strip()`. */
  predicate IsBlank(s: string) {
    Strip(s) == ""
  }

  /** `str.lower()` on ASCII letters; other characters are left as they are. */
  function LowerChar(c: char): char {
    if 'A' <= c <= 'Z' then (c as int + 32) as char else c
  }

  function Lower(s: string): (r: string)
    ensures |r| == |s|
  {
    seq(|s|, i requires 0 <= i < |s| => LowerChar(s[i]))
  }

  predicate StartsWith(s: string, prefix: string) {
    |prefix| <= |s| && s[..|prefix|] == prefix
  }

  predicate EndsWith(s: string, suffix: string) {
    |suffix| <= |s| && s[|s| - |suffix|..] == suffix
  }

  /** Python's `sub in s`. */
  predicate Contains(s: string, sub: string)
    decreases |s|
  {
    StartsWith(s, sub) || (s != [] && Contains(s[1..], sub))
  }

  /** Python's `str(n)` for a non-negative integer: decimal digits, no leading zeros. */
  function NatToString(n: nat): (r: string)
    ensures |r| >= 1
    ensures n >= 10 ==> |r| >= 2
    ensures forall i :: 0 <= i < |r| ==> '0' <= r[i] <= '9'
  {
    if n < 10 then [Digit(n)]
    else NatToString(n / 10) + [Digit(n % 10)]
  }

  /** The decimal digit for `d`. */
  function Digit(d: nat): (c: char)
    requires d < 10
    ensures '0' <= c <= '9'
  {
    ('0' as int + d) as char
  }

  /** Python's `str(i)` for any integer. */
  function IntToString(i: int): (r: string)
    ensures forall k :: 0 <= k < |r| ==> r[k] == '-' || '0' <= r[k] <= '9'
  {
    if i < 0 then "-" + NatToString(-i) else NatToString(i)
  }

  // ---------------------------------------------------------------------------
  // Lemmas

  /** Concatenation regroups freely. */
  lemma AppendAssoc<T>(a: seq<T>, b: seq<T>, c: seq<T>)
    ensures a + (b + c) == (a + b) + c
  {
  }

  lemma {:induction false} TokenLenOfWord(w: string, t: string)
    requires forall i :: 0 <= i < |w| ==> !IsSpace(w[i])
    requires t == [] || IsSpace(t[0])
    ensures TokenLen(w + t) == |w|
  {
    if w != [] {
      assert (w + t)[1..] == w[1..] + t;
      TokenLenOfWord(w[1..], t);
    }
  }

  /** Splitting words joined by single spaces gives the words back: a chunk's
      text re-splits into exactly the words of its window. */
  lemma {:induction false} WordsOfJoin(ws: seq<string>)
    requires AllWords(ws)
    ensures Words(Join(ws, " ")) == ws
  {
    if |ws| == 0 {
    } else if |ws| == 1 {
      var w := ws[0];
      TokenLenOfWord(w, []);
      assert w + [] == w;
      assert w[|w|..] == [];
    } else {
      var w := ws[0];
      var rest := Join(ws[1..], " ");
      var s := w + " " + rest;
      assert s == w + (" " + rest);
      TokenLenOfWord(w, " " + rest);
      assert s[..|w|] == w;
      assert s[|w|..] == " " + rest;
      assert (" " + rest)[1..] == rest;
      WordsOfJoin(ws[1..]);
    }
  }

  /** A slice of a word list is a word list. */
  lemma SliceOfWords(ws: seq<string>, i: nat, j: nat)
    requires AllWords(ws) && i <= j <= |ws|
    ensures AllWords(ws[i..j])
  {
    forall k | 0 <= k < j - i ensures IsWord(ws[i..j][k]) {
      assert ws[i..j][k] == ws[i + k];
    }
  }

  lemma {:induction false} JoinOfWordsHasWord(ws: seq<string>)
    requires AllWords(ws) && |ws| > 0
    ensures Words(Join(ws, " ")) != []
  {
    WordsOfJoin(ws);
  }

  /** `s.split()` is empty exactly when `s` is all whitespace. */
  lemma {:induction false} WordsEmptyIffAllSpace(s: string)
    ensures Words(s) == [] <==> AllSpace(s)
    decreases |s|
  {
    if s != [] {
      if IsSpace(s[0]) {
        WordsEmptyIffAllSpace(s[1..]);
        if AllSpace(s[1..]) {
          forall i | 0 <= i < |s| ensures IsSpace(s[i]) {
            if i > 0 { assert s[i] == s[1..][i - 1]; }
          }
        }
      } else {
        assert !IsSpace(s[0]);
      }
    }
  }

  /** `not s.strip()` holds exactly when `s` is all whitespace. */
  lemma BlankIffAllSpace(s: string)
    ensures IsBlank(s) <==> AllSpace(s)
  {
    var n := LeftEnd(s);
    var l := s[n..];
    var m := RightEnd(l);
    assert |l| > 0 ==> l[0] == s[n] && !IsSpace(l[0]);
    if m == 0 {
      assert n == |s|;
    } else {
      assert l[0] == s[n];
      assert Strip(s)[0] == l[0];
    }
  }

  /** A string that neither starts nor ends with whitespace is its own `strip()`. */
  lemma StripUnchanged(s: string)
    requires s != [] && !IsSpace(s[0]) && !IsSpace(s[|s| - 1])
    ensures Strip(s) == s
  {
    assert LeftEnd(s) == 0 && TrimLeft(s) == s;
    assert RightEnd(s) == |s|;
  }

  /** A join begins with its first piece. */
  lemma {:induction false} JoinStartsWithFirst(ws: seq<string>, sep: string)
    requires |ws| > 0
    ensures StartsWith(Join(ws, sep), ws[0])
  {
    if |ws| > 1 {
      assert Join(ws, sep) == ws[0] + (sep + Join(ws[1..], sep));
    }
  }

  /** A join ends with its last piece. */
  lemma {:induction false} JoinEndsWithLast(ws: seq<string>, sep: string)
    requires |ws| > 0
    ensures EndsWith(Join(ws, sep), ws[|ws| - 1])
  {
    if |ws| > 1 {
      JoinEndsWithLast(ws[1..], sep);
      var j := Join(ws, sep);
      var tail := Join(ws[1..], sep);
      var last := ws[|ws| - 1];
      assert j == (ws[0] + sep) + tail;
      assert tail[|tail| - |last|..] == last;
      assert j[|j| - |last|..] == tail[|tail| - |last|..];
    }
  }

  /** Stripping twice strips nothing more. */
  lemma StripIdempotent(s: string)
    ensures Strip(Strip(s)) == Strip(s)
  {
    var n := LeftEnd(s);
    var t := s[n..];
    var m := RightEnd(t);
    assert Strip(s) == t[..m];
    if m > 0 {
      assert t[0] == s[n];
      StripUnchanged(t[..m]);
    }
  }

  lemma BlankIffNoWords(s: string)
    ensures IsBlank(s) <==> Words(s) == []
  {
    BlankIffAllSpace(s);
    WordsEmptyIffAllSpace(s);
  }

  /** Joining the pieces of `s.split(c)` with `c` gives `s` back. */
  lemma {:induction false} JoinSplit(s: string, c: char)
    ensures Join(Split(s, c), [c]) == s
  {
    if s == [] {
    } else if s[0] == c {
      JoinSplit(s[1..], c);
      var rest := Split(s[1..], c);
      assert ([""] + rest)[1..] == rest;
      assert s == [c] + s[1..];
    } else {
      JoinSplit(s[1..], c);
      var rest := Split(s[1..], c);
      var parts := [[s[0]] + rest[0]] + rest[1..];
      if |rest| == 1 {
        assert s == [s[0]] + s[1..];
      } else {
        assert parts[1..] == rest[1..];
        assert Join(rest, [c]) == rest[0] + [c] + Join(rest[1..], [c]);
        assert s == [s[0]] + s[1..];
      }
    }
  }

  /** Decimal rendering is injective on naturals. */
  lemma {:induction false} NatToStringInjective(a: nat, b: nat)
    requires NatToString(a) == NatToString(b)
    ensures a == b
  {
    var sa, sb := NatToString(a), NatToString(b);
    assert (a < 10) == (|sa| == 1) && (b < 10) == (|sb| == 1);
    if a < 10 {
      assert Digit(a) == sa[0] == sb[0] == Digit(b);
    } else {
      var pa, pb := NatToString(a / 10), NatToString(b / 10);
      assert sa == pa + [Digit(a % 10)] && sb == pb + [Digit(b % 10)];
      assert Digit(a % 10) == sa[|sa| - 1] == sb[|sb| - 1] == Digit(b % 10);
      assert pa == sa[..|sa| - 1] == sb[..|sb| - 1] == pb;
      NatToStringInjective(a / 10, b / 10);
      DivModUnique(a, b, 10);
    }
  }

  lemma DivModUnique(a: nat, b: nat, d: nat)
    requires d > 0 && a / d == b / d && a % d == b % d
    ensures a == b
  {
    assert a == (a / d) * d + a % d;
    assert b == (b / d) * d + b % d;
  }

  /** `str(i)` is injective on all integers. */
  lemma IntToStringInjective(a: int, b: int)
    requires IntToString(a) == IntToString(b)
    ensures a == b
  {
    var sa, sb := IntToString(a), IntToString(b);
    assert (a < 0) == (sa[0] == '-') && (b < 0) == (sb[0] == '-');
    if a < 0 {
      assert NatToString(-a) == sa[1..] == sb[1..] == NatToString(-b);
      NatToStringInjective(-a, -b);
    } else {
      NatToStringInjective(a, b);
    }
  }

  /** A string `p + [c] + d` in which `d` does not contain `c` splits uniquely at its
      last `c`. */
  lemma SeparatedSuffix(p1: string, d1: string, p2: string, d2: string, c: char)
    requires c !in d1 && c !in d2
    requires p1 + [c] + d1 == p2 + [c] + d2
    ensures p1 == p2 && d1 == d2
  {
    var s := p1 + [c] + d1;
    var t := p2 + [c] + d2;
    assert s[|p1|] == c && t[|p2|] == c;
    assert forall j :: |p1| < j < |s| ==> s[j] == d1[j - |p1| - 1] != c;
    assert forall j :: |p2| < j < |t| ==> t[j] == d2[j - |p2| - 1] != c;
    assert |p1| == |p2|;
    assert d1 == s[|p1| + 1..] == d2;
    assert p1 == s[..|p1|] == p2;
  }

  /** `p + "_" + str(i)` determines both `p` and `i`: the rendering of an integer
      never contains an underscore. */
  lemma UnderscoreIntInjective(p1: string, i1: int, p2: string, i2: int)
    requires p1 + "_" + IntToString(i1) == p2 + "_" + IntToString(i2)
    ensures p1 == p2 && i1 == i2
  {
    SeparatedSuffix(p1, IntToString(i1), p2, IntToString(i2), '_');
    IntToStringInjective(i1, i2);
  }
}

=== FILE: wrappers.dfy ===
/** Failure-compatible wrappers shared by the whole model. */
module Wrappers {

  /** A value that may be absent: a missing dictionary key, a `None` return. */
  datatype Option<+T> = None | Some(value: T) {

    /** The wrapped value, or `default` when absent (Python's `dict.get(key, default)`). */
    function GetOr(default: T): T {
      match this
      case Some(v) => v
      case None => default
    }
  }

  /** The outcome of an operation that can raise: `Ok` with its value, or `Err`. */
  datatype Result<+T, +E> = Ok(value: T) | Err(error: E)
}
